=== FILE: README.md ===
# DeltaEngine networking, content and input cores in Dafny

This project models the parts of the DeltaEngine XNA port that carry real
logic, and proves properties about them:

- **Frame reassembly** (`DataCollector`, `MessageData`). A TCP byte stream
  arrives in chunks of any size. It is cut into length-prefixed messages. A
  header is one byte below 255, or else the sentinel 255 followed by a
  4-byte `int` length, capped at 128 MiB.
- **Client registry** (`Server`, `MockServer`). It keeps the list of
  connected clients and raises events when clients connect, disconnect or
  send data. Every connect subscribes the server's handlers to the client
  once more and nothing ever unsubscribes them, so the model counts the
  subscriptions per client: one `Disconnected` from a client runs the
  handler once per subscription. Disposal goes over a snapshot of the list.
- **Online-service handshake**. On the client side,
  `OnlineServiceConnection` dispatches incoming messages to callbacks. On
  the server side, the test double `MockOnlineServer` answers login and log
  messages.
- **Content cache** (`ContentLoader`). It validates names and lets
  generated names bypass the cache. A cache hit returns the same instance,
  disposed entries are evicted, and a hit of the wrong type is refused.
  Missing content falls back to default data when the class allows it.
  What the concrete loader, the resolver and the content classes throw
  (`ContentNotReady`, `ContentFileDoesNotExist`, a content class's own
  errors) passes through `Load` and `Exists`, and nothing is cached then.
- **Developer content loader** (`DeveloperOnlineContentLoader`). It keeps
  the metadata file as a tree and indexes it in pre-order, where the first
  case-insensitive name wins. Entries are stored as attributes and read back
  from them. It replaces and deletes entries by name, and has a readiness
  latch.
- **Touch slots** (`TouchCollectionUpdater`). Ten slots track touch ids
  from frame to frame.
- **Small mappings and validators**. `XnaVertexFormat` converts vertex
  formats, `BitmapFormat` gives a video frame's layout, and
  `ShaderWithFormat` validates shader creation data and creates the
  built-in shaders.

Every operation is a pure function on an immutable state. Events and
callbacks are returned as traces, and an exception is an error value that
does not undo what happened before it. C# `int` arithmetic is kept to 32
bits where it matters: the signed 4-byte length and `Pitch * Height`.
`BitConverter` is taken to be little-endian.

The modules, by file:

| file | module |
|---|---|
| wrappers.dfy | `Option` and `Result` |
| numbers.dfy | bytes, 32-bit wrap-around, little-endian `int` |
| message_data.dfy | `MessageData` |
| data_collector.dfy | `DataCollector`, as written |
| frame_encoding.dfy | how a sender frames payloads |
| data_collector_proofs.dfy | round trips, fragmentation invariance for short headers, the sentinel loss |
| data_collector_corrected.dfy | the reassembler with the sentinel kept until its length has arrived and a length of -1 refused |
| server.dfy | `Server` |
| mock_server.dfy | `MockServer` |
| messages.dfy | the service messages |
| online_service_connection.dfy | `OnlineServiceConnection` |
| mock_online_server.dfy | `MockOnlineServer` |
| content_loader.dfy | `ContentLoader` |
| content_meta_data.dfy | the fields of `ContentMetaData` |
| metadata_xml.dfy | `ParseContentMetaData` and `ParseAttributes` |
| metadata_tree.dfy | the index walk and the tree edits |
| developer_content_loader.dfy | `DeveloperOnlineContentLoader` handlers |
| touch_collection_updater.dfy | `TouchCollectionUpdater` |
| xna_vertex_format.dfy | `XnaVertexFormat` |
| bitmap_format.dfy | `BitmapFormat` |
| shader_with_format.dfy | `ShaderWithFormat` |

## Model

| member | source | states |
|---|---|---|
| Numbers.Wrap32 | Multimedia/VideoStreams/Vlc/BitmapFormat.cs:16-17 | an unchecked `int` result lies in the 32-bit range, is congruent to the exact value modulo 2^32, and equals it when that fits |
| Numbers.Int32FromLittleEndian | Networking/Tcp/DataCollector.cs:57-62 | `BitConverter.ToInt32` is negative exactly when the top bit of the last byte is set, and is otherwise the little-endian value |
| Numbers.Int32ToLittleEndian | Networking/Tcp/DataCollector.cs:57-62 | the four bytes of a non-negative `int` are read back by `ToInt32` as that number |
| MessageData.New | Networking/Tcp/MessageData.cs:7-11 | a new container has exactly the requested length, is all zero, and nothing is read yet |
| MessageData.MissingByteCount | Networking/Tcp/MessageData.cs:26-29 | the bytes read plus the bytes missing make up the container length, and the missing count is never negative |
| MessageData.CompleteIffNothingMissing | Networking/Tcp/MessageData.cs:31-34 | a container is complete exactly when nothing is missing, so a zero-length container is complete at once |
| MessageData.ReadData | Networking/Tcp/MessageData.cs:16-24 | exactly min(missing, queued) bytes move, in order, from the queue front to the fill position; bytes before and after are unchanged; the rest of the queue stays; the container completes exactly when the queue held enough |
| MessageData.ReadDataKeepsWrittenBytes | Networking/Tcp/MessageData.cs:22-23 | a later fill never overwrites a byte already written |
| MessageData.ReadDataCompletes | Networking/Tcp/MessageData.cs:16-24 | a completing fill leaves the old bytes followed by the missing bytes from the queue |
| MessageData.ReadDataSplit | Networking/Tcp/MessageData.cs:16-24 | filling from `a` and then `b`, when `a` was used up, equals filling once from `a + b` |
| MessageData.FillFreshContainer | Networking/Tcp/MessageData.cs:7-24 | a fresh container filled from a long enough queue holds exactly the first n queued bytes and leaves the rest |
| DataCollector.GetMessageLength | Networking/Tcp/DataCollector.cs:43-66 | an empty queue gives no header; a byte below 255 is the length and only it is consumed; 255 with fewer than four bytes after it gives no header but is consumed; otherwise the next four bytes are the signed length, refused above 128 MiB |
| DataCollector.ReadBytes | Networking/Tcp/DataCollector.cs:25-41 | an empty queue without a container does nothing; a header of -1, which is also the "not enough bytes" marker, ends the call silently with the rest queued; any other negative length throws; a container left active has drained the queue and is incomplete |
| DataCollector.Fill | Networking/Tcp/DataCollector.cs:34-38 | after a completion the container is cleared and the leftover bytes are processed in the same call; an active container is incomplete with an empty queue |
| DataCollector.ReadBytesLeftover | Networking/Tcp/DataCollector.cs:25-53 | what stays queued is a suffix of the input; without an error or active container it is either shorter than four bytes or exactly what followed a long header reading -1 |
| DataCollector.ReadBytesFrom | Networking/Tcp/DataCollector.cs:18-23 | `data[start..n)` is appended, with n an end index and not a count, before the queue is processed; an empty range only processes; an index outside the array fails |
| FrameEncoding.EncodeHeader | Networking/Tcp/DataCollector.cs:47-62 | a sender's header is one byte below 255, otherwise 255 and four bytes that `ToInt32` reads as the length |
| DataCollectorProofs.HeaderRoundTrip | Networking/Tcp/DataCollector.cs:43-66 | every header a sender writes is read back as its length and consumes exactly its own bytes |
| DataCollectorProofs.OversizeRejected | Networking/Tcp/DataCollector.cs:63-64 | a declared length of 128 MiB + 1 throws `MessageLengthIsTooBig`, emits nothing and creates no container |
| DataCollectorProofs.ReadBytesOneFrame | Networking/Tcp/DataCollector.cs:34-38 | a complete frame at the queue front is emitted first, and the rest is processed in the same call |
| DataCollectorProofs.OneShotRoundTrip | Networking/Tcp/DataCollector.cs:25-39 | a whole encoded stream fed at once gives back exactly its payloads, in order, and leaves the collector empty |
| DataCollectorProofs.ShortParseSplit | Networking/Tcp/DataCollector.cs:43-49 | parsing a short-header stream in two pieces, carrying the leftover over, equals parsing it whole |
| DataCollectorProofs.ShortFeed | Networking/Tcp/DataCollector.cs:18-39 | one feed of a short-header stream emits the complete payloads of the pending and new bytes, and keeps the unfinished frame pending |
| DataCollectorProofs.ChunkedShortFeed | Networking/Tcp/DataCollector.cs:18-39 | a sequence of feeds of a short-header stream emits the payloads of everything fed so far |
| DataCollectorProofs.ShortHeaderFragmentationInvariance | Networking/Tcp/DataCollector.cs:18-39 | when every header is one byte, the frames emitted do not depend on how the stream is cut into reads |
| DataCollectorProofs.ShortRoundTrip | Networking/Tcp/DataCollector.cs:47-49 | short payloads are framed with short headers only and parse back to themselves |
| DataCollectorProofs.CollectDataScenario | Networking/Tests/Tcp/DataContainerTests.cs:18-38 | payloads of 6, 4 and 10 bytes make a 23-byte stream, and reads of 7, 7, 8 and 1 bytes yield exactly those three payloads |
| DataCollectorProofs.SentinelLoss | Networking/Tcp/DataCollector.cs:47-51 | a 255-byte payload read whole is delivered; read as the sentinel and then the rest, it is swallowed into a 16 MiB container that never completes |
| DataCollectorProofs.WholeFrame | Networking/Tcp/DataCollector.cs:25-39 | a single frame read whole yields its payload |
| DataCollectorProofs.LoneSentinelDropped | Networking/Tcp/DataCollector.cs:47-51 | a read that ends right after a sentinel consumes it and emits nothing |
| DataCollectorProofs.MisreadLength | Networking/Tcp/DataCollector.cs:50-62 | without its sentinel, a long header is taken for a new sentinel with the length 2^24 |
| DataCollectorProofs.MinusOneHeaderStops | Networking/Tcp/DataCollector.cs:29-31 | a long header of -1 (255 and four bytes of 255) stops the loop with everything after it still queued, no frame and no error |
| DataCollectorProofs.MinusOneChunking | Networking/Tcp/DataCollector.cs:29-41 | the stream 255 255 255 255 255 0 fed whole emits nothing and keeps the 0 queued, but fed as five bytes and then one it emits an empty frame |
| DataCollectorCorrected.ReadHeader | Networking/Tcp/DataCollector.cs:43-66 | as `GetMessageLength`, except that a sentinel without four bytes after it stays queued |
| DataCollectorCorrected.ReadBytes | Networking/Tcp/DataCollector.cs:25-41 | the corrected loop stops only when no header can be read yet, so when it stops without an error or container the leftover is too short for a header; a length of -1 throws like any negative length |
| DataCollectorCorrected.ChunkingInvariance | Networking/Tcp/DataCollector.cs:18-41 | with the sentinel kept queued and -1 no longer taken for the marker, the frames and the error do not depend on how the stream is cut into chunks |
| DataCollectorCorrected.OneShotRoundTrip | Networking/Tcp/DataCollector.cs:25-39 | the corrected collector gives back the payloads of a whole encoded stream |
| DataCollectorCorrected.ChunkedRoundTrip | Networking/Tcp/DataCollector.cs:18-66 | however the encoded stream of any sendable payloads is chunked, all payloads are delivered, in order, with no error |
| ServerRegistry.Count | Networking/Server.cs:25-26 | how often a client is registered is its multiplicity in the list |
| ServerRegistry.NumberOfConnectedClients | Networking/Server.cs:14-17 | the number of registrations, duplicates included: the length of the list and the size of its multiset |
| ServerRegistry.RemoveFirst | Networking/Server.cs:33-34 | `List.Remove` drops exactly the first occurrence, keeping the order of the others, and drops nothing when the client is absent |
| ServerRegistry.OnClientConnected | Networking/Server.cs:21-29 | both handlers are subscribed to the client once more, the client is appended, the count grows by one, and `ClientConnected` is raised once with it |
| ServerRegistry.OnClientDisconnected | Networking/Server.cs:31-37 | one run of the handler: one occurrence of the client leaves the list, none if it was absent, and `ClientDisconnected` is raised in both cases |
| ServerRegistry.OnClientDataReceived | Networking/Server.cs:42-46 | the message is raised with the client it came from, and the registry is unchanged |
| ServerRegistry.ClientRaisedDisconnected | Networking/Server.cs:23-37 | a client's `Disconnected` runs the handler once per subscription, raising `ClientDisconnected` that often; when there are at least as many subscriptions as registrations the client is removed entirely |
| ServerRegistry.ClientRaisedDataReceived | Networking/Server.cs:24-46 | a client's `DataReceived` raises `ClientDataReceived` once per subscription, and the registry is unchanged |
| ServerRegistry.ConnectThenDisconnect | Networking/Server.cs:21-37 | a client that connects and then raises `Disconnected` leaves no registration behind and reports the disconnection once per subscription ever made for it; a new client gives back the very list |
| ServerRegistry.DoubleConnect | Networking/Server.cs:21-29 | without a duplicate check, connecting twice registers the client twice and subscribes the handlers twice, so one `Disconnected` removes both registrations and reports twice, and one message is raised twice |
| ServerRegistry.ReconnectReportsTwice | Networking/Server.cs:23 | handlers are never unsubscribed, so a client that left and connected again reports its next disconnection twice |
| ServerRegistry.Dispose | Networking/Server.cs:50-58 | every client of the snapshot is disposed in order; the first disposal of a client whose connection is live raises `Disconnected`, which removes all its registrations and reports `ClientDisconnected` once per subscription, and a second occurrence of the same client in the snapshot raises nothing again; each client reports exactly once per subscription or not at all, and exactly the other clients remain |
| ServerRegistry.DisposalReportsOnce | Networking/Server.cs:50-58 | over any list, duplicates included, disposal reports a client's disconnection once per subscription when its disposal raises `Disconnected` and never otherwise |
| MockServerModel.New | Networking/Mocks/MockServer.cs:12-17 | a new mock server is not running, listens on port 0, has no clients and no last message |
| MockServerModel.Start | Networking/Mocks/MockServer.cs:19-23 | starting sets running and the port and leaves the clients alone |
| MockServerModel.ClientConnectedToServer | Networking/Mocks/MockServer.cs:25-28 | exactly one new, distinct connection for the client is appended, and no event is raised |
| MockServerModel.ClientDisconnectedFromServer | Networking/Mocks/MockServer.cs:30-33 | all connections are dropped at once |
| MockServerModel.OnClientDataReceived | Networking/Mocks/MockServer.cs:12-17 | the event is raised and the message becomes `LastMessage` |
| MockServerModel.ReceiveMessage | Networking/Mocks/MockServer.cs:41-50 | the message goes once to each connection of the sender, in list order, and to no other connection; the list is unchanged |
| MockServerModel.ReceiveAll | Networking/Mocks/MockServer.cs:12-17 | `LastMessage` is the message of the latest `ClientDataReceived` event |
| MockServerModel.ServerScenarios | Networking/Tests/ServerTests.cs:9-26 | a fresh server has port 0 and no clients, one connect gives one client, and `Start(800)` runs it on port 800 |
| MockServerModel.TwoConnectionsOneClient | Networking/Mocks/MockServer.cs:25-28 | connecting one client twice gives two distinct connections, and its message is forwarded twice |
| OnlineServiceConnection.CreateForAppRunner | Networking/Tcp/OnlineServiceConnection.cs:15-26 | a new connection has the error and ready callbacks it was given and is not logged in |
| OnlineServiceConnection.OnConnected | Networking/Tcp/OnlineServiceConnection.cs:21-22 | on connect exactly one `LoginRequest` with the API key and the project name is sent |
| OnlineServiceConnection.OnDataReceived | Networking/Tcp/OnlineServiceConnection.cs:41-62 | at most one branch runs: errors and unknown messages go to the error callback; `LoginSuccessful` sets the flag and calls `LoggedIn`; `ContentReady` loads the metadata, failing when that is null, and then calls `contentReady`; only the flag changes |
| OnlineServiceConnection.DispatchInvariants | Networking/Tcp/OnlineServiceConnection.cs:43-64 | over any message stream the logged-in flag never goes back, the callbacks are unchanged, and `contentReady` always directly follows `loadContentMetaData` |
| MockOnlineServerModel.New | Networking/Tests/Tcp/MockOnlineServer.cs:8-11 | a new online mock server is not logged in |
| MockOnlineServerModel.SendBackToClient | Networking/Tests/Tcp/MockOnlineServer.cs:13-38 | a login without an API key is refused, one with a key logs in and answers `LoginSuccessful("TestUser")`; a log message is refused only before a login; anything else is reported as not supported |
| MockOnlineServerModel.Receive | Networking/Tests/Tcp/MockOnlineServer.cs:8-21 | the message is recorded as `LastMessage` first, then answered with at most one reply to its own connection; the login flag never goes back |
| MockOnlineServerModel.ReceiveAllInvariants | Networking/Tests/Tcp/MockOnlineServer.cs:13-40 | over any message stream there is at most one reply per message, all go to the sender, and the login flag is monotone |
| MockOnlineServerModel.Handshake | Networking/Tcp/OnlineServiceConnection.cs:21-55 | with an API key both ends are logged in after the handshake and the client's `LoggedIn` runs; without one neither is, and the client's error callback gets the refusal |
| ContentLoaderModel.NewLoader | Content/ContentLoader.cs:14-20 | a new loader has an empty cache and the locale "en" |
| ContentLoaderModel.HasExtensionIff | Content/ContentLoader.cs:35 | a name has an extension exactly when it has a dot, not as its last character, with no dot or separator after it |
| ContentLoaderModel.LoadMetaDataAndContent | Content/ContentLoader.cs:100-116 | what `GetMetaData` throws is passed on; content with metadata is loaded, passing on what loading throws; without metadata it gets default data when its class allows it, passing on what creating that throws; else `ContentNotFound` |
| ContentLoaderModel.LoadAndCacheContent | Content/ContentLoader.cs:89-95 | when resolving throws nothing is created or cached; otherwise a new instance is created and gets the metadata found, and it is cached under the name exactly when loading succeeds, the loading error being thrown otherwise with the cache unchanged |
| ContentLoaderModel.GetCachedResource | Content/ContentLoader.cs:145-153 | the cached instance is returned when it has the requested type, and `CachedResourceExistsButIsOfTheWrongType` is thrown otherwise |
| ContentLoaderModel.Load | Content/ContentLoader.cs:47-62 | no loader, no resolver and a failing readiness check throw in that order; a generated name gets a fresh uncached instance if it resolves; a live cache entry is returned as it is; a missing or disposed one is replaced by a fresh load, cached only when resolving and loading succeed |
| ContentLoaderModel.LoadTyped | Content/ContentLoader.cs:32-38 | a non-generated name with an extension is refused before anything else, and no other name is refused for that |
| ContentLoaderModel.Exists | Content/ContentLoader.cs:67-84 | whether metadata exists for the name, and of the given type when there is one; without a loader it throws `NoContentLoaderWasInitialized`, without a resolver it fails on the null reference, and what the readiness check and `GetMetaData` throw is passed on |
| ContentLoaderModel.ExistsIffLoadsFromMetaData | Content/ContentLoader.cs:67-109 | for an uncached name the resolver can instantiate, `Exists` fails exactly as `Load` does, with the cache unchanged, and otherwise says yes exactly when the new instance gets metadata; a name that cannot be resolved fails `Load` alone |
| ContentLoaderModel.NotReadyThrows | Content/Online/Tests/DeveloperOnlineContentLoaderTests.cs:56-65 | before the loader's content is ready, `Exists` throws `ContentNotReady`, and `Load` of an uncached name throws it too, unless resolving threw first, and caches nothing |
| ContentLoaderModel.RemoveResource | Content/ContentLoader.cs:205-209 | removing a cached name clears the whole cache, and any other name changes nothing |
| ContentLoaderModel.SetContentLocale | Content/ContentLoader.cs:180-191 | null and empty locales are ignored, so the locale never becomes empty |
| ContentLoaderModel.LoadAgainIsCacheHit | Content/ContentLoader.cs:58-59 | loading a name again after a successful load returns the same instance and changes nothing |
| ContentLoaderModel.DisposeThenLoadIsFresh | Content/ContentLoader.cs:58-61 | after its instance is disposed, a name loads a different, live instance, which becomes the cached one |
| ContentLoaderModel.GeneratedNeverCached | Content/ContentLoader.cs:40-43 | generated names never enter the cache, however many are loaded |
| ContentLoaderModel.RemoveResourceForcesReload | Content/ContentLoader.cs:205-209 | after removing a cached name no name is a cache hit: a new instance is created exactly when the resolver is ready and resolves the name |
| ContentLoaderModel.NameScenarios | Tests/Content/MockContentLoaderTests.cs:80-85 | "Test.xml" has an extension, `<GeneratedMockXml>` is generated, and "Content/Test" has no extension |
| MetaDataXml.GetAttributeValue | Content/Online/DeveloperOnlineContentLoader.cs:71 | the value of the first attribute with the name, or "" when there is none |
| MetaDataXml.ExtrasMembers | Content/Online/DeveloperOnlineContentLoader.cs:103-104 | exactly the attributes with no case of their own go to `Values` |
| MetaDataXml.LastValueIsLast | Content/Online/DeveloperOnlineContentLoader.cs:82-102 | a known field holds the value of its last attribute, and stays at its default when there is none |
| MetaDataXml.ApplyAll | Content/Online/DeveloperOnlineContentLoader.cs:82-106 | the attribute loop throws exactly when an extra attribute repeats a key |
| MetaDataXml.ParseContentMetaData | Content/Online/DeveloperOnlineContentLoader.cs:79-110 | parsing fails exactly on a repeated extra key or a missing or empty name; otherwise the name is the last `Name` attribute and the values are the extras in order |
| MetaDataXml.ParseAttributes | Content/Online/DeveloperOnlineContentLoader.cs:204-220 | Name, Type and LastTimeUpdated come first, then only the optional fields that are set, then the values in order |
| MetaDataXml.AttributesRoundTrip | Content/Online/DeveloperOnlineContentLoader.cs:79-110 | an entry written as attributes reads back as itself when it has a name, no language and only plain extra keys |
| MetaDataXml.LanguageLandsInValues | Content/Online/DeveloperOnlineContentLoader.cs:210-211 | a written language has no case when it is read, so it comes back as the first extra value and the language field stays null |
| MetaDataXml.LanguageSameReading | Content/Online/DeveloperOnlineContentLoader.cs:204-220 | writing the language, or the same value as the first extra value, reads back the same |
| MetaDataTree.Lookup | Content/Online/DeveloperOnlineContentLoader.cs:118-119 | a lookup finds an entry exactly when the index holds the key in some letter case |
| MetaDataTree.Visit | Content/Online/DeveloperOnlineContentLoader.cs:70-73 | visiting a node adds at most one entry, never for the root or a key already present, and keeps keys distinct |
| MetaDataTree.ParseXmlNode | Content/Online/DeveloperOnlineContentLoader.cs:66-77 | below the root the recursive walk equals visiting the subtree's nodes in pre-order; from the root, the root is parsed, and can throw, but is not indexed, and then all other nodes are visited in pre-order; distinct keys stay distinct |
| MetaDataTree.ParseChildren | Content/Online/DeveloperOnlineContentLoader.cs:75-76 | the children's subtrees in order equal the visit of their nodes in pre-order, stopping at the first exception |
| MetaDataTree.FirstWins | Content/Online/DeveloperOnlineContentLoader.cs:72-73 | after the walk a lookup gives the first visited node with the key in any letter case |
| MetaDataTree.UpdateContentMetaDataFile | Content/Online/DeveloperOnlineContentLoader.cs:185-202 | the first child with the name is removed if there is one, the others keep their order, and the new entry becomes the last child |
| MetaDataTree.UpdateIdempotent | Content/Online/DeveloperOnlineContentLoader.cs:185-202 | updating twice with the same entry is updating once |
| MetaDataTree.UpdateAppends | Content/Online/DeveloperOnlineContentLoader.cs:185-202 | an entry whose name no child has is appended |
| MetaDataTree.LastChildNamed | Content/Online/DeveloperOnlineContentLoader.cs:228-231 | the search keeps the last child whose name matches |
| MetaDataTree.DeleteLocalContent | Content/Online/DeveloperOnlineContentLoader.cs:224-240 | the last child with the name is removed together with its files, and with no match nothing is removed |
| MetaDataTree.DeleteFiles | Content/Online/DeveloperOnlineContentLoader.cs:242-250 | a node with a file path names that file, and a node without one stands for its children's files |
| MetaDataTree.UpdateThenDelete | Content/Online/DeveloperOnlineContentLoader.cs:185-240 | storing a new entry and then deleting its name gives back the tree |
| MetaDataTree.UpdateReadsBack | Content/Online/DeveloperOnlineContentLoader.cs:66-77 | after storing an entry with a new name, the file still parses and the lookup gives the entry |
| DeveloperContentLoader.New | Content/Online/DeveloperOnlineContentLoader.cs:19-27 | a new loader has nothing cached or indexed and is not ready |
| DeveloperContentLoader.XmlFile | Content/Online/DeveloperOnlineContentLoader.cs:44-64 | the tree is the cached one, else the file on disk, else a fresh root for the project, and it becomes the cache |
| DeveloperContentLoader.OnLoadContentMetaData | Content/Online/DeveloperOnlineContentLoader.cs:32-42 | the index is rebuilt from the whole tree, and only a walk without an exception makes the content ready |
| DeveloperContentLoader.HasValidContentAndMakeSureItIsLoaded | Content/Online/DeveloperOnlineContentLoader.cs:252-260 | ready content answers at once; otherwise readiness is whether the metadata file exists, and an existing file is indexed |
| DeveloperContentLoader.GetMetaData | Content/Online/DeveloperOnlineContentLoader.cs:262-268 | it throws `ContentNotReady` exactly until the content is ready, then gives an indexed entry with the key in any letter case, or null |
| DeveloperContentLoader.GetCurrentContentMetaData | Content/Online/DeveloperOnlineContentLoader.cs:155-159 | the text of the metadata file when there is one, with nothing changed; otherwise the text of the tree `XmlFile` gives, which then becomes the cache |
| DeveloperContentLoader.ReloadIndexesFirstNamed | Content/Online/DeveloperOnlineContentLoader.cs:32-42 | after a reload a lookup gives the first node below the root, in document order, with the key |
| DeveloperContentLoader.OnDataReceived | Content/Online/DeveloperOnlineContentLoader.cs:123-134 | a `SetProject` that is not ignored switches project, updates and deletes are applied, and anything else changes nothing |
| DeveloperContentLoader.VerifyProjectAndGetContent | Content/Online/DeveloperOnlineContentLoader.cs:136-143 | without permissions it throws before anything changes; otherwise the project is set and one `CheckProjectContent` is sent |
| DeveloperContentLoader.RemoveContentDirectoryIfFromOtherProject | Content/Online/DeveloperOnlineContentLoader.cs:145-153 | a tree of another project is dropped with the whole content directory, and one of this project is kept |
| DeveloperContentLoader.SetProjectChecksOwnProject | Content/Online/DeveloperOnlineContentLoader.cs:136-159 | after a permitted `SetProject`, the metadata sent for checking belongs to the new project |
| DeveloperContentLoader.WriteFilesLastWins | Content/Online/DeveloperOnlineContentLoader.cs:177-179 | after the writes a name holds the data of the message's last file with that name, or what it held before |
| DeveloperContentLoader.UpdateLocalContent | Content/Online/DeveloperOnlineContentLoader.cs:169-183 | the directory is created, the entry is stored and saved, the files are written, `ContentChanged` is raised, and the index is left alone |
| DeveloperContentLoader.DeleteLocalContent | Content/Online/DeveloperOnlineContentLoader.cs:224-240 | a matching entry is removed with its files and saved, and `ContentChanged` is raised exactly then |
| DeveloperContentLoader.UpdateThenReload | Content/Online/DeveloperOnlineContentLoader.cs:32-42 | a stored entry becomes visible to `GetMetaData` after the next reload |
| DeveloperContentLoader.UpdateThenDelete | Content/Online/DeveloperOnlineContentLoader.cs:169-240 | storing and then deleting a new entry gives back the tree, cached and on disk |
| DeveloperContentLoader.ReadyIsLatched | Content/Online/DeveloperOnlineContentLoader.cs:32-36 | once ready, the content stays ready through any callbacks, so `GetMetaData` never throws `ContentNotReady` again |
| TouchCollectionUpdaterModel.New | Input/Xna/TouchCollectionUpdater.cs:13-25 | all ten slots start free, released and at the origin |
| TouchCollectionUpdaterModel.FindIndexByIdOrGetFreeIndex | Input/Xna/TouchCollectionUpdater.cs:86-95 | the slot holding the id, else the lowest free slot, else -1 exactly when neither exists |
| TouchCollectionUpdaterModel.UpdateTouchIfPreviouslyPresent | Input/Xna/TouchCollectionUpdater.cs:48-60 | the touch list shrinks exactly when it held the slot's id, and otherwise nothing changes |
| TouchCollectionUpdaterModel.UpdateTouchStateWithoutNewData | Input/Xna/TouchCollectionUpdater.cs:67-73 | a releasing slot becomes released and keeps its id; any other slot is freed; no other slot changes |
| TouchCollectionUpdaterModel.UpdateTouchBy | Input/Xna/TouchCollectionUpdater.cs:40-46 | a slot without news ages, and a slot never gets a new id here |
| TouchCollectionUpdaterModel.ReleaseThenFree | Input/Xna/TouchCollectionUpdater.cs:40-73 | a lifted touch is reported released once and then frees its slot |
| TouchCollectionUpdaterModel.UpdatePreviouslyActiveTouches | Input/Xna/TouchCollectionUpdater.cs:33-38 | free slots are skipped |
| TouchCollectionUpdaterModel.LeftoversAreUntracked | Input/Xna/TouchCollectionUpdater.cs:33-60 | the touches left for the new-touch pass are exactly those no slot tracked |
| TouchCollectionUpdaterModel.ProcessNewTouches | Input/Xna/TouchCollectionUpdater.cs:75-84 | tracked slots keep their ids, and slot ids stay unique |
| TouchCollectionUpdaterModel.NewTouchesArePressing | Input/Xna/TouchCollectionUpdater.cs:75-84 | every new touch holds a slot with its id in state `Pressing` |
| TouchCollectionUpdaterModel.EnoughFreeSlots | Input/Xna/TouchCollectionUpdater.cs:79-80 | the pass cannot run out of slots while there are as many free slots as touches |
| TouchCollectionUpdaterModel.FullSlotsThrow | Input/Xna/TouchCollectionUpdater.cs:79-80 | with every slot taken, an untracked touch writes at index -1 and fails |
| TouchCollectionUpdaterModel.FirstFrame | Input/Xna/TouchCollectionUpdater.cs:27-31 | on a new device up to ten touches all get a slot, pressing |
| TouchCollectionUpdaterModel.UpdateAllTouches | Input/Xna/TouchCollectionUpdater.cs:27-31 | the previously-active pass and then the new-touch pass over what it left; with unique ids the touches treated as new are exactly those no slot tracked, and without a slot shortage each ends up pressing in a slot of its own; slot ids stay unique |
| XnaVertexFormatModel.ConvertVertexType | Graphics/Xna/XnaVertexFormat.cs:38-60 | each element type has its listed format, and any other type throws `ElementTypeNotSupported` |
| XnaVertexFormatModel.ConvertVertexUsage | Graphics/Xna/XnaVertexFormat.cs:69-93 | each element type has its listed usage, with all UV kinds as texture coordinates |
| XnaVertexFormatModel.UsageNeverFailsAfterType | Graphics/Xna/XnaVertexFormat.cs:28-29 | the two switches support the same types, so the usage switch never throws after the type switch |
| XnaVertexFormatModel.ConvertToXnaElement | Graphics/Xna/XnaVertexFormat.cs:25-36 | an unsupported type throws before any counter moves; otherwise the usage's counter starts at 0 or goes up by one and becomes the index |
| XnaVertexFormatModel.ConvertFrom | Graphics/Xna/XnaVertexFormat.cs:14-21 | one output per input, in order, with the same offset, and the usage index is the number of earlier elements with that usage; the first unsupported type throws |
| XnaVertexFormatModel.UsageIndicesAreDistinct | Graphics/Xna/XnaVertexFormat.cs:30-35 | elements of one usage get strictly increasing indices |
| XnaVertexFormatModel.TwoTextureChannels | Graphics/Xna/XnaVertexFormat.cs:26-35 | in a 2D position, texture UV and light-map UV format the position gets index 0 and the two UV elements texture-coordinate indices 0 and 1 |
| BitmapFormatModel.Init | Multimedia/VideoStreams/Vlc/BitmapFormat.cs:27-49 | each chroma gives its pixel format and bits per pixel, and any other chroma throws |
| BitmapFormatModel.New | Multimedia/VideoStreams/Vlc/BitmapFormat.cs:10-18 | width and height are kept, and pitch and image size are the wrapped `int` products |
| BitmapFormatModel.FrameSize | Multimedia/VideoStreams/Vlc/BitmapFormat.cs:16-17 | the pitch is the bytes of one row whenever that product fits an `int`, and the image size the bytes of the frame whenever that product fits |
| BitmapFormatModel.FrameScenarios | Multimedia/VideoStreams/Vlc/BitmapFormat.cs:10-49 | a 1920x1080 RV32 frame has 7680-byte rows and 8294400 bytes, and an unknown chroma is refused |
| BitmapFormatModel.PitchWraps | Multimedia/VideoStreams/Vlc/BitmapFormat.cs:16 | a large enough width wraps the pitch to a negative number |
| ShaderWithFormatModel.Initialize | Graphics/ShaderWithFormat.cs:23-36 | null data, then a bad format, then missing code throw in that order; otherwise the five properties are copied exactly |
| ShaderWithFormatModel.InitializeFromOwnData | Graphics/ShaderWithFormat.cs:23-36 | initializing from a valid shader's own data gives that shader back |
| ShaderWithFormatModel.NewGenerated | Graphics/ShaderWithFormat.cs:17-21 | a shader made from creation data is named `<GeneratedShader>` |
| ShaderWithFormatModel.LoadData | Graphics/ShaderWithFormat.cs:50-57 | an empty stream throws `EmptyShaderFileGiven`, and decoded data that is not creation data counts as null |
| ShaderWithFormatModel.BuiltInNameRoundTrip | Graphics/ShaderWithFormat.cs:63-70 | every built-in name parses back to its shader |
| ShaderWithFormatModel.AllowCreationIfContentNotFound | Graphics/ShaderWithFormat.cs:63-70 | true exactly for the six built-in names |
| ShaderWithFormatModel.CreateDefault | Graphics/ShaderWithFormat.cs:72-102 | a built-in name gets its family's code, its own DirectX 9 code and its own format, and any other name is left alone |
| ShaderWithFormatModel.SameFamilySameCode | Graphics/ShaderWithFormat.cs:76-99 | the 2D and 3D shaders of a family share their GLSL and HLSL code and differ only in the DirectX 9 code and the format |

## Left out

- Sockets, threads, `lock`, timeouts and `AppRunner`. The registry and the reassembler are sequential state.
- The object codec (`ToBinaryData`, `ReadNumberMostlyBelow255`, `BinaryReader.Create`). Payloads are opaque bytes and messages are a datatype. `MockServer.ReceiveMessage` receives its message already decoded.
- `MockServer.SendToAllClients`. It needs `MockClient.Send`, which is not part of this model.
- `ContentLoader`'s constructor check for an existing loader, `Create`, `ReloadContent`, `ContentLoader.Dispose` and `GetContentDataStream`. They are file I/O and the resolver, outside the cache logic. What `GetContentDataStream` throws (`ContentFileDoesNotExist`) reaches the model as an error of `InternalLoad`.
- `ContentData` is not part of this model. Its disposal is modelled only as the `IsDisposed` flag that `Load` reads (Content/ContentLoader.cs:58).
- The resolver (`Resolve` and its readiness check), `GetMetaData` of the concrete loader, `InternalLoad`, `InternalAllowCreationIfContentNotFound`, `InternalCreateDefault` and `IsInstanceOfType`. They are parameters (`Environment`), and those that can throw come with what they throw.
- ContentLoaderModel.Load: `Resolve` either throws or returns a new instance. A resolver that returns null is not modelled. The base resolver cannot return null for the `ContentData` classes `Load<T>` asks for.
- ContentLoaderModel.Exists: `env.metaData` depends on the name only. `Load` passes the content class to `GetMetaData` (Content/ContentLoader.cs:102) and `Exists` does not (line 77). Every override of `GetMetaData` here ignores the class, and `ExistsIffLoadsFromMetaData` relies on that.
- ContentLoaderModel.IsGeneratedContentName: an ordinal prefix test. The source's `StartsWith("<Generated")` is culture-sensitive, so names differing only in characters the culture ignores are not told apart as the source would.
- ContentLoaderModel.LoadTyped: the `as Content` cast of `Load<T>` is not modelled. An instance of another type yields null in the source, and the model returns the instance.
- File and directory I/O, the clock, `XmlFile.Save` and `ToXmlString` of the developer loader. The disk is part of the state, and the clock and serialiser are parameters (`Host`).
- `TryParse`, `DateExtensions.Parse`, `Convert<int>` and the `ToString` of written values. They are parameters (`Codec`).
- MetaDataXml.ParseContentMetaData: a `Codec` parse never fails. In the source, `Convert<int>` of a malformed `FileSize` and `DateExtensions.Parse` of a malformed date throw.
- `DeveloperOnlineContentLoader.Dispose`. It only unsubscribes handlers.
- `OrdinalIgnoreCase` is modelled by folding ASCII letters only.
- `State.UpdateOnNativePressing` and `ScreenSpace.FromPixelSpace`. They are parameters (`Native`), and positions are not interpreted.
- The shader code texts and the built-in `VertexFormat`s. They are the parameter `Library`. `Create()` and the content stream decoder are left out too.
- The `Shader` class that defines the built-in shader name constants is not part of this model. `BuiltInName` and `ParseBuiltIn` take each constant's value to be its own identifier, spelled as in the source: `Position2DUv` is "Position2DUv", `Position3DColorUv` is "Position3DColorUv", and so on.
- `BitmapFormat.Set`, a libvlc call.
- ServerRegistry.Dispose: `Client` is only an interface and is not part of this model. Its `Dispose` is taken to be idempotent and to raise `Disconnected` only while the connection is live, as the design of the networking layer requires; whether a connection is live is the parameter `raisesDisconnected`.
- ContentLoaderModel.HasExtensionIff: invalid path characters are not modelled. .NET Framework's `Path.HasExtension` throws `ArgumentException` on characters such as `"`, `<`, `>`, `|` and control characters, and the model treats every name as valid.
- DeveloperContentLoader.FreshRoot: the XML writer is not part of this model. A `null` attribute value, such as a missing project name, is taken to be written as the empty string (`MetaDataXml.Text`).
- DataCollectorProofs.ShortHeaderFragmentationInvariance: proved only for streams whose headers are all one byte. The source loses a sentinel split from its length, so the general statement is false of the code as written (see Findings).
- OnlineServiceConnection.CreateForAppRunner: does not model the socket connection or the `TimedOut` subscription.

## Findings

| source | as written | input that shows it | evidently intended | confidence | as-written member | corrected member |
|---|---|---|---|---|---|---|
| Networking/Tcp/DataCollector.cs:29-41 | a long header whose length field reads -1 is taken for the "not enough bytes" marker, so the loop returns silently with the five header bytes consumed and what follows left queued | the stream 255 255 255 255 255 0 read whole emits nothing and keeps the 0 queued; read as five bytes and then one it emits an empty frame | refuse -1 like any other negative length, keeping the marker apart from every length a header can carry, so the result does not depend on how the stream is chunked | medium; not executed | DataCollectorProofs.MinusOneChunking | DataCollectorCorrected.ChunkingInvariance |
| Networking/Tcp/DataCollector.cs:47-51 | the sentinel 255 is dequeued before checking that four length bytes follow, so a long header split across reads loses its sentinel | a 255-byte payload whose stream is read as `[255]` and then the rest: the second read takes the first length byte for a new sentinel and announces 2^24 bytes, and the payload is never delivered | leave the sentinel queued until its four length bytes have arrived, so any chunking delivers the same payloads | high; not executed | DataCollectorProofs.SentinelLoss | DataCollectorCorrected.ChunkedRoundTrip |

=== FILE: bitmap_format.dfy ===
/** The frame layout a video is decoded into
    (Multimedia/VideoStreams/Vlc/BitmapFormat.cs): the chroma fixes the bits
    per pixel and the GDI pixel format, and the row pitch and the frame size
    follow from the dimensions. Handing the format to libvlc (`Set`) is not
    part of this model. */
module BitmapFormatModel {
  import opened Wrappers
  import opened Numbers

  /** `ChromaType`; a value outside the enum is kept with its number. */
  datatype ChromaType = RV15 | RV16 | RV24 | RV32 | RGBA | UndefinedChroma(value: int)

  datatype PixelFormat = Format16bppRgb555 | Format16bppRgb565 | Format24bppRgb | Format32bppRgb | Format32bppArgb

  datatype BitmapError = UnsupportedChromaType(chroma: ChromaType)

  /** The constructed object. `Pitch` and `ImageSize` are `int` products and
      wrap like them. */
  datatype BitmapFormat = BitmapFormat(
    width: int,
    height: int,
    chromaName: string,
    pitch: int,
    imageSize: int,
    pixelFormat: PixelFormat)

  /** The bits per pixel a GDI pixel format stores. */
  function BitsOf(f: PixelFormat): nat {
    match f
    case Format16bppRgb555 => 16
    case Format16bppRgb565 => 16
    case Format24bppRgb => 24
    case Format32bppRgb => 32
    case Format32bppArgb => 32
  }

  /** `Init`: the pixel format and the bits per pixel of a chroma; any
      other chroma throws. */
  function Init(chroma: ChromaType): (r: Result<(PixelFormat, nat), BitmapError>)
    ensures r.Failure? <==> chroma.UndefinedChroma?
    ensures r.Failure? ==> r.error == UnsupportedChromaType(chroma)
    ensures r.Success? ==> r.value.1 == BitsOf(r.value.0) && r.value.1 % 8 == 0
    ensures chroma == RV15 ==> r == Success((Format16bppRgb555, 16))
    ensures chroma == RV16 ==> r == Success((Format16bppRgb565, 16))
    ensures chroma == RV24 ==> r == Success((Format24bppRgb, 24))
    ensures chroma == RV32 ==> r == Success((Format32bppRgb, 32))
    ensures chroma == RGBA ==> r == Success((Format32bppArgb, 32))
  {
    match chroma
    case RV15 => Success((Format16bppRgb555, 16))
    case RV16 => Success((Format16bppRgb565, 16))
    case RV24 => Success((Format24bppRgb, 24))
    case RV32 => Success((Format32bppRgb, 32))
    case RGBA => Success((Format32bppArgb, 32))
    case UndefinedChroma(_) => Failure(UnsupportedChromaType(chroma))
  }

  /** `ToString` of a chroma inside the enum. */
  function ChromaName(chroma: ChromaType): string
    requires !chroma.UndefinedChroma?
  {
    match chroma
    case RV15 => "RV15"
    case RV16 => "RV16"
    case RV24 => "RV24"
    case RV32 => "RV32"
    case RGBA => "RGBA"
  }

  /** The constructor. */
  function New(width: int, height: int, chroma: ChromaType): (r: Result<BitmapFormat, BitmapError>)
    requires IsInt32(width) && IsInt32(height)
    ensures r.Failure? <==> chroma.UndefinedChroma?
    ensures r.Success? ==>
      && r.value.width == width && r.value.height == height
      && r.value.chromaName == ChromaName(chroma)
      && r.value.pixelFormat == Init(chroma).value.0
      && r.value.pitch == Wrap32(width * (BitsOf(r.value.pixelFormat) / 8))
      && r.value.imageSize == Wrap32(r.value.pitch * height)
  {
    var (pixelFormat, bitsPerPixel) :- Init(chroma);
    var pitch := Wrap32(width * (bitsPerPixel / 8));
    Success(BitmapFormat(width, height, ChromaName(chroma), pitch, Wrap32(pitch * height), pixelFormat))
  }

  /** The pitch is the bytes of one row when that product fits an `int`,
      and the image size those of the whole frame when that one fits; each
      product wraps in the source otherwise. */
  lemma FrameSize(width: int, height: int, chroma: ChromaType)
    requires IsInt32(width) && IsInt32(height) && width >= 0 && height >= 0
    requires !chroma.UndefinedChroma?
    ensures var f := New(width, height, chroma).value;
      var bytes := BitsOf(f.pixelFormat) / 8;
      && 2 <= bytes <= 4
      && (width * bytes < TwoTo31 ==> f.pitch == width * bytes)
      && (width * height * bytes < TwoTo31 ==> f.imageSize == width * height * bytes)
  {
    var f := New(width, height, chroma).value;
    var bytes := BitsOf(f.pixelFormat) / 8;
    assert 2 <= bytes <= 4;
    MulAtMost(width, 0, bytes);
    if height == 0 {
      assert f.imageSize == Wrap32(f.pitch * 0);
    } else if width * height * bytes < TwoTo31 {
      var area := width * height;
      MulAtMost(width, 1, height);
      MulAtMost(bytes, 1, height);
      Rearrange(width, height, bytes);
      assert width * bytes <= area * bytes by {
        MulAtMost(width * bytes, 1, height);
      }
      assert f.pitch == width * bytes;
      assert f.pitch * height == area * bytes;
    }
  }

  lemma Rearrange(w: int, h: int, b: int)
    ensures (w * b) * h == (w * h) * b
  {
  }

  lemma MulAtMost(a: int, b: int, c: int)
    requires a >= 0 && 0 <= b <= c
    ensures 0 <= a * b <= a * c
  {
  }

  /** A 1920 by 1080 RV32 frame is 7680 bytes a row and 8294400 in all; a
      24-bit frame 639 pixels wide has 1917-byte rows, with no padding. */
  lemma FrameScenarios()
    ensures var f := New(1920, 1080, RV32).value; f.pitch == 7680 && f.imageSize == 8294400
    ensures New(639, 1, RV24).value.pitch == 1917
    ensures New(1, 1, UndefinedChroma(7)) == Failure(UnsupportedChromaType(UndefinedChroma(7)))
  {
  }

  /** A width large enough makes the unchecked product wrap to a negative
      pitch. */
  lemma PitchWraps()
    ensures New(0x2000_0000, 1, RV32).value.pitch == -TwoTo31
  {
  }
}

=== FILE: content_loader.dfy ===
/** The content cache behind the static `ContentLoader.Load` entry points
    (Content/ContentLoader.cs): name validation, the bypass for generated
    names, same-instance cache hits, eviction of disposed entries, the type
    check on a hit, and the fallback to default data when no metadata is
    found.

    Content objects live in a heap `objects` and are referred to by their
    index, so "the same instance" is "the same index". The resolver, the
    metadata lookup of the concrete loader and the class hierarchy are not
    part of this model and come in as an `Environment`, together with what
    each of them may throw. */
module ContentLoaderModel {
  import opened Wrappers

  /** The name of a content class (`typeof(Content)`). */
  type TypeName = string

  /** How an instance got its data: resolved for a generated name and never
      loaded, loaded from its metadata, or given default data because none
      was found. */
  datatype Origin = Resolved | FromMetaData | DefaultData

  /** `metaData` is the type of the metadata entry assigned to the instance
      before it is loaded (`None` for `null`). */
  datatype Content = Content(name: string, kind: TypeName, disposed: bool, origin: Origin, metaData: Option<string>)

  /** One loader: whether a resolver was set, the cache `resources` from
      names to instances, and the locale. */
  datatype Loader = Loader(hasResolver: bool, resources: map<string, nat>, locale: string)

  /** The static `current` loader and the content objects ever created. */
  datatype World = World(current: Option<Loader>, objects: seq<Content>)

  datatype LoadError =
    | ContentNameShouldNotHaveExtension
    | NoContentLoaderWasInitialized
    | NoContentResolverWasSet
    | CachedResourceExistsButIsOfTheWrongType
    | ContentNotFound(contentName: string)
    | ResolverIsNull
    | Thrown(error: ForeignError)

  /** What code outside this model throws through the loader. */
  datatype ForeignError =
      // `Resolve`: the content class cannot be instantiated with the name,
      // or its constructor throws.
    | CannotResolve(contentName: string)
      // The concrete loader's `GetMetaData` before its content is ready.
    | ContentNotReady
      // `GetContentDataStream` when the content file cannot be opened.
    | ContentFileDoesNotExist(filePath: string)
      // A content class while loading or creating its data
      // (`EmptyShaderFileGiven` and the like), or the resolver's readiness check.
    | ContentDataError(message: string)

  /** What the code calls and this model does not contain, each with what
      it may throw:
      `resolveError(kind, name)` is what `Resolve(kind, name)` throws
      (`None` when it returns a new instance);
      `readyError` is what `MakeSureResolverIsInitializedAndContentIsReady`
      throws (`None` when it returns);
      `metaData(name)` is the result of `GetMetaData`: the type of the entry
      found (`None` for `null`) or the exception;
      `internalLoad(kind, name)` is what `InternalLoad` of a new instance
      throws, reading its stream through `GetContentDataStream`;
      `allowsDefault(kind, name)` is `InternalAllowCreationIfContentNotFound`
      and `createDefault(kind, name)` what `InternalCreateDefault` throws;
      `isInstanceOf(requested, actual)` is
      `requested.IsInstanceOfType(instance of actual)`. */
  datatype Environment = Environment(
    resolveError: (TypeName, string) -> Option<ForeignError>,
    readyError: Option<ForeignError>,
    metaData: string -> Result<Option<string>, ForeignError>,
    internalLoad: (TypeName, string) -> Option<ForeignError>,
    allowsDefault: (TypeName, string) -> bool,
    createDefault: (TypeName, string) -> Option<ForeignError>,
    isInstanceOf: (TypeName, TypeName) -> bool)

  /** `Resolve` gives a new instance of `kind` named `name`. */
  predicate Resolves(env: Environment, kind: TypeName, name: string) {
    env.resolveError(kind, name).None?
  }

  /** The metadata `GetMetaData` assigns to an instance: none when it throws. */
  function FoundMetaData(env: Environment, name: string): Option<string> {
    if env.metaData(name).Success? then env.metaData(name).value else None
  }

  /** The world after the call, and the instance returned or the exception
      thrown. An exception does not undo what happened before it. */
  datatype LoadOutcome = LoadOutcome(world: World, result: Result<nat, LoadError>)

  const GeneratedPrefix: string := "<Generated"
  const DefaultLocale: string := "en"

  /** Every cached index names an existing object created for that name. */
  predicate Valid(w: World) {
    w.current.Some? ==>
      forall k :: k in w.current.value.resources ==>
        && w.current.value.resources[k] < |w.objects|
        && w.objects[w.current.value.resources[k]].name == k
  }

  /** A fresh loader that has become `current`: no cache, locale "en". */
  function NewLoader(hasResolver: bool): (l: Loader)
    ensures l.resources == map[] && l.locale == DefaultLocale && l.hasResolver == hasResolver
  {
    Loader(hasResolver, map[], DefaultLocale)
  }

  // ---------------------------------------------------------------------
  // Names.

  /** `IsGeneratedContentName`: an ordinal prefix test. */
  predicate IsGeneratedContentName(name: string) {
    |GeneratedPrefix| <= |name| && name[..|GeneratedPrefix|] == GeneratedPrefix
  }

  predicate IsSeparator(ch: char) {
    ch == '/' || ch == '\\' || ch == ':'
  }

  /** The backwards scan of `Path.HasExtension` over `name[..end]`: the last
      `.` or separator decides; a `.` counts unless it is the last character
      of the whole name. */
  function HasExtensionBefore(name: string, end: nat): bool
    requires end <= |name|
  {
    if end == 0 then false
    else if name[end - 1] == '.' then end - 1 != |name| - 1
    else if IsSeparator(name[end - 1]) then false
    else HasExtensionBefore(name, end - 1)
  }

  /** `Path.HasExtension` on the Windows separators. */
  function HasExtension(name: string): bool {
    HasExtensionBefore(name, |name|)
  }

  /** No `.` and no separator occurs in `name[from..end]`. */
  predicate PlainBetween(name: string, from: nat, end: nat)
    requires from <= end <= |name|
  {
    forall j :: from <= j < end ==> name[j] != '.' && !IsSeparator(name[j])
  }

  /** A name has an extension exactly when it has a `.` that is not its last
      character and after which no further `.` and no separator occurs. */
  lemma {:induction false} HasExtensionIff(name: string, end: nat)
    requires end <= |name|
    ensures HasExtensionBefore(name, end) <==>
      exists j :: 0 <= j < end && j < |name| - 1 && name[j] == '.' && PlainBetween(name, j + 1, end)
    decreases end
  {
    if end > 0 {
      var i := end - 1;
      if name[i] == '.' && i == |name| - 1 {
        forall j | 0 <= j < end && j < |name| - 1 && name[j] == '.'
          ensures !PlainBetween(name, j + 1, end)
        {
          assert j + 1 <= i && name[i] == '.';
        }
      } else if name[i] == '.' {
        assert PlainBetween(name, i + 1, end);
      } else if IsSeparator(name[i]) {
        forall j | 0 <= j < end && j < |name| - 1 && name[j] == '.'
          ensures !PlainBetween(name, j + 1, end)
        {
          assert j + 1 <= i && IsSeparator(name[i]);
        }
      } else {
        HasExtensionIff(name, i);
        if HasExtensionBefore(name, i) {
          var j :| 0 <= j < i && j < |name| - 1 && name[j] == '.' && PlainBetween(name, j + 1, i);
          assert PlainBetween(name, j + 1, end);
        }
        if exists j :: 0 <= j < end && j < |name| - 1 && name[j] == '.' && PlainBetween(name, j + 1, end) {
          var j :| 0 <= j < end && j < |name| - 1 && name[j] == '.' && PlainBetween(name, j + 1, end);
          assert j != i;
          assert PlainBetween(name, j + 1, i);
        }
      }
    }
  }

  // ---------------------------------------------------------------------
  // Loading.

  /** `LoadMetaDataAndContent` on a just-resolved instance: loaded when the
      loader finds metadata, given default data when the class allows it,
      otherwise `ContentNotFound`; whatever `GetMetaData`, `InternalLoad` or
      `InternalCreateDefault` throws is passed on. */
  function LoadMetaDataAndContent(env: Environment, kind: TypeName, name: string): (r: Result<Origin, LoadError>)
    ensures env.metaData(name).Failure? ==> r == Failure(Thrown(env.metaData(name).error))
    ensures r == Success(FromMetaData) <==>
      env.metaData(name).Success? && env.metaData(name).value.Some? && env.internalLoad(kind, name).None?
    ensures r == Success(DefaultData) <==>
      env.metaData(name) == Success(None) && env.allowsDefault(kind, name) && env.createDefault(kind, name).None?
    ensures env.metaData(name).Success? && env.metaData(name).value.Some? && env.internalLoad(kind, name).Some? ==>
      r == Failure(Thrown(env.internalLoad(kind, name).value))
    ensures env.metaData(name) == Success(None) && env.allowsDefault(kind, name) && env.createDefault(kind, name).Some? ==>
      r == Failure(Thrown(env.createDefault(kind, name).value))
    ensures env.metaData(name) == Success(None) && !env.allowsDefault(kind, name) ==>
      r == Failure(ContentNotFound(name))
    ensures r.Success? ==> r.value != Resolved
  {
    match env.metaData(name)
    case Failure(e) => Failure(Thrown(e))
    case Success(Some(_)) =>
      if env.internalLoad(kind, name).Some? then Failure(Thrown(env.internalLoad(kind, name).value))
      else Success(FromMetaData)
    case Success(None) =>
      if !env.allowsDefault(kind, name) then Failure(ContentNotFound(name))
      else if env.createDefault(kind, name).Some? then Failure(Thrown(env.createDefault(kind, name).value))
      else Success(DefaultData)
  }

  /** `LoadAndCacheContent`: resolve a new instance, load it, and cache it.
      When resolving throws, nothing is created; when loading throws, the
      instance exists but is not cached. */
  function LoadAndCacheContent(w: World, env: Environment, kind: TypeName, name: string): (r: LoadOutcome)
    requires w.current.Some? && Valid(w)
    requires name !in w.current.value.resources
    ensures Valid(r.world)
    ensures !Resolves(env, kind, name) ==> r == LoadOutcome(w, Failure(Thrown(env.resolveError(kind, name).value)))
    ensures Resolves(env, kind, name) ==>
      |r.world.objects| == |w.objects| + 1 && r.world.objects[..|w.objects|] == w.objects
    ensures Resolves(env, kind, name) ==> var created := r.world.objects[|w.objects|];
      && created.name == name && created.kind == kind && !created.disposed
      && created.metaData == FoundMetaData(env, name)
    ensures r.result.Success? <==> Resolves(env, kind, name) && LoadMetaDataAndContent(env, kind, name).Success?
    ensures r.result.Success? ==>
      && r.result.value == |w.objects|
      && r.world.objects[|w.objects|].origin == LoadMetaDataAndContent(env, kind, name).value
      && r.world.current == Some(w.current.value.(resources := w.current.value.resources[name := |w.objects|]))
    ensures r.result.Failure? && Resolves(env, kind, name) ==>
      && r.result.error == LoadMetaDataAndContent(env, kind, name).error
      && r.world.objects[|w.objects|].origin == Resolved
      && r.world.current == w.current
  {
    if !Resolves(env, kind, name) then LoadOutcome(w, Failure(Thrown(env.resolveError(kind, name).value)))
    else
    var created := Content(name, kind, false, Resolved, FoundMetaData(env, name));
    match LoadMetaDataAndContent(env, kind, name)
    case Success(origin) =>
      var id := |w.objects|;
      var loader := w.current.value;
      LoadOutcome(World(Some(loader.(resources := loader.resources[name := id])),
                        w.objects + [created.(origin := origin)]),
                  Success(id))
    case Failure(e) =>
      LoadOutcome(w.(objects := w.objects + [created]), Failure(e))
  }

  /** `GetCachedResource`: the cached instance if it is of the requested
      type. */
  function GetCachedResource(w: World, env: Environment, kind: TypeName, name: string): (r: LoadOutcome)
    requires w.current.Some? && Valid(w)
    requires name in w.current.value.resources
    ensures r.world == w
    ensures var id := w.current.value.resources[name];
      r.result == if env.isInstanceOf(kind, w.objects[id].kind) then Success(id)
                  else Failure(CachedResourceExistsButIsOfTheWrongType)
  {
    var id := w.current.value.resources[name];
    if env.isInstanceOf(kind, w.objects[id].kind) then LoadOutcome(w, Success(id))
    else LoadOutcome(w, Failure(CachedResourceExistsButIsOfTheWrongType))
  }

  /** `Load(Type, string)`. */
  function Load(w: World, env: Environment, kind: TypeName, name: string): (r: LoadOutcome)
    requires Valid(w)
    ensures Valid(r.world)
    ensures w.current.None? ==> r == LoadOutcome(w, Failure(NoContentLoaderWasInitialized))
    ensures w.current.Some? && !w.current.value.hasResolver ==>
      r == LoadOutcome(w, Failure(NoContentResolverWasSet))
    // The resolver's readiness check throws before anything is looked up.
    ensures w.current.Some? && w.current.value.hasResolver && env.readyError.Some? ==>
      r == LoadOutcome(w, Failure(Thrown(env.readyError.value)))
    ensures |w.objects| <= |r.world.objects| <= |w.objects| + 1
    ensures r.world.objects[..|w.objects|] == w.objects
    // A generated name gets a fresh instance, if it resolves, and leaves
    // the cache alone.
    ensures w.current.Some? && w.current.value.hasResolver && env.readyError.None? && IsGeneratedContentName(name)
            && !Resolves(env, kind, name) ==>
      r == LoadOutcome(w, Failure(Thrown(env.resolveError(kind, name).value)))
    ensures w.current.Some? && w.current.value.hasResolver && env.readyError.None? && IsGeneratedContentName(name)
            && Resolves(env, kind, name) ==>
      && r.world.current == w.current
      && r.result == Success(|w.objects|)
      && |r.world.objects| == |w.objects| + 1
      && r.world.objects[|w.objects|] == Content(name, kind, false, Resolved, None)
    // A live cache entry is returned as is, or refused for its type.
    ensures (&& w.current.Some? && w.current.value.hasResolver && env.readyError.None? && !IsGeneratedContentName(name)
             && name in w.current.value.resources && !w.objects[w.current.value.resources[name]].disposed) ==>
      && r.world == w
      && var id := w.current.value.resources[name];
      r.result == if env.isInstanceOf(kind, w.objects[id].kind) then Success(id)
                  else Failure(CachedResourceExistsButIsOfTheWrongType)
    // Otherwise a new instance is resolved and, if loading succeeds, cached
    // under the name in place of any disposed one; if resolving or loading
    // throws, the exception is passed on and the name is left uncached.
    ensures (&& w.current.Some? && w.current.value.hasResolver && env.readyError.None? && !IsGeneratedContentName(name)
             && (name !in w.current.value.resources || w.objects[w.current.value.resources[name]].disposed)
             && !Resolves(env, kind, name)) ==>
      && r.world.objects == w.objects
      && r.result == Failure(Thrown(env.resolveError(kind, name).value))
      && r.world.current.Some? && r.world.current.value.resources == w.current.value.resources - {name}
    ensures (&& w.current.Some? && w.current.value.hasResolver && env.readyError.None? && !IsGeneratedContentName(name)
             && (name !in w.current.value.resources || w.objects[w.current.value.resources[name]].disposed)
             && Resolves(env, kind, name)) ==>
      && |r.world.objects| == |w.objects| + 1
      && r.world.objects[|w.objects|].name == name && r.world.objects[|w.objects|].kind == kind
      && !r.world.objects[|w.objects|].disposed
      && r.world.current.Some?
      && (r.result.Success? <==> LoadMetaDataAndContent(env, kind, name).Success?)
      && (r.result.Success? ==>
            && r.result.value == |w.objects|
            && r.world.current.value.resources == w.current.value.resources[name := |w.objects|])
      && (r.result.Failure? ==>
            && r.result.error == LoadMetaDataAndContent(env, kind, name).error
            && r.world.current.value.resources == w.current.value.resources - {name})
  {
    if w.current.None? then LoadOutcome(w, Failure(NoContentLoaderWasInitialized))
    else
      var loader := w.current.value;
      if !loader.hasResolver then LoadOutcome(w, Failure(NoContentResolverWasSet))
      else if env.readyError.Some? then LoadOutcome(w, Failure(Thrown(env.readyError.value)))
      else if IsGeneratedContentName(name) then
        if !Resolves(env, kind, name) then LoadOutcome(w, Failure(Thrown(env.resolveError(kind, name).value)))
        else LoadOutcome(w.(objects := w.objects + [Content(name, kind, false, Resolved, None)]), Success(|w.objects|))
      else if name !in loader.resources then LoadAndCacheContent(w, env, kind, name)
      else if !w.objects[loader.resources[name]].disposed then GetCachedResource(w, env, kind, name)
      else
        var evicted := w.(current := Some(loader.(resources := loader.resources - {name})));
        LoadAndCacheContent(evicted, env, kind, name)
  }

  /** `Load<T>`: a non-generated name with an extension is refused before
      anything else is looked at, even before the missing loader. */
  function LoadTyped(w: World, env: Environment, kind: TypeName, name: string): (r: LoadOutcome)
    requires Valid(w)
    ensures Valid(r.world)
    ensures !IsGeneratedContentName(name) && HasExtension(name) ==>
      r == LoadOutcome(w, Failure(ContentNameShouldNotHaveExtension))
    ensures r.result == Failure(ContentNameShouldNotHaveExtension) ==> r.world == w
    ensures IsGeneratedContentName(name) || !HasExtension(name) ==>
      r.result != Failure(ContentNameShouldNotHaveExtension)
  {
    if !IsGeneratedContentName(name) && HasExtension(name) then
      LoadOutcome(w, Failure(ContentNameShouldNotHaveExtension))
    else Load(w, env, kind, name)
  }

  /** `ContentData.Dispose` on one instance. */
  function Dispose(w: World, id: nat): (r: World)
    requires id < |w.objects|
    ensures r.current == w.current && |r.objects| == |w.objects|
    ensures r.objects[id] == w.objects[id].(disposed := true)
    ensures forall i :: 0 <= i < |w.objects| && i != id ==> r.objects[i] == w.objects[i]
  {
    w.(objects := w.objects[id := w.objects[id].(disposed := true)])
  }

  /** `Exists(name)` and `Exists(name, type)`: whether the loader has
      metadata for the name, of the given type if one is given. Unlike
      `Load`, a missing resolver is not checked for, so calling through it
      fails with a null reference; the readiness check and `GetMetaData`
      may throw as they do for `Load`. */
  function Exists(w: World, env: Environment, name: string, kind: Option<string>): (r: Result<bool, LoadError>)
    ensures w.current.None? ==> r == Failure(NoContentLoaderWasInitialized)
    ensures w.current.Some? && !w.current.value.hasResolver ==> r == Failure(ResolverIsNull)
    ensures w.current.Some? && w.current.value.hasResolver && env.readyError.Some? ==>
      r == Failure(Thrown(env.readyError.value))
    ensures w.current.Some? && w.current.value.hasResolver && env.readyError.None? ==>
      && (r.Success? <==> env.metaData(name).Success?)
      && (r.Failure? ==> r.error == Thrown(env.metaData(name).error))
    ensures r.Success? && kind.None? ==> (r.value <==> env.metaData(name) != Success(None))
    ensures r.Success? && kind.Some? ==> (r.value <==> env.metaData(name) == Success(kind))
  {
    if w.current.None? then Failure(NoContentLoaderWasInitialized)
    else if !w.current.value.hasResolver then Failure(ResolverIsNull)
    else if env.readyError.Some? then Failure(Thrown(env.readyError.value))
    else match env.metaData(name)
      case Failure(e) => Failure(Thrown(e))
      case Success(found) => Success(found.Some? && (kind.None? || found.value == kind.value))
  }

  /** `RemoveResource`: removing a cached name empties the whole cache;
      any other name changes nothing. */
  function RemoveResource(l: Loader, key: string): (r: Loader)
    ensures key in l.resources ==> r == l.(resources := map[])
    ensures key !in l.resources ==> r == l
  {
    if key in l.resources then l.(resources := map[]) else l
  }

  /** The `ContentLocale` setter: `null` and the empty string are ignored. */
  function SetContentLocale(l: Loader, value: Option<string>): (r: Loader)
    ensures r.resources == l.resources && r.hasResolver == l.hasResolver
    ensures r.locale == if value.Some? && value.value != "" then value.value else l.locale
    ensures r.locale != "" <== l.locale != ""
  {
    if value.None? || value.value == "" then l else l.(locale := value.value)
  }

  // ---------------------------------------------------------------------
  // Properties across calls.

  /** Loading a name again after a successful load returns the same
      instance and changes nothing, as long as it was not disposed and its
      class is an instance of itself. */
  lemma LoadAgainIsCacheHit(w: World, env: Environment, kind: TypeName, name: string)
    requires Valid(w)
    requires !IsGeneratedContentName(name)
    requires Load(w, env, kind, name).result.Success?
    requires env.isInstanceOf(kind, kind)
    ensures var first := Load(w, env, kind, name);
      Load(first.world, env, kind, name) == first
  {
  }

  /** Disposing the loaded instance and loading the name again gives a
      different, live instance, which is now the cached one. */
  lemma DisposeThenLoadIsFresh(w: World, env: Environment, kind: TypeName, name: string)
    requires Valid(w)
    requires w.current.Some? && name !in w.current.value.resources
    requires !IsGeneratedContentName(name)
    requires Load(w, env, kind, name).result.Success?
    ensures var first := Load(w, env, kind, name);
      var disposed := Dispose(first.world, first.result.value);
      var second := Load(disposed, env, kind, name);
      && second.result.Success?
      && second.result.value != first.result.value
      && !second.world.objects[second.result.value].disposed
      && second.world.current.value.resources[name] == second.result.value
  {
  }

  /** Generated names never enter the cache, however many are loaded. */
  lemma {:induction false} GeneratedNeverCached(w: World, env: Environment, kind: TypeName, names: seq<string>)
    requires Valid(w) && w.current.Some? && w.current.value.hasResolver
    requires forall i :: 0 <= i < |names| ==> IsGeneratedContentName(names[i])
    ensures LoadEach(w, env, kind, names).current == w.current
    decreases |names|
  {
    if |names| > 0 {
      GeneratedNeverCached(Load(w, env, kind, names[0]).world, env, kind, names[1..]);
    }
  }

  /** Loads the names one after the other, ignoring the results. */
  function LoadEach(w: World, env: Environment, kind: TypeName, names: seq<string>): (r: World)
    requires Valid(w)
    ensures Valid(r)
    decreases |names|
  {
    if |names| == 0 then w else LoadEach(Load(w, env, kind, names[0]).world, env, kind, names[1..])
  }

  /** After `RemoveResource` of a cached name, no name is a cache hit: a
      new instance is created exactly when the resolver is ready and
      resolves the name. */
  lemma RemoveResourceForcesReload(w: World, env: Environment, kind: TypeName, key: string, name: string)
    requires Valid(w) && w.current.Some? && w.current.value.hasResolver
    requires key in w.current.value.resources && !IsGeneratedContentName(name)
    ensures var w2 := w.(current := Some(RemoveResource(w.current.value, key)));
      && Valid(w2)
      && (|Load(w2, env, kind, name).world.objects| == |w.objects| + 1 <==>
            env.readyError.None? && Resolves(env, kind, name))
  {
  }

  /** `Exists` agrees with loading: for a name not yet cached that the
      resolver can instantiate, `Exists` throws exactly what `Load` throws
      when the lookup fails, and otherwise says yes exactly when the new
      instance gets metadata assigned. `Exists` does not resolve, so an
      instance that cannot be created fails `Load` alone. */
  lemma ExistsIffLoadsFromMetaData(w: World, env: Environment, kind: TypeName, name: string)
    requires Valid(w) && w.current.Some? && w.current.value.hasResolver
    requires !IsGeneratedContentName(name) && name !in w.current.value.resources
    ensures var e := Exists(w, env, name, None);
      var l := Load(w, env, kind, name);
      && (e.Failure? && (env.readyError.Some? || Resolves(env, kind, name)) ==>
            l.result == Failure(e.error) && l.world.current == w.current)
      && (Resolves(env, kind, name) ==>
            (e == Success(true) <==>
               |l.world.objects| == |w.objects| + 1 && l.world.objects[|w.objects|].metaData.Some?))
      && (env.readyError.None? && !Resolves(env, kind, name) ==>
            l.result == Failure(Thrown(env.resolveError(kind, name).value)) && l.world.objects == w.objects)
  {
    if env.readyError.None? {
      assert Load(w, env, kind, name) == LoadAndCacheContent(w, env, kind, name);
    }
  }

  /** Before the concrete loader's content is ready, `Exists` throws
      `ContentNotReady`, and so does `Load` of a name it has to look up
      (unless resolving it threw first), leaving the cache as it was. */
  lemma NotReadyThrows(w: World, env: Environment, kind: TypeName, name: string)
    requires Valid(w) && w.current.Some? && w.current.value.hasResolver && env.readyError.None?
    requires env.metaData(name) == Failure(ContentNotReady)
    requires !IsGeneratedContentName(name) && name !in w.current.value.resources
    ensures Exists(w, env, name, None) == Failure(Thrown(ContentNotReady))
    ensures var l := Load(w, env, kind, name);
      && l.result == Failure(Thrown(if Resolves(env, kind, name) then ContentNotReady
                                    else env.resolveError(kind, name).value))
      && l.world.current.value.resources == w.current.value.resources
  {
  }

  /** The recorded scenarios: "Test.xml" has an extension and is refused;
      "<GeneratedMockXml>" bypasses that check; "Content/Test" has none. */
  lemma NameScenarios()
    ensures HasExtension("Test.xml")
    ensures IsGeneratedContentName("<GeneratedMockXml>")
    ensures !HasExtension("Content/Test") && !HasExtension("Test.") && !HasExtension("a.b/c")
  {
    assert HasExtensionBefore("Test.xml", 5);
    assert HasExtensionBefore("Test.xml", 8) == HasExtensionBefore("Test.xml", 5);
    assert "<GeneratedMockXml>"[..|GeneratedPrefix|] == GeneratedPrefix;
    assert !HasExtensionBefore("Content/Test", 8);
    assert HasExtensionBefore("Content/Test", 12) == HasExtensionBefore("Content/Test", 8);
    assert !HasExtensionBefore("a.b/c", 4);
  }
}

=== FILE: content_meta_data.dfy ===
/** The description of one content entry as it travels in messages and is
    stored in the metadata file. The `ContentMetaData` class itself is not
    part of this model; its fields are the ones the loaders read and write.
    Content types and dates are kept in the form the conversion functions
    of a `Codec` give them. */
module ContentMetaDataModel {
  import opened Wrappers

  /** An attribute of an XML element: a name and its text. */
  datatype Attribute = Attribute(name: string, value: string)

  /** `null` strings are `None`. `values` holds the extra attributes in the
      order they were added (a `Dictionary` that is only ever added to
      enumerates in insertion order). */
  datatype ContentMetaData = ContentMetaData(
    name: Option<string>,
    contentType: string,
    lastTimeUpdated: int,
    language: Option<string>,
    localFilePath: Option<string>,
    platformFileId: int,
    fileSize: int,
    values: seq<Attribute>)

  /** The text conversions the loader relies on and that are not part of
      this model: `TryParse` of a content type (falling back to `Image`),
      `DateExtensions.Parse`, `Convert<int>`, and the `ToString` of each
      value when it is written back as an attribute. The defaults are the
      values a fresh `ContentMetaData` holds. */
  datatype Codec = Codec(
    parseType: string -> string,
    parseDate: string -> int,
    parseInt: string -> int,
    formatType: string -> string,
    formatDate: int -> string,
    formatInt: int -> string,
    defaultType: string,
    defaultDate: int)

  /** The formatting functions are inverted by the parsing functions. */
  ghost predicate RoundTrips(codec: Codec) {
    && (forall t :: codec.parseType(codec.formatType(t)) == t)
    && (forall d :: codec.parseDate(codec.formatDate(d)) == d)
    && (forall n :: codec.parseInt(codec.formatInt(n)) == n)
  }

  /** `new ContentMetaData()`. */
  function Fresh(codec: Codec): (m: ContentMetaData)
    ensures m.name.None? && m.language.None? && m.localFilePath.None? && m.values == []
  {
    ContentMetaData(None, codec.defaultType, codec.defaultDate, None, None, 0, 0, [])
  }

  /** `string.IsNullOrEmpty`. */
  predicate IsNullOrEmpty(s: Option<string>) {
    s.None? || s.value == ""
  }
}

=== FILE: data_collector.dfy ===
/** Reassembly of length-prefixed messages from an arbitrarily chunked byte
    stream, as the source does it (Networking/Tcp/DataCollector.cs).

    A header is one byte holding the payload length when that is below 255;
    otherwise it is the sentinel 255 followed by the length as a 4-byte
    little-endian `int`. Three quirks of the source are kept: the sentinel is
    dequeued even when its four length bytes have not arrived yet, a length
    field of -1 is taken for the "not enough bytes" marker, and the third
    argument of `ReadBytes(data, start, n)` is an end index. */
module DataCollector {
  import opened Numbers
  import opened Wrappers
  import MessageData

  /** 128 MiB: no message may announce a longer payload. */
  const MaxMessageLength: int := 1024 * 1024 * 128

  const Sentinel: Byte := 255
  const NumberOfReservedBytesForMessageLength: nat := 4

  /** What `GetMessageLength` returns when it cannot read a header yet; a
      length field holding -1 returns the same value. */
  const NotEnoughBytesForMessageLength: int := -1

  datatype FrameError =
    | MessageLengthIsTooBig(length: int)
      /** `new byte[length]` for a negative length (the 4-byte length field
          is signed and the source does not check its sign). */
    | NegativeMessageLength(length: int)
      /** The `for` loop of `ReadBytes(data, start, n)` indexed outside `data`. */
    | IndexOutOfRange

  /** The FIFO of bytes not yet consumed, and the message being filled
      (`currentContainerToFill`, `None` for `null`). */
  datatype Collector = Collector(availableData: seq<Byte>, current: Option<MessageData.Container>)

  const Empty: Collector := Collector([], None)

  predicate Valid(c: Collector) {
    c.current.Some? ==> MessageData.Valid(c.current.value)
  }

  /** What one call hands to `ObjectFinished` (the payloads, in order), the
      state it leaves behind, and the exception it ends with, if any. Frames
      completed before an exception have already been delivered. */
  datatype FeedResult = FeedResult(state: Collector, frames: seq<seq<Byte>>, error: Option<FrameError>)

  /** The outcome of reading a header: not enough bytes yet, a length, or a
      length that is too big. */
  datatype Header = NotEnoughBytes | Length(n: int) | TooBig(n: int)

  /** `GetMessageLength` together with `ReadLength`: the header read from the
      front of the queue and what is left of the queue afterwards. */
  function GetMessageLength(queue: seq<Byte>): (r: (Header, seq<Byte>))
    ensures |queue| == 0 ==> r == (NotEnoughBytes, queue)
    ensures |queue| > 0 && queue[0] < 255 ==> r == (Length(queue[0]), queue[1..])
    ensures |queue| > 0 && queue[0] == 255 && |queue| < 5 ==> r == (NotEnoughBytes, queue[1..])
    ensures |queue| >= 5 && queue[0] == 255 ==>
      var n := Int32FromLittleEndian(queue[1], queue[2], queue[3], queue[4]);
      r == (if n > MaxMessageLength then TooBig(n) else Length(n), queue[5..])
    ensures r.0.Length? ==> r.0.n <= MaxMessageLength
  {
    if |queue| < 1 then (NotEnoughBytes, queue)
    else
      var first := queue[0];
      var rest := queue[1..];
      if first < 255 then (Length(first), rest)
      else if |rest| < NumberOfReservedBytesForMessageLength then (NotEnoughBytes, rest)
      else
        var n := Int32FromLittleEndian(rest[0], rest[1], rest[2], rest[3]);
        (if n > MaxMessageLength then TooBig(n) else Length(n), rest[4..])
  }

  function Prepend(frames: seq<seq<Byte>>, r: FeedResult): FeedResult {
    FeedResult(r.state, frames + r.frames, r.error)
  }

  /** Whether `GetMessageLength` returned the value `ReadBytes()` stops on:
      no header yet, or a length field of -1. */
  predicate StopsReading(h: Header) {
    h.NotEnoughBytes? || h == Length(NotEnoughBytesForMessageLength)
  }

  /** `ReadBytes()`: start a container if none is active, fill it, hand it on
      when complete, and go round again while bytes remain. A header whose
      length field is -1 stops the call like a missing header, with the
      bytes after it still queued. */
  function ReadBytes(c: Collector): (r: FeedResult)
    requires Valid(c)
    ensures Valid(r.state)
    ensures c.availableData == [] && c.current.None? ==> r == FeedResult(c, [], None)
    ensures r.state.current.Some? ==>
      r.state.availableData == [] && !MessageData.IsDataComplete(r.state.current.value)
    // Without a container the header decides: -1, the marker value, and a
    // missing header end the call silently; a bad length throws.
    ensures c.current.None? && GetMessageLength(c.availableData).0 == Length(-1) ==>
      r == FeedResult(Collector(GetMessageLength(c.availableData).1, None), [], None)
    ensures c.current.None? && GetMessageLength(c.availableData).0.Length? && GetMessageLength(c.availableData).0.n < -1 ==>
      r.error == Some(NegativeMessageLength(GetMessageLength(c.availableData).0.n)) && r.frames == []
    ensures c.current.None? && GetMessageLength(c.availableData).0.TooBig? ==>
      r.error == Some(MessageLengthIsTooBig(GetMessageLength(c.availableData).0.n)) && r.frames == []
    decreases |c.availableData|, if c.current.Some? then 3 else 1
  {
    if c.current.None? then
      var (header, rest) := GetMessageLength(c.availableData);
      if StopsReading(header) then FeedResult(Collector(rest, None), [], None)
      else match header
        case TooBig(n) => FeedResult(Collector(rest, None), [], Some(MessageLengthIsTooBig(n)))
        case Length(n) =>
          if n < 0 then FeedResult(Collector(rest, None), [], Some(NegativeMessageLength(n)))
          else Fill(MessageData.New(n), rest)
    else Fill(c.current.value, c.availableData)
  }

  /** The part of `ReadBytes()` after the container is known: fill it, and if
      it is complete trigger `ObjectFinished`, clear it and continue with the
      remaining bytes. An incomplete container has drained the queue, so the
      source's "bytes remain" test only succeeds after a completion. */
  function Fill(m: MessageData.Container, queue: seq<Byte>): (r: FeedResult)
    requires MessageData.Valid(m)
    ensures Valid(r.state)
    ensures r.state.current.Some? ==>
      r.state.availableData == [] && !MessageData.IsDataComplete(r.state.current.value)
    decreases |queue|, if MessageData.IsDataComplete(m) then 2 else 0
  {
    var (filled, remaining) := MessageData.ReadData(m, queue);
    if MessageData.IsDataComplete(filled) then
      if |remaining| > 0 then Prepend([filled.data], ReadBytes(Collector(remaining, None)))
      else FeedResult(Collector(remaining, None), [filled.data], None)
    else
      FeedResult(Collector(remaining, Some(filled)), [], None)
  }

  /** `a` is what is left of `b` after some bytes were taken off its front. */
  predicate IsSuffix(a: seq<Byte>, b: seq<Byte>) {
    |a| <= |b| && a == b[|b| - |a|..]
  }

  lemma SuffixTransitive(a: seq<Byte>, b: seq<Byte>, c: seq<Byte>)
    requires IsSuffix(a, b) && IsSuffix(b, c)
    ensures IsSuffix(a, c)
  {
    assert c[|c| - |a|..] == c[|c| - |b|..][|b| - |a|..];
  }

  /** `a` is what is left of `b` right after a long header whose length
      field is -1: the five bytes before it are all 255. */
  predicate FollowsMinusOneHeader(a: seq<Byte>, b: seq<Byte>) {
    |a| + 5 <= |b| && b[|b| - |a| - 5..|b| - |a|] == [255, 255, 255, 255, 255]
  }

  /** A header read leaves a suffix of the queue; a header it cannot read
      yet leaves fewer than four bytes, and a length field of -1 is exactly
      a run of five 255s. */
  lemma HeaderLeftover(queue: seq<Byte>)
    ensures IsSuffix(GetMessageLength(queue).1, queue)
    ensures GetMessageLength(queue).0.NotEnoughBytes? ==> |GetMessageLength(queue).1| < 4
    ensures GetMessageLength(queue).0 == Length(NotEnoughBytesForMessageLength) <==>
      |queue| >= 5 && queue[..5] == [255, 255, 255, 255, 255]
    ensures GetMessageLength(queue).0 == Length(NotEnoughBytesForMessageLength) ==>
      GetMessageLength(queue).1 == queue[5..]
  {
    if |queue| >= 5 && queue[0] == 255 {
      assert queue[5..] == queue[|queue| - |queue[5..]|..];
      MinusOneBytes(queue[1], queue[2], queue[3], queue[4]);
    }
  }

  /** What `ReadBytes()` leaves queued is a suffix of what it was given.
      After a call without an exception and without an active container it
      is fewer than the four bytes a header can need, unless the call
      stopped on a length field of -1, which leaves everything after that
      header queued. */
  lemma ReadBytesLeftover(c: Collector)
    requires Valid(c)
    ensures var r := ReadBytes(c);
      && (r.error.None? && r.state.current.None? ==>
            |r.state.availableData| < 4 || FollowsMinusOneHeader(r.state.availableData, c.availableData))
      && IsSuffix(r.state.availableData, c.availableData)
  {
    if c.current.None? {
      FreshLeftover(c.availableData);
    } else {
      FillLeftover(c.current.value, c.availableData);
    }
  }

  /** A run of five 255s in front of a suffix is still in front of it in a
      longer queue. */
  lemma FollowsTransitive(a: seq<Byte>, b: seq<Byte>, c: seq<Byte>)
    requires FollowsMinusOneHeader(a, b) && IsSuffix(b, c)
    ensures FollowsMinusOneHeader(a, c)
  {
    assert c[|c| - |a| - 5..|c| - |a|] == c[|c| - |b|..][|b| - |a| - 5..|b| - |a|];
  }

  /** `ReadBytesLeftover` with no active container. */
  lemma {:induction false} FreshLeftover(queue: seq<Byte>)
    ensures var r := ReadBytes(Collector(queue, None));
      && (r.error.None? && r.state.current.None? ==>
            |r.state.availableData| < 4 || FollowsMinusOneHeader(r.state.availableData, queue))
      && IsSuffix(r.state.availableData, queue)
    decreases |queue|, 1
  {
    var r := ReadBytes(Collector(queue, None));
    var (header, rest) := GetMessageLength(queue);
    HeaderLeftover(queue);
    if StopsReading(header) {
      assert r.state.availableData == rest;
      if header.Length? {
        assert queue[|queue| - |rest| - 5..|queue| - |rest|] == queue[..5];
      }
    } else if header.Length? && header.n >= 0 {
      assert |rest| < |queue|;
      assert r == Fill(MessageData.New(header.n), rest);
      FillLeftover(MessageData.New(header.n), rest);
      SuffixTransitive(r.state.availableData, rest, queue);
      if r.error.None? && r.state.current.None? && |r.state.availableData| >= 4 {
        FollowsTransitive(r.state.availableData, rest, queue);
      }
    } else {
      assert r.state.availableData == rest;
    }
  }

  /** `ReadBytesLeftover` for the filling of a container. */
  lemma {:induction false} FillLeftover(m: MessageData.Container, queue: seq<Byte>)
    requires MessageData.Valid(m)
    ensures var r := Fill(m, queue);
      && (r.error.None? && r.state.current.None? ==>
            |r.state.availableData| < 4 || FollowsMinusOneHeader(r.state.availableData, queue))
      && IsSuffix(r.state.availableData, queue)
    decreases |queue|, if MessageData.IsDataComplete(m) then 2 else 0
  {
    var (filled, remaining) := MessageData.ReadData(m, queue);
    var r := Fill(m, queue);
    assert IsSuffix(remaining, queue);
    if MessageData.IsDataComplete(filled) && |remaining| > 0 {
      assert r.state == ReadBytes(Collector(remaining, None)).state;
      assert r.error == ReadBytes(Collector(remaining, None)).error;
      FreshLeftover(remaining);
      SuffixTransitive(r.state.availableData, remaining, queue);
      if r.error.None? && r.state.current.None? && |r.state.availableData| >= 4 {
        FollowsTransitive(r.state.availableData, remaining, queue);
      }
    } else {
      assert r.state.availableData == remaining;
    }
  }

  /** `ReadBytes(data, startOffset, numberOfBytesToRead)`: enqueue
      `data[startOffset..numberOfBytesToRead)` (the third argument is where
      the loop stops, not how many bytes it takes) and then run `ReadBytes()`.
      An index outside `data` throws after the bytes before it were queued. */
  function ReadBytesFrom(c: Collector, data: seq<Byte>, startOffset: int, numberOfBytesToRead: int): (r: FeedResult)
    requires Valid(c)
    ensures 0 <= startOffset <= numberOfBytesToRead <= |data| ==>
      r == ReadBytes(Collector(c.availableData + data[startOffset..numberOfBytesToRead], c.current))
    ensures startOffset >= numberOfBytesToRead ==> r == ReadBytes(c)
    ensures startOffset < numberOfBytesToRead && (startOffset < 0 || numberOfBytesToRead > |data|) ==>
      r.error == Some(IndexOutOfRange) && r.frames == []
  {
    if startOffset >= numberOfBytesToRead then
      assert 0 <= startOffset <= |data| ==> c.availableData + data[startOffset..startOffset] == c.availableData;
      ReadBytes(c)
    else if startOffset < 0 then FeedResult(c, [], Some(IndexOutOfRange))
    else if numberOfBytesToRead > |data| then
      var queued := if startOffset < |data| then data[startOffset..] else [];
      FeedResult(Collector(c.availableData + queued, c.current), [], Some(IndexOutOfRange))
    else ReadBytes(Collector(c.availableData + data[startOffset..numberOfBytesToRead], c.current))
  }
}

=== FILE: data_collector_corrected.dfy ===
/** The reassembler with the header read corrected in two ways. A sentinel
    255 whose four length bytes have not all arrived is left at the front of
    the backlog instead of being dequeued, so the header is read whole once
    the next chunk supplies them. And a length field of -1 is rejected like
    every other negative length instead of being mistaken for the "not
    enough bytes" marker, which left the bytes after it unread until the
    next chunk. Everything else is `DataCollector` unchanged. With these
    changes the frames a connection delivers no longer depend on how the
    stream was cut into chunks, for every stream and not only for streams
    of short frames. */
module DataCollectorCorrected {
  import opened Numbers
  import opened Wrappers
  import MessageData
  import opened DataCollector
  import opened FrameEncoding

  /** `GetMessageLength` that only consumes a header it can read completely. */
  function ReadHeader(queue: seq<Byte>): (r: (Header, seq<Byte>))
    ensures |queue| == 0 ==> r == (NotEnoughBytes, queue)
    ensures |queue| > 0 && queue[0] < 255 ==> r == (Length(queue[0]), queue[1..])
    ensures |queue| > 0 && queue[0] == 255 && |queue| < 5 ==> r == (NotEnoughBytes, queue)
    ensures |queue| >= 5 && queue[0] == 255 ==>
      var n := Int32FromLittleEndian(queue[1], queue[2], queue[3], queue[4]);
      r == (if n > MaxMessageLength then TooBig(n) else Length(n), queue[5..])
    ensures r.0.Length? ==> r.0.n <= MaxMessageLength
  {
    if |queue| < 1 then (NotEnoughBytes, queue)
    else if queue[0] < 255 then (Length(queue[0]), queue[1..])
    else if |queue| < 1 + NumberOfReservedBytesForMessageLength then (NotEnoughBytes, queue)
    else
      var n := Int32FromLittleEndian(queue[1], queue[2], queue[3], queue[4]);
      (if n > MaxMessageLength then TooBig(n) else Length(n), queue[5..])
  }

  /** `DataCollector.ReadBytes` with `ReadHeader` in place of
      `GetMessageLength`, stopping only when no header can be read yet: a
      length of -1 throws as `new byte[-1]` would. */
  function ReadBytes(c: Collector): (r: FeedResult)
    requires Valid(c)
    ensures Valid(r.state)
    ensures c.availableData == [] && c.current.None? ==> r == FeedResult(c, [], None)
    ensures r.state.current.Some? ==>
      r.state.availableData == [] && !MessageData.IsDataComplete(r.state.current.value)
    ensures r.error.None? && r.state.current.None? ==> ReadHeader(r.state.availableData).0.NotEnoughBytes?
    ensures c.current.None? && ReadHeader(c.availableData).0.Length? && ReadHeader(c.availableData).0.n < 0 ==>
      r.error == Some(NegativeMessageLength(ReadHeader(c.availableData).0.n)) && r.frames == []
    decreases |c.availableData|, if c.current.Some? then 3 else 1
  {
    if c.current.None? then
      var (header, rest) := ReadHeader(c.availableData);
      match header
      case NotEnoughBytes => FeedResult(Collector(rest, None), [], None)
      case TooBig(n) => FeedResult(Collector(rest, None), [], Some(MessageLengthIsTooBig(n)))
      case Length(n) =>
        if n < 0 then FeedResult(Collector(rest, None), [], Some(NegativeMessageLength(n)))
        else Fill(MessageData.New(n), rest)
    else Fill(c.current.value, c.availableData)
  }

  /** `DataCollector.Fill` continuing with the corrected `ReadBytes`. */
  function Fill(m: MessageData.Container, queue: seq<Byte>): (r: FeedResult)
    requires MessageData.Valid(m)
    ensures Valid(r.state)
    ensures r.state.current.Some? ==>
      r.state.availableData == [] && !MessageData.IsDataComplete(r.state.current.value)
    ensures r.error.None? && r.state.current.None? ==> ReadHeader(r.state.availableData).0.NotEnoughBytes?
    decreases |queue|, if MessageData.IsDataComplete(m) then 2 else 0
  {
    var (filled, remaining) := MessageData.ReadData(m, queue);
    if MessageData.IsDataComplete(filled) then
      if |remaining| > 0 then Prepend([filled.data], ReadBytes(Collector(remaining, None)))
      else FeedResult(Collector(remaining, None), [filled.data], None)
    else
      FeedResult(Collector(remaining, Some(filled)), [], None)
  }

  /** A connection's read loop: each chunk is handed over whole (as
      `ReadBytes(buffer, 0, count)` does), and the first exception ends the
      loop with the frames delivered so far. */
  function FeedAll(c: Collector, chunks: seq<seq<Byte>>): (r: FeedResult)
    requires Valid(c)
    ensures Valid(r.state)
    decreases |chunks|
  {
    if |chunks| == 0 then FeedResult(c, [], None)
    else
      var r1 := ReadBytes(Collector(c.availableData + chunks[0], c.current));
      if r1.error.Some? then r1
      else Prepend(r1.frames, FeedAll(r1.state, chunks[1..]))
  }

  // ---------------------------------------------------------------------
  // Properties.

  /** A header that could be read is read the same way whatever follows it. */
  lemma ReadHeaderExtend(q: seq<Byte>, b: seq<Byte>)
    requires !ReadHeader(q).0.NotEnoughBytes?
    ensures ReadHeader(q + b) == (ReadHeader(q).0, ReadHeader(q).1 + b)
  {
    var s := q + b;
    if q[0] < 255 {
      assert s[1..] == q[1..] + b;
    } else {
      assert s[1..5] == q[1..5];
      assert s[5..] == q[5..] + b;
    }
  }

  /** A collector whose `ReadBytes` neither moves nor emits: its backlog is
      an incomplete header, or empty under an incomplete container. */
  predicate Settled(c: Collector) {
    && Valid(c)
    && (c.current.None? ==> ReadHeader(c.availableData).0.NotEnoughBytes?)
    && (c.current.Some? ==>
          c.availableData == [] && !MessageData.IsDataComplete(c.current.value))
  }

  lemma SettledIsFixed(c: Collector)
    requires Settled(c)
    ensures ReadBytes(c) == FeedResult(c, [], None)
  {
    if c.current.Some? {
      var m := c.current.value;
      assert MessageData.ReadData(m, []).0 == m by {
        assert m.data == m.data[..m.readDataLength] + m.data[m.readDataLength..];
      }
    }
  }

  /** After a call that did not fail, the collector is settled. */
  lemma ReadBytesSettles(c: Collector)
    requires Valid(c)
    requires ReadBytes(c).error.None?
    ensures Settled(ReadBytes(c).state)
  {
  }

  /** Bytes appended to the backlog are processed after everything the call
      would have done without them: the same frames come first, and an
      exception is raised at the same point with the new bytes still queued
      behind the leftover. */
  lemma {:induction false} ReadBytesExtend(c: Collector, b: seq<Byte>)
    requires Valid(c)
    ensures var r := ReadBytes(c);
      ReadBytes(Collector(c.availableData + b, c.current))
        == if r.error.Some? then FeedResult(Collector(r.state.availableData + b, r.state.current), r.frames, r.error)
           else Prepend(r.frames, ReadBytes(Collector(r.state.availableData + b, r.state.current)))
    decreases |c.availableData|, if c.current.Some? then 3 else 1
  {
    var q := c.availableData;
    if c.current.None? {
      var (header, rest) := ReadHeader(q);
      if header.NotEnoughBytes? {
        assert rest == q;
      } else {
        ReadHeaderExtend(q, b);
        if header.Length? && header.n >= 0 {
          FillExtend(MessageData.New(header.n), rest, b);
        }
      }
    } else {
      FillExtend(c.current.value, q, b);
    }
  }

  lemma {:induction false} FillExtend(m: MessageData.Container, q: seq<Byte>, b: seq<Byte>)
    requires MessageData.Valid(m)
    ensures var r := Fill(m, q);
      Fill(m, q + b)
        == if r.error.Some? then FeedResult(Collector(r.state.availableData + b, r.state.current), r.frames, r.error)
           else Prepend(r.frames, ReadBytes(Collector(r.state.availableData + b, r.state.current)))
    decreases |q|, if MessageData.IsDataComplete(m) then 2 else 0
  {
    var (filled, remaining) := MessageData.ReadData(m, q);
    if MessageData.IsDataComplete(filled) {
      FillCompleteExtend(m, q, b);
      if |remaining| > 0 {
        ReadBytesExtend(Collector(remaining, None), b);
        CompleteWithRest(m, q, b);
      } else {
        assert remaining + b == b;
      }
    } else {
      FillPartialExtend(m, q, b);
    }
  }

  /** The completing case of `FillExtend` once the leftover has been shown
      to extend. */
  lemma CompleteWithRest(m: MessageData.Container, q: seq<Byte>, b: seq<Byte>)
    requires MessageData.Valid(m)
    requires var (filled, remaining) := MessageData.ReadData(m, q);
      && MessageData.IsDataComplete(filled) && |remaining| > 0
      && MessageData.ReadData(m, q + b) == (filled, remaining + b)
    requires var r := ReadBytes(Collector(MessageData.ReadData(m, q).1, None));
      ReadBytes(Collector(MessageData.ReadData(m, q).1 + b, None))
        == if r.error.Some? then FeedResult(Collector(r.state.availableData + b, r.state.current), r.frames, r.error)
           else Prepend(r.frames, ReadBytes(Collector(r.state.availableData + b, r.state.current)))
    ensures var r := Fill(m, q);
      Fill(m, q + b)
        == if r.error.Some? then FeedResult(Collector(r.state.availableData + b, r.state.current), r.frames, r.error)
           else Prepend(r.frames, ReadBytes(Collector(r.state.availableData + b, r.state.current)))
    ensures var (filled, remaining) := MessageData.ReadData(m, q);
      Fill(m, q + b) == Prepend([filled.data], ReadBytes(Collector(remaining + b, None)))
  {
    var (filled, remaining) := MessageData.ReadData(m, q);
    var r := ReadBytes(Collector(remaining, None));
    assert Fill(m, q) == Prepend([filled.data], r);
    if r.error.None? {
      PrependTwice([filled.data], r.frames, ReadBytes(Collector(r.state.availableData + b, r.state.current)));
    }
  }

  lemma PrependTwice(a: seq<seq<Byte>>, b: seq<seq<Byte>>, x: FeedResult)
    ensures Prepend(a, Prepend(b, x)) == Prepend(a + b, x)
  {
    assert a + (b + x.frames) == (a + b) + x.frames;
  }

  /** The case of `FillExtend` where the container stays incomplete. */
  lemma FillPartialExtend(m: MessageData.Container, q: seq<Byte>, b: seq<Byte>)
    requires MessageData.Valid(m)
    requires !MessageData.IsDataComplete(MessageData.ReadData(m, q).0)
    ensures var r := Fill(m, q);
      Fill(m, q + b) == Prepend(r.frames, ReadBytes(Collector(r.state.availableData + b, r.state.current)))
  {
    var (filled, remaining) := MessageData.ReadData(m, q);
    MessageData.ReadDataSplit(m, q, b);
    assert Fill(m, q) == FeedResult(Collector([], Some(filled)), [], None);
    assert [] + b == b;
  }

  /** Once the container is complete, extra queued bytes only lengthen the
      leftover. */
  lemma FillCompleteExtend(m: MessageData.Container, q: seq<Byte>, b: seq<Byte>)
    requires MessageData.Valid(m)
    requires MessageData.IsDataComplete(MessageData.ReadData(m, q).0)
    ensures MessageData.ReadData(m, q + b)
         == (MessageData.ReadData(m, q).0, MessageData.ReadData(m, q).1 + b)
  {
    var k := MessageData.MissingByteCount(m);
    MessageData.ReadDataCompletes(m, q);
    MessageData.ReadDataCompletes(m, q + b);
    assert (q + b)[..k] == q[..k];
    assert (q + b)[k..] == q[k..] + b;
  }

  /** The frames and the exception a connection sees do not depend on how
      the stream was cut into chunks: they are those of reading the whole
      stream at once. */
  lemma {:induction false} ChunkingInvariance(c: Collector, chunks: seq<seq<Byte>>)
    requires Settled(c)
    ensures var one := ReadBytes(Collector(c.availableData + Flatten(chunks), c.current));
      FeedAll(c, chunks).frames == one.frames && FeedAll(c, chunks).error == one.error
    decreases |chunks|
  {
    if |chunks| == 0 {
      assert c.availableData + [] == c.availableData;
      SettledIsFixed(c);
    } else {
      var c1 := Collector(c.availableData + chunks[0], c.current);
      var r1 := ReadBytes(c1);
      assert c.availableData + Flatten(chunks) == c1.availableData + Flatten(chunks[1..]);
      ReadBytesExtend(c1, Flatten(chunks[1..]));
      if r1.error.None? {
        ReadBytesSettles(c1);
        ChunkingInvariance(r1.state, chunks[1..]);
      }
    }
  }

  /** One complete frame at the front of the backlog is emitted and reading
      carries on with what follows it. */
  lemma ReadBytesOneFrame(p: seq<Byte>, t: seq<Byte>)
    requires Sendable(p)
    ensures ReadBytes(Collector(EncodeFrame(p) + t, None))
         == Prepend([p], ReadBytes(Collector(t, None)))
  {
    var n := |p|;
    var s := EncodeFrame(p) + t;
    assert s == EncodeHeader(n) + (p + t);
    assert ReadHeader(s) == (Length(n), p + t) by {
      if n < 255 {
        assert s[1..] == p + t;
      } else {
        assert s[1..5] == EncodeHeader(n)[1..5];
        assert s[5..] == p + t;
      }
    }
    MessageData.FillFreshContainer(n, p + t);
    assert (p + t)[..n] == p;
    assert (p + t)[n..] == t;
  }

  /** Feeding a whole encoded stream at once yields its payloads, in order. */
  lemma {:induction false} OneShotRoundTrip(ps: seq<seq<Byte>>)
    requires AllSendable(ps)
    ensures ReadBytes(Collector(EncodeFrames(ps), None)) == FeedResult(Empty, ps, None)
    decreases |ps|
  {
    if |ps| > 0 {
      EncodeFramesCons(ps);
      ReadBytesOneFrame(ps[0], EncodeFrames(ps[1..]));
      OneShotRoundTrip(ps[1..]);
    }
  }

  /** However the encoded stream of any sendable payloads is cut into
      chunks, a fresh connection delivers exactly those payloads, in order,
      without an exception. */
  lemma ChunkedRoundTrip(ps: seq<seq<Byte>>, chunks: seq<seq<Byte>>)
    requires AllSendable(ps)
    requires Flatten(chunks) == EncodeFrames(ps)
    ensures FeedAll(Empty, chunks).frames == ps
    ensures FeedAll(Empty, chunks).error == None
  {
    ChunkingInvariance(Empty, chunks);
    assert Empty.availableData + Flatten(chunks) == EncodeFrames(ps);
    OneShotRoundTrip(ps);
  }
}

=== FILE: data_collector_proofs.dfy ===
/** Properties of the reassembler as the source writes it: header decoding,
    the one-shot round trip, the oversize check, and invariance under
    re-chunking for streams whose headers are all one byte long. */
module DataCollectorProofs {
  import opened Numbers
  import opened Wrappers
  import MessageData
  import opened DataCollector
  import opened FrameEncoding

  /** A header written by the sender is read back as its length, consuming
      exactly the header bytes: one byte below 255, five bytes otherwise. */
  lemma HeaderRoundTrip(n: nat, rest: seq<Byte>)
    requires n <= MaxMessageLength
    ensures GetMessageLength(EncodeHeader(n) + rest) == (Length(n), rest)
  {
    var s := EncodeHeader(n) + rest;
    if n < 255 {
      assert s[1..] == rest;
    } else {
      assert s[1..5] == EncodeHeader(n)[1..5];
      assert s[5..] == rest;
    }
  }

  /** A declared length of 128 MiB + 1 is rejected with `MessageLengthIsTooBig`
      before any container is allocated, and no frame is emitted. */
  lemma OversizeRejected(rest: seq<Byte>)
    ensures var s := [255 as Byte] + Int32ToLittleEndian(MaxMessageLength + 1) + rest;
      var r := ReadBytes(Collector(s, None));
      && GetMessageLength(s) == (TooBig(MaxMessageLength + 1), rest)
      && r.error == Some(MessageLengthIsTooBig(MaxMessageLength + 1))
      && r.frames == []
      && r.state == Collector(rest, None)
  {
    var s := [255 as Byte] + Int32ToLittleEndian(MaxMessageLength + 1) + rest;
    assert s[1..5] == Int32ToLittleEndian(MaxMessageLength + 1);
    assert s[5..] == rest;
  }

  /** One complete frame at the front of the backlog is emitted and the
      collector carries on with what follows it. */
  lemma ReadBytesOneFrame(p: seq<Byte>, t: seq<Byte>)
    requires Sendable(p)
    ensures ReadBytes(Collector(EncodeFrame(p) + t, None))
         == Prepend([p], ReadBytes(Collector(t, None)))
  {
    var s := EncodeFrame(p) + t;
    assert s == EncodeHeader(|p|) + (p + t);
    HeaderRoundTrip(|p|, p + t);
    MessageData.FillFreshContainer(|p|, p + t);
    assert (p + t)[..|p|] == p;
    assert (p + t)[|p|..] == t;
  }

  /** Feeding a whole encoded stream at once emits exactly the encoded
      payloads, in order, and leaves the collector empty. */
  lemma {:induction false} OneShotRoundTrip(ps: seq<seq<Byte>>)
    requires AllSendable(ps)
    ensures ReadBytes(Collector(EncodeFrames(ps), None)) == FeedResult(Empty, ps, None)
    decreases |ps|
  {
    if |ps| > 0 {
      EncodeFramesCons(ps);
      ReadBytesOneFrame(ps[0], EncodeFrames(ps[1..]));
      OneShotRoundTrip(ps[1..]);
    }
  }

  // ---------------------------------------------------------------------
  // Streams whose headers are all one byte long.

  /** Every header met while walking `s` frame by frame is below 255 (a final
      incomplete frame counts by its header only). */
  predicate AllShort(s: seq<Byte>)
    decreases |s|
  {
    |s| == 0 || (s[0] < 255 && (|s| - 1 < s[0] || AllShort(s[1 + s[0]..])))
  }

  /** Reference reading of a short-header stream: the complete payloads in
      order, and the trailing incomplete frame (header included). */
  function ShortParse(s: seq<Byte>): (r: (seq<seq<Byte>>, seq<Byte>))
    requires AllShort(s)
    decreases |s|
  {
    if |s| == 0 then ([], [])
    else if |s| - 1 < s[0] then ([], s)
    else
      var tail := ShortParse(s[1 + s[0]..]);
      ([s[1..1 + s[0]]] + tail.0, tail.1)
  }

  /** Reading a prefix, then its leftover together with the rest, gives the
      same payloads as reading everything at once. */
  lemma {:induction false} ShortParseSplit(x: seq<Byte>, y: seq<Byte>)
    requires AllShort(x + y)
    ensures AllShort(x)
    ensures AllShort(ShortParse(x).1 + y)
    ensures ShortParse(x + y).0 == ShortParse(x).0 + ShortParse(ShortParse(x).1 + y).0
    ensures ShortParse(x + y).1 == ShortParse(ShortParse(x).1 + y).1
    decreases |x|
  {
    if |x| == 0 {
      assert x + y == y;
    } else if |x| - 1 < x[0] {
    } else {
      var n := x[0] as int;
      assert (x + y)[1 + n..] == x[1 + n..] + y;
      assert (x + y)[1..1 + n] == x[1..1 + n];
      ShortParseSplit(x[1 + n..], y);
    }
  }

  /** A collector between two feeds with only a short-header frame pending. */
  predicate Quiescent(c: Collector) {
    && c.availableData == []
    && (c.current.Some? ==>
          var m := c.current.value;
          MessageData.Valid(m) && m.readDataLength < |m.data| < 255)
  }

  /** The stream bytes a quiescent collector has consumed but not emitted:
      the header and the payload bytes of the pending frame. */
  function Pending(c: Collector): (r: seq<Byte>)
    requires Quiescent(c)
  {
    if c.current.None? then []
    else
      var m := c.current.value;
      [|m.data| as Byte] + m.data[..m.readDataLength]
  }

  /** One feed of a short-header stream emits the complete payloads of the
      pending bytes followed by the new bytes, and keeps the trailing
      incomplete frame pending. */
  lemma {:induction false} ShortFeed(c: Collector, q: seq<Byte>)
    requires Quiescent(c)
    requires AllShort(Pending(c) + q)
    ensures var r := ReadBytes(Collector(q, c.current));
      && r.error.None?
      && Quiescent(r.state)
      && r.frames == ShortParse(Pending(c) + q).0
      && Pending(r.state) == ShortParse(Pending(c) + q).1
    decreases |q|, if c.current.Some? then 1 else 0
  {
    if c.current.None? {
      assert Pending(c) + q == q;
      ShortFeedFresh(q);
    } else {
      ShortFeedPending(c.current.value, q);
    }
  }

  /** `Fill` with enough bytes: the payload is emitted and reading goes on. */
  lemma FillComplete(m: MessageData.Container, q: seq<Byte>)
    requires MessageData.Valid(m) && |q| >= MessageData.MissingByteCount(m)
    ensures var rr := MessageData.ReadData(m, q);
      Fill(m, q) == if |rr.1| > 0 then Prepend([rr.0.data], ReadBytes(Collector(rr.1, None)))
                    else FeedResult(Collector([], None), [rr.0.data], None)
  {
  }

  /** `Fill` with too few bytes: everything is taken and the container stays. */
  lemma FillIncomplete(m: MessageData.Container, q: seq<Byte>)
    requires MessageData.Valid(m) && |q| < MessageData.MissingByteCount(m)
    ensures Fill(m, q) == FeedResult(Collector([], Some(MessageData.ReadData(m, q).0)), [], None)
  {
  }

  lemma ShortParseStep(s: seq<Byte>)
    requires AllShort(s) && |s| > 0 && |s| - 1 >= s[0]
    ensures AllShort(s[1 + s[0]..])
    ensures ShortParse(s) == ([s[1..1 + s[0]]] + ShortParse(s[1 + s[0]..]).0, ShortParse(s[1 + s[0]..]).1)
  {
  }

  /** A short header followed by its whole payload: the payload is emitted
      and reading goes on with what follows. */
  lemma FreshCompleteStep(q: seq<Byte>)
    requires |q| > 0 && q[0] < 255 && |q| - 1 >= q[0]
    ensures var h := q[0] as int;
      var rem := q[1 + h..];
      ReadBytes(Collector(q, None))
        == if |rem| > 0 then Prepend([q[1..1 + h]], ReadBytes(Collector(rem, None)))
           else FeedResult(Empty, [q[1..1 + h]], None)
  {
    var h := q[0] as int;
    var rest := q[1..];
    assert GetMessageLength(q) == (Length(h), rest);
    MessageData.FillFreshContainer(h, rest);
    FillComplete(MessageData.New(h), rest);
    assert q[1..1 + h] == rest[..h];
    assert q[1 + h..] == rest[h..];
  }

  /** A short header followed by part of its payload: all of it is taken
      into a pending container. */
  lemma FreshIncompleteStep(q: seq<Byte>)
    requires |q| > 0 && q[0] < 255 && |q| - 1 < q[0]
    ensures var r := ReadBytes(Collector(q, None));
      && r.error.None? && r.frames == []
      && Quiescent(r.state) && Pending(r.state) == q
  {
    var h := q[0] as int;
    var rest := q[1..];
    assert GetMessageLength(q) == (Length(h), rest);
    var rr := MessageData.ReadData(MessageData.New(h), rest);
    FillIncomplete(MessageData.New(h), rest);
    assert rr.0.data[..rr.0.readDataLength] == rest;
    assert [h as Byte] + rest == q;
  }

  /** `ShortFeed` when no container is active: read a header, then fill. */
  lemma {:induction false} ShortFeedFresh(q: seq<Byte>)
    requires AllShort(q)
    ensures var r := ReadBytes(Collector(q, None));
      && r.error.None?
      && Quiescent(r.state)
      && r.frames == ShortParse(q).0
      && Pending(r.state) == ShortParse(q).1
    decreases |q|, 0
  {
    if |q| == 0 {
    } else if |q| - 1 < q[0] {
      FreshIncompleteStep(q);
    } else {
      FreshCompleteStep(q);
      ShortParseStep(q);
      var rem := q[1 + q[0]..];
      if |rem| > 0 {
        ShortFeedFresh(rem);
      }
    }
  }

  /** A pending short frame whose remaining payload has arrived: it is
      emitted as the pending bytes followed by the new ones. */
  lemma PendingCompleteStep(m: MessageData.Container, q: seq<Byte>)
    requires Quiescent(Collector([], Some(m)))
    requires |q| >= |m.data| - m.readDataLength
    ensures var k := |m.data| - m.readDataLength;
      var frame := m.data[..m.readDataLength] + q[..k];
      ReadBytes(Collector(q, Some(m)))
        == if |q[k..]| > 0 then Prepend([frame], ReadBytes(Collector(q[k..], None)))
           else FeedResult(Empty, [frame], None)
  {
    var k := |m.data| - m.readDataLength;
    var rr := MessageData.ReadData(m, q);
    MessageData.ReadDataCompletes(m, q);
    assert rr.0.data == m.data[..m.readDataLength] + q[..k];
    assert rr.1 == q[k..];
    FillComplete(m, q);
    assert ReadBytes(Collector(q, Some(m))) == Fill(m, q);
  }

  /** A pending short frame that still misses bytes after this feed. */
  lemma PendingIncompleteStep(m: MessageData.Container, q: seq<Byte>)
    requires Quiescent(Collector([], Some(m)))
    requires |q| < |m.data| - m.readDataLength
    ensures var r := ReadBytes(Collector(q, Some(m)));
      && r.error.None? && r.frames == []
      && Quiescent(r.state) && Pending(r.state) == Pending(Collector([], Some(m))) + q
  {
    var rr := MessageData.ReadData(m, q);
    FillIncomplete(m, q);
    assert rr.0.data[..rr.0.readDataLength] == m.data[..m.readDataLength] + q;
  }

  /** `ShortFeed` when a container is pending: fill it, then go on afresh. */
  lemma {:induction false} ShortFeedPending(m: MessageData.Container, q: seq<Byte>)
    requires Quiescent(Collector([], Some(m)))
    requires AllShort(Pending(Collector([], Some(m))) + q)
    ensures var s := Pending(Collector([], Some(m))) + q;
      var r := ReadBytes(Collector(q, Some(m)));
      && r.error.None?
      && Quiescent(r.state)
      && r.frames == ShortParse(s).0
      && Pending(r.state) == ShortParse(s).1
    decreases |q|, 1
  {
    var n := |m.data|;
    var rd := m.readDataLength;
    if |q| >= n - rd {
      var k := n - rd;
      var rem := q[k..];
      PendingCompleteStep(m, q);
      PendingSplit(m, q);
      if |rem| > 0 {
        ShortFeedFresh(rem);
      }
      CompleteThenFresh(m.data[..rd] + q[..k], rem, ReadBytes(Collector(q, Some(m))),
                        Pending(Collector([], Some(m))) + q);
    } else {
      PendingIncompleteStep(m, q);
    }
  }

  /** A completed frame followed by a fresh read of the rest, matched
      against the stream parsed as that frame and then the rest. */
  lemma CompleteThenFresh(frame: seq<Byte>, rem: seq<Byte>, r: FeedResult, s: seq<Byte>)
    requires AllShort(rem) && AllShort(s)
    requires r == if |rem| > 0 then Prepend([frame], ReadBytes(Collector(rem, None)))
                  else FeedResult(Empty, [frame], None)
    requires ShortParse(s) == ([frame] + ShortParse(rem).0, ShortParse(rem).1)
    requires |rem| > 0 ==>
      var f := ReadBytes(Collector(rem, None));
      && f.error.None? && Quiescent(f.state)
      && f.frames == ShortParse(rem).0 && Pending(f.state) == ShortParse(rem).1
    ensures && r.error.None?
            && Quiescent(r.state)
            && r.frames == ShortParse(s).0
            && Pending(r.state) == ShortParse(s).1
  {
    if |rem| == 0 {
      assert ShortParse(rem) == ([], []);
    }
  }

  /** The stream of a pending frame and the bytes that complete it: the
      frame, then the rest of the stream. */
  lemma PendingSplit(m: MessageData.Container, q: seq<Byte>)
    requires Quiescent(Collector([], Some(m)))
    requires AllShort(Pending(Collector([], Some(m))) + q)
    requires |q| >= |m.data| - m.readDataLength
    ensures var k := |m.data| - m.readDataLength;
      var s := Pending(Collector([], Some(m))) + q;
      && AllShort(q[k..])
      && ShortParse(s) == ([m.data[..m.readDataLength] + q[..k]] + ShortParse(q[k..]).0, ShortParse(q[k..]).1)
  {
    var s := Pending(Collector([], Some(m))) + q;
    PendingStream(m, q);
    ShortParseStep(s);
  }

  /** The stream of a pending frame and new bytes, cut at the frame's end. */
  lemma PendingStream(m: MessageData.Container, q: seq<Byte>)
    requires Quiescent(Collector([], Some(m)))
    requires |q| >= |m.data| - m.readDataLength
    ensures var k := |m.data| - m.readDataLength;
      var s := Pending(Collector([], Some(m))) + q;
      && |s| - 1 >= s[0] as int == |m.data|
      && s[1..1 + |m.data|] == m.data[..m.readDataLength] + q[..k]
      && s[1 + |m.data|..] == q[k..]
  {
    var s := Pending(Collector([], Some(m))) + q;
    var n := |m.data|;
    var d := m.data[..m.readDataLength];
    var k := n - m.readDataLength;
    assert s == [n as Byte] + (d + q);
    assert (d + q)[..n] == d + q[..k];
    assert (d + q)[n..] == q[k..];
  }

  /** The read loop of a connection: each chunk is handed over whole, as
      `ReadBytes(chunk, 0, chunk.Length)`; an exception ends the loop. */
  function FeedAll(c: Collector, chunks: seq<seq<Byte>>): (r: FeedResult)
    requires Valid(c)
    decreases |chunks|
  {
    if |chunks| == 0 then FeedResult(c, [], None)
    else
      var r1 := ReadBytesFrom(c, chunks[0], 0, |chunks[0]|);
      if r1.error.Some? then r1 else Prepend(r1.frames, FeedAll(r1.state, chunks[1..]))
  }

  lemma {:induction false} ChunkedShortFeed(c: Collector, chunks: seq<seq<Byte>>)
    requires Quiescent(c)
    requires AllShort(Pending(c) + Flatten(chunks))
    ensures var r := FeedAll(c, chunks);
      && r.error.None?
      && Quiescent(r.state)
      && r.frames == ShortParse(Pending(c) + Flatten(chunks)).0
      && Pending(r.state) == ShortParse(Pending(c) + Flatten(chunks)).1
    decreases |chunks|
  {
    var p := Pending(c);
    if |chunks| == 0 {
      assert p + Flatten(chunks) == p;
      if c.current.Some? {
        assert |p| - 1 < p[0];
      }
    } else {
      var a := chunks[0];
      var y := Flatten(chunks[1..]);
      assert p + Flatten(chunks) == (p + a) + y;
      assert c.availableData + a[0..|a|] == a;
      ShortParseSplit(p + a, y);
      ShortFeed(c, a);
      var r1 := ReadBytes(Collector(a, c.current));
      ChunkedShortFeed(r1.state, chunks[1..]);
    }
  }

  /** Fragmentation invariance: when every header is one byte long, the
      payloads emitted do not depend on how the stream was cut into reads. */
  lemma ShortHeaderFragmentationInvariance(chunks: seq<seq<Byte>>)
    requires AllShort(Flatten(chunks))
    ensures FeedAll(Empty, chunks).error.None?
    ensures FeedAll(Empty, chunks).frames == ReadBytes(Collector(Flatten(chunks), None)).frames
    ensures FeedAll(Empty, chunks).frames == ShortParse(Flatten(chunks)).0
  {
    assert Pending(Empty) + Flatten(chunks) == Flatten(chunks);
    ChunkedShortFeed(Empty, chunks);
    ShortFeed(Empty, Flatten(chunks));
  }

  /** An encoded stream of short payloads has only short headers and reads
      back as exactly those payloads. */
  lemma {:induction false} ShortRoundTrip(ps: seq<seq<Byte>>)
    requires forall i :: 0 <= i < |ps| ==> |ps[i]| < 255
    ensures AllShort(EncodeFrames(ps))
    ensures ShortParse(EncodeFrames(ps)) == (ps, [])
    decreases |ps|
  {
    if |ps| > 0 {
      var s := EncodeFrames(ps);
      var p := ps[0];
      ShortRoundTrip(ps[1..]);
      assert s == [|p| as Byte] + p + EncodeFrames(ps[1..]);
      assert s[1 + |p|..] == EncodeFrames(ps[1..]);
      assert s[1..1 + |p|] == p;
      assert [p] + ps[1..] == ps;
    }
  }

  function TestPayload(n: nat): (r: seq<Byte>)
    requires n <= 156
  {
    seq(n, i requires 0 <= i < n => (100 + i) as Byte)
  }

  /** The recorded scenario: payloads of 6, 4 and 10 bytes make a 23-byte
      stream; cut into reads of 7, 7, 8 and 1 bytes it yields exactly those
      three payloads. */
  lemma CollectDataScenario()
    ensures var ps := [TestPayload(6), TestPayload(4), TestPayload(10)];
      var stream := EncodeFrames(ps);
      && |stream| == 23
      && var chunks := [stream[..7], stream[7..14], stream[14..22], stream[22..]];
         FeedAll(Empty, chunks).frames == ps && |FeedAll(Empty, chunks).frames| == 3
  {
    var ps := [TestPayload(6), TestPayload(4), TestPayload(10)];
    var stream := EncodeFrames(ps);
    assert EncodeFrames(ps[2..]) == [10 as Byte] + TestPayload(10) + [];
    assert EncodeFrames(ps[1..]) == [4 as Byte] + TestPayload(4) + EncodeFrames(ps[2..]);
    assert |stream| == 23;
    var chunks := [stream[..7], stream[7..14], stream[14..22], stream[22..]];
    assert Flatten(chunks[4..]) == [];
    assert Flatten(chunks[3..]) == stream[22..];
    assert Flatten(chunks[2..]) == stream[14..];
    assert Flatten(chunks[1..]) == stream[7..];
    assert Flatten(chunks) == stream;
    ShortRoundTrip(ps);
    ShortHeaderFragmentationInvariance(chunks);
  }

  /** The sentinel is lost when a read ends right after it. A 255-byte
      payload is framed as the sentinel, the length 255 as four bytes, and
      the payload. Read whole, the stream yields the payload. Read as the
      sentinel alone and then the rest, the first read dequeues the sentinel
      and finds too few bytes after it; the second read then takes the first
      length byte 255 for a new sentinel and the next four bytes (0, 0, 0
      and the first payload byte) for a length of 2^24, so the payload is
      swallowed into a container that never completes. */
  lemma SentinelLoss()
    ensures var p := seq(255, _ => 1 as Byte);
      var stream := EncodeFrame(p);
      var chunks := [stream[..1], stream[1..]];
      && stream == [255, 255, 0, 0, 0] + p
      && ReadBytes(Collector(stream, None)).frames == [p]
      && FeedAll(Empty, chunks).frames == []
      && FeedAll(Empty, chunks).error == None
      && FeedAll(Empty, chunks).state.current.Some?
      && |FeedAll(Empty, chunks).state.current.value.data| == 0x100_0000
  {
    var p := seq(255, _ => 1 as Byte);
    var stream := EncodeFrame(p);
    var chunks: seq<seq<Byte>> := [stream[..1], stream[1..]];
    SentinelStream(p);
    LoneSentinelDropped();
    TwoReadsAfterNothing(chunks[0], chunks[1]);
    MisreadLength(p);
  }

  /** The long frame of a 255-byte payload, and its two pieces. */
  lemma SentinelStream(p: seq<Byte>)
    requires |p| == 255
    ensures var stream := EncodeFrame(p);
      && stream == [255, 255, 0, 0, 0] + p
      && stream[..1] == [255]
      && stream[1..] == [255, 0, 0, 0] + p
      && ReadBytes(Collector(stream, None)).frames == [p]
  {
    var stream := EncodeFrame(p);
    SentinelHeader();
    assert stream == [255, 255, 0, 0, 0] + p;
    WholeFrame(p);
  }

  lemma SentinelHeader()
    ensures EncodeHeader(255) == [255, 255, 0, 0, 0]
  {
    var b := Int32ToLittleEndian(255);
    assert 255 / 256 == 0 && 255 % 256 == 255 && 0 / 256 == 0 && 0 % 256 == 0;
    assert b == [255, 0, 0, 0];
    assert EncodeHeader(255) == [255 as Byte] + b;
  }

  /** A lone frame read whole yields its payload. */
  lemma WholeFrame(p: seq<Byte>)
    requires Sendable(p)
    ensures ReadBytes(Collector(EncodeFrame(p), None)).frames == [p]
  {
    ReadBytesOneFrame(p, []);
    assert EncodeFrame(p) + [] == EncodeFrame(p);
  }

  /** Two reads, the first of which leaves nothing behind, act as the second
      one alone. */
  lemma TwoReadsAfterNothing(a: seq<Byte>, b: seq<Byte>)
    requires ReadBytesFrom(Empty, a, 0, |a|) == FeedResult(Empty, [], None)
    ensures FeedAll(Empty, [a, b]) == ReadBytes(Collector(b, None))
  {
    var chunks: seq<seq<Byte>> := [a, b];
    assert chunks[1..] == [b];
    assert [b][1..] == [];
    assert [] + b == b;
    var r2 := ReadBytes(Collector(b, None));
    assert Empty.availableData + b[0..|b|] == b;
    assert ReadBytesFrom(Empty, b, 0, |b|) == r2;
    assert FeedAll(r2.state, []) == FeedResult(r2.state, [], None);
    assert r2.frames + [] == r2.frames;
    assert FeedAll(Empty, [b]) == r2;
    assert FeedAll(Empty, chunks) == Prepend([], FeedAll(Empty, [b]));
  }

  /** A read that ends right after a sentinel drops it and emits nothing. */
  lemma LoneSentinelDropped()
    ensures ReadBytesFrom(Empty, [255], 0, 1) == FeedResult(Empty, [], None)
  {
    assert [] + [255 as Byte] == [255];
    assert GetMessageLength([255]) == (NotEnoughBytes, []);
  }

  /** Without its sentinel, the long header of a 255-byte payload is read as
      a new sentinel and the length 2^24, and the payload only starts to
      fill that container. */
  lemma MisreadLength(p: seq<Byte>)
    requires |p| == 255 && p[0] == 1
    ensures var r := ReadBytes(Collector([255, 0, 0, 0] + p, None));
      && r.frames == [] && r.error == None
      && r.state.current.Some? && |r.state.current.value.data| == 0x100_0000
  {
    var s: seq<Byte> := [255, 0, 0, 0] + p;
    assert s[1..5] == [0, 0, 0, 1];
    assert s[5..] == p[1..];
    assert GetMessageLength(s) == (Length(0x100_0000), p[1..]);
    FillIncomplete(MessageData.New(0x100_0000), p[1..]);
  }

  /** The long header whose length field is -1. */
  const MinusOneHeader: seq<Byte> := [255, 255, 255, 255, 255]

  /** A length field of -1 is the value `GetMessageLength` also returns for
      a missing header, so the call stops there without an exception and
      without a container, and whatever follows stays queued unread. */
  lemma MinusOneHeaderStops(t: seq<Byte>)
    ensures ReadBytes(Collector(MinusOneHeader + t, None)) == FeedResult(Collector(t, None), [], None)
  {
    var s := MinusOneHeader + t;
    assert s[1..5] == [255, 255, 255, 255];
    assert s[5..] == t;
    MinusOneBytes(255, 255, 255, 255);
  }

  /** With the -1 header the frames depend on the chunking: the stream
      `MinusOneHeader + [0]` read whole emits nothing and keeps the `0`
      queued, but read as the header and then `[0]` it emits one empty
      frame. */
  lemma MinusOneChunking()
    ensures var stream := MinusOneHeader + [0];
      && ReadBytes(Collector(stream, None)) == FeedResult(Collector([0], None), [], None)
      && FeedAll(Empty, [MinusOneHeader, [0]]).frames == [[]]
      && FeedAll(Empty, [MinusOneHeader, [0]]).error == None
  {
    MinusOneHeaderStops([0]);
    MinusOneHeaderStops([]);
    assert MinusOneHeader + [] == MinusOneHeader;
    assert [] + MinusOneHeader[0..5] == MinusOneHeader;
    TwoReadsAfterNothing(MinusOneHeader, [0]);
    assert GetMessageLength([0]) == (Length(0), []);
    assert MessageData.IsDataComplete(MessageData.ReadData(MessageData.New(0), []).0);
  }
}

=== FILE: developer_content_loader.dfy ===
/** The content loader used while developing
    (Content/Online/DeveloperOnlineContentLoader.cs): it keeps the metadata
    file of the content directory in memory, indexes it by name, answers
    `GetMetaData` once the content is ready, and reacts to the messages of
    the content service by switching project, storing updated content and
    deleting content.

    The disk is part of the state: whether the content directory exists, the
    tree last saved as the metadata file, and the content files by name.
    The clock and the XML serialiser are parameters (`Host`). */
module DeveloperContentLoader {
  import opened Wrappers
  import opened Numbers
  import opened ContentMetaDataModel
  import opened MetaDataXml
  import opened MetaDataTree
  import opened Messages

  /** `contentPath` as the loader sees it. `metaDataFile` is the tree last
      saved to `ContentMetaData.xml`; reading the file back gives that tree. */
  datatype Disk = Disk(directoryExists: bool, metaDataFile: Option<Xml>, files: map<string, seq<Byte>>)

  /** `file` is the cached `XmlFile` (`null` is `None`) and `index` the
      `metaData` dictionary. */
  datatype Loader = Loader(
    disk: Disk,
    file: Option<Xml>,
    index: seq<Entry>,
    isContentReady: bool,
    projectName: Option<string>,
    isIgnoringSetProject: bool)

  /** The current time as `AddAttribute` writes it, and `ToXmlString`. */
  datatype Host = Host(now: string, toXmlString: Xml -> string)

  datatype LoaderError =
    | ParseFailed(error: ParseError)
    | NoPermissionToUseProject(projectName: string)
    | ContentNotReady

  /** The state after a handler, the messages it sent, whether it raised
      `ContentChanged`, and the exception it ended with. */
  datatype Step = Step(state: Loader, sent: seq<Message>, contentChanged: bool, error: Option<LoaderError>)

  /** What every handler keeps true: files live only in an existing
      directory, the cached tree is the one on disk whenever both exist, and
      a cached tree with entries belongs to an existing directory. */
  predicate Valid(s: Loader) {
    && (!s.disk.directoryExists ==> s.disk.metaDataFile.None? && s.disk.files == map[])
    && (s.file.Some? && s.disk.metaDataFile.Some? ==> s.file == s.disk.metaDataFile)
    && (s.file.Some? && |s.file.value.children| > 0 ==> s.disk.directoryExists)
  }

  /** The constructor: nothing cached, nothing indexed, not ready. */
  function New(disk: Disk): (s: Loader)
    requires !disk.directoryExists ==> disk.metaDataFile.None? && disk.files == map[]
    ensures Valid(s)
    ensures !s.isContentReady && s.index == [] && s.file.None? && !s.isIgnoringSetProject
  {
    Loader(disk, None, [], false, None, false)
  }

  // ---------------------------------------------------------------------
  // The metadata file.

  const SceneType: string := "Scene"
  const ContentDeviceNameKey: string := "ContentDeviceName"
  const DeltaDevice: string := "Delta"

  /** The root a new metadata file starts with. A `null` project name is
      written as an empty attribute. */
  function FreshRoot(projectName: Option<string>, now: string): (r: Xml)
    ensures NodeName(r) == Text(projectName) && r.children == []
  {
    Xml("ContentMetaData",
        [Attribute(NameKey, Text(projectName)), Attribute(TypeKey, SceneType),
         Attribute(LastTimeUpdatedKey, now), Attribute(ContentDeviceNameKey, DeltaDevice)],
        [])
  }

  /** The `XmlFile` property: the cached tree, else the file on disk, else a
      fresh root for the current project; whichever it is becomes the
      cache. */
  function XmlFile(s: Loader, now: string): (r: (Xml, Loader))
    ensures r.1 == s.(file := Some(r.0))
    ensures s.file.Some? ==> r.0 == s.file.value
    ensures s.file.None? && s.disk.metaDataFile.Some? ==> r.0 == s.disk.metaDataFile.value
    ensures s.file.None? && s.disk.metaDataFile.None? ==>
      NodeName(r.0) == Text(s.projectName) && r.0.children == []
    ensures Valid(s) ==> Valid(r.1)
  {
    var root :=
      if s.file.Some? then s.file.value
      else if s.disk.metaDataFile.Some? then s.disk.metaDataFile.value
      else FreshRoot(s.projectName, now);
    (root, s.(file := Some(root)))
  }

  // ---------------------------------------------------------------------
  // Readiness and lookups.

  /** `OnLoadContentMetaData`: the index is cleared and rebuilt from the
      whole tree; only a walk without exception marks the content ready.
      Entries added before an exception stay in the index. */
  function OnLoadContentMetaData(codec: Codec, s: Loader, now: string): (r: Step)
    ensures var (root, cached) := XmlFile(s, now);
      var walk := ParseXmlNode(codec, root, true, []);
      && r.state == cached.(index := walk.index, isContentReady := r.state.isContentReady)
      && r.sent == [] && !r.contentChanged
      && (r.error.None? <==> walk.error.None?)
      && (r.error.Some? ==> r.error == Some(ParseFailed(walk.error.value)))
      && r.state.isContentReady == (s.isContentReady || walk.error.None?)
    ensures Valid(s) ==> Valid(r.state)
    ensures DistinctKeys(r.state.index)
  {
    var (root, cached) := XmlFile(s, now);
    var walk := ParseXmlNode(codec, root, true, []);
    if walk.error.Some? then Step(cached.(index := walk.index), [], false, Some(ParseFailed(walk.error.value)))
    else Step(cached.(index := walk.index, isContentReady := true), [], false, None)
  }

  /** `HasValidContentAndMakeSureItIsLoaded`: ready content answers at
      once; otherwise readiness is whether the metadata file exists, and an
      existing file is indexed on top of the current index. The flag is set
      before the walk, so a walk that throws still leaves the content ready.
      The answer is the flag. */
  function HasValidContentAndMakeSureItIsLoaded(codec: Codec, s: Loader, now: string): (r: Step)
    ensures r.sent == [] && !r.contentChanged
    ensures s.isContentReady ==> r == Step(s, [], false, None)
    ensures !s.isContentReady && s.disk.metaDataFile.None? ==> r == Step(s, [], false, None)
    ensures !s.isContentReady && s.disk.metaDataFile.Some? ==>
      var (root, cached) := XmlFile(s, now);
      var walk := ParseXmlNode(codec, root, true, s.index);
      && r.state == cached.(index := walk.index, isContentReady := true)
      && r.error == if walk.error.Some? then Some(ParseFailed(walk.error.value)) else None
    ensures r.state.isContentReady <==> s.isContentReady || s.disk.metaDataFile.Some?
    ensures Valid(s) ==> Valid(r.state)
    ensures DistinctKeys(s.index) ==> DistinctKeys(r.state.index)
  {
    if s.isContentReady then Step(s, [], false, None)
    else if s.disk.metaDataFile.None? then Step(s, [], false, None)
    else
      var (root, cached) := XmlFile(s.(isContentReady := true), now);
      var walk := ParseXmlNode(codec, root, true, s.index);
      var error := if walk.error.Some? then Some(ParseFailed(walk.error.value)) else None;
      Step(cached.(index := walk.index), [], false, error)
  }

  /** `GetMetaData`: `ContentNotReady` before the content is ready, then
      the entry indexed under the name in any letter case, or `null`. */
  function GetMetaData(s: Loader, contentName: string): (r: Result<Option<ContentMetaData>, LoaderError>)
    ensures r.Failure? <==> !s.isContentReady
    ensures r.Failure? ==> r.error == ContentNotReady
    ensures r.Success? ==> (r.value.Some? <==> ContainsKey(s.index, contentName))
    ensures r.Success? && r.value.Some? ==>
      exists i :: 0 <= i < |s.index| && SameKey(s.index[i].key, contentName) && s.index[i].data == r.value.value
  {
    if !s.isContentReady then Failure(ContentNotReady)
    else
      var found := Lookup(s.index, contentName);
      assert found.Some? ==> exists i :: 0 <= i < |s.index| && SameKey(s.index[i].key, contentName) && s.index[i].data == found.value by {
        if found.Some? {
          LookupFinds(s.index, contentName);
        }
      }
      Success(found)
  }

  lemma {:induction false} LookupFinds(index: seq<Entry>, name: string)
    requires Lookup(index, name).Some?
    ensures exists i :: 0 <= i < |index| && SameKey(index[i].key, name) && index[i].data == Lookup(index, name).value
  {
    if !SameKey(index[0].key, name) {
      LookupFinds(index[1..], name);
      var i :| 0 <= i < |index[1..]| && SameKey(index[1..][i].key, name) && index[1..][i].data == Lookup(index[1..], name).value;
      assert index[i + 1] == index[1..][i];
    }
  }

  /** After a successful reload, a lookup gives the first node of the
      tree, below the root and in document order, whose name is the same
      key. */
  lemma ReloadIndexesFirstNamed(codec: Codec, s: Loader, now: string, contentName: string)
    requires OnLoadContentMetaData(codec, s, now).error.None?
    ensures var root := XmlFile(s, now).0;
      GetMetaData(OnLoadContentMetaData(codec, s, now).state, contentName)
        == Success(FirstNamed(codec, PreOrder(root)[1..], contentName))
  {
    var root := XmlFile(s, now).0;
    FirstWins(codec, PreOrder(root)[1..], [], contentName);
  }

  // ---------------------------------------------------------------------
  // Messages from the content service.

  /** `OnDataReceived`: a `SetProject` that is not ignored switches
      project; otherwise `UpdateContent` and `DeleteContent` are applied; any
      other message, and an ignored `SetProject`, changes nothing. */
  function OnDataReceived(codec: Codec, host: Host, s: Loader, message: Message): (r: Step)
    ensures message.SetProject? && !s.isIgnoringSetProject ==>
      r == VerifyProjectAndGetContent(host, s, message.projectName, message.permissions)
    ensures message.UpdateContent? ==> r == UpdateLocalContent(codec, host, s, message.metaData, message.files)
    ensures message.DeleteContent? ==> r == DeleteLocalContent(host, s, message.contentName)
    ensures !message.UpdateContent? && !message.DeleteContent? && !(message.SetProject? && !s.isIgnoringSetProject) ==>
      r == Step(s, [], false, None)
  {
    match message
    case SetProject(projectName, permissions) =>
      if !s.isIgnoringSetProject then VerifyProjectAndGetContent(host, s, projectName, permissions)
      else Step(s, [], false, None)
    case UpdateContent(metaData, files) => UpdateLocalContent(codec, host, s, metaData, files)
    case DeleteContent(contentName) => DeleteLocalContent(host, s, contentName)
    case _ => Step(s, [], false, None)
  }

  /** `RemoveContentDirectoryIfFromOtherProject` after the cache has been
      read: a tree of another project is dropped, with the whole content
      directory. */
  function RemoveContentDirectoryIfFromOtherProject(s: Loader, root: Xml, projectName: string): (r: Loader)
    ensures NodeName(root) == projectName ==> r == s
    ensures NodeName(root) != projectName ==>
      && r.file.None? && r.disk.metaDataFile.None? && r.disk.files == map[] && !r.disk.directoryExists
      && r.index == s.index && r.isContentReady == s.isContentReady && r.projectName == s.projectName
  {
    if NodeName(root) == projectName then s
    else s.(file := None, disk := Disk(false, None, map[]))
  }

  /** `GetCurrentContentMetaData`: the text of the metadata file when there
      is one, else that of the cached or fresh tree. */
  function GetCurrentContentMetaData(host: Host, s: Loader): (r: (string, Loader))
    ensures s.disk.metaDataFile.Some? ==> r == (host.toXmlString(s.disk.metaDataFile.value), s)
    ensures s.disk.metaDataFile.None? ==> r.1 == XmlFile(s, host.now).1 && r.0 == host.toXmlString(XmlFile(s, host.now).0)
  {
    if s.disk.metaDataFile.Some? then (host.toXmlString(s.disk.metaDataFile.value), s)
    else
      var (root, cached) := XmlFile(s, host.now);
      (host.toXmlString(root), cached)
  }

  /** `VerifyProjectAndGetContent`: without permissions it throws before
      anything changes; otherwise the project is switched, content of
      another project is removed, and the service is asked to check the
      current metadata. */
  function VerifyProjectAndGetContent(host: Host, s: Loader, projectName: string, permissions: ProjectPermissions)
    : (r: Step)
    ensures permissions.NoPermissions? <==> r.error.Some?
    ensures permissions.NoPermissions? ==> r == Step(s, [], false, Some(NoPermissionToUseProject(projectName)))
    ensures !permissions.NoPermissions? ==>
      && r.state.projectName == Some(projectName)
      && |r.sent| == 1 && r.sent[0].CheckProjectContent?
      && !r.contentChanged
      && r.state.index == s.index && r.state.isContentReady == s.isContentReady
    ensures Valid(s) ==> Valid(r.state)
  {
    if permissions.NoPermissions? then Step(s, [], false, Some(NoPermissionToUseProject(projectName)))
    else
      var switched := s.(projectName := Some(projectName));
      var (root, cached) := XmlFile(switched, host.now);
      var kept := RemoveContentDirectoryIfFromOtherProject(cached, root, projectName);
      var (text, current) := GetCurrentContentMetaData(host, kept);
      Step(current, [CheckProjectContent(text)], false, None)
  }

  /** After a permitted `SetProject`, the metadata the service is asked to
      check is that of the cached tree, and the tree belongs to the new
      project: content of another project never reaches the check. */
  lemma SetProjectChecksOwnProject(host: Host, s: Loader, projectName: string, permissions: ProjectPermissions)
    requires Valid(s)
    requires !permissions.NoPermissions?
    ensures var r := VerifyProjectAndGetContent(host, s, projectName, permissions);
      && r.state.file.Some?
      && NodeName(r.state.file.value) == projectName
      && r.sent == [CheckProjectContent(host.toXmlString(r.state.file.value))]
  {
  }

  /** The position of the last file of the message with the given name. */
  function LastFileNamed(contentFiles: seq<ContentFile>, name: string): (r: Option<nat>)
    ensures r.Some? ==> r.value < |contentFiles| && contentFiles[r.value].name == Some(name)
    ensures r.Some? ==> forall j :: r.value < j < |contentFiles| ==> contentFiles[j].name != Some(name)
    ensures r.None? ==> forall j :: 0 <= j < |contentFiles| ==> contentFiles[j].name != Some(name)
    decreases |contentFiles|
  {
    if |contentFiles| == 0 then None
    else if contentFiles[|contentFiles| - 1].name == Some(name) then Some(|contentFiles| - 1)
    else LastFileNamed(contentFiles[..|contentFiles| - 1], name)
  }

  /** The files of a message are written under their names, in order;
      nameless files are skipped. */
  function WriteFiles(files: map<string, seq<Byte>>, contentFiles: seq<ContentFile>): map<string, seq<Byte>>
    decreases |contentFiles|
  {
    if |contentFiles| == 0 then files
    else
      var last := contentFiles[|contentFiles| - 1];
      var before := WriteFiles(files, contentFiles[..|contentFiles| - 1]);
      if last.name.Some? then before[last.name.value := last.data] else before
  }

  /** After the writes, a name holds the data of the last file of the
      message with that name, or else what it held before; no other name
      appears. */
  lemma {:induction false} WriteFilesLastWins(files: map<string, seq<Byte>>, contentFiles: seq<ContentFile>, name: string)
    ensures var r := WriteFiles(files, contentFiles);
      && (name in r <==> name in files || LastFileNamed(contentFiles, name).Some?)
      && (LastFileNamed(contentFiles, name).Some? ==>
            name in r && r[name] == contentFiles[LastFileNamed(contentFiles, name).value].data)
      && (LastFileNamed(contentFiles, name).None? && name in files ==> name in r && r[name] == files[name])
    decreases |contentFiles|
  {
    if |contentFiles| > 0 {
      var init := contentFiles[..|contentFiles| - 1];
      WriteFilesLastWins(files, init, name);
      if contentFiles[|contentFiles| - 1].name != Some(name) && LastFileNamed(init, name).Some? {
        assert init[LastFileNamed(init, name).value] == contentFiles[LastFileNamed(init, name).value];
      }
    }
  }

  /** `UpdateLocalContent`: the directory is created, the entry replaces
      the first child with its name and is saved, the files are written, and
      `ContentChanged` is raised. The index is not touched: lookups see the
      entry only after the next `OnLoadContentMetaData`. */
  function UpdateLocalContent(codec: Codec, host: Host, s: Loader, entry: ContentMetaData, files: seq<ContentFile>)
    : (r: Step)
    ensures r.error.None? && r.sent == [] && r.contentChanged
    ensures r.state.disk.directoryExists
    ensures var root := XmlFile(s, host.now).0;
      && r.state.file == Some(UpdateContentMetaDataFile(codec, root, entry))
      && r.state.disk.metaDataFile == r.state.file
    ensures r.state.disk.files == WriteFiles(s.disk.files, files)
    ensures r.state.index == s.index && r.state.isContentReady == s.isContentReady
    ensures r.state.projectName == s.projectName
    ensures Valid(s) ==> Valid(r.state)
  {
    var (root, cached) := XmlFile(s.(disk := s.disk.(directoryExists := true)), host.now);
    var updated := UpdateContentMetaDataFile(codec, root, entry);
    Step(cached.(file := Some(updated), disk := Disk(true, Some(updated), WriteFiles(s.disk.files, files))),
         [], true, None)
  }

  /** `File.Delete` of each path. */
  function RemoveFiles(files: map<string, seq<Byte>>, paths: seq<string>): (r: map<string, seq<Byte>>)
    ensures forall n :: n in r <==> n in files && n !in paths
    ensures forall n :: n in r ==> r[n] == files[n]
  {
    map n | n in files && n !in paths :: files[n]
  }

  /** `DeleteLocalContent`: the last child with the name is removed with
      its files, the tree is saved and `ContentChanged` is raised; without
      such a child only the cache is filled. */
  function DeleteLocalContent(host: Host, s: Loader, contentName: string): (r: Step)
    ensures r.error.None? && r.sent == []
    ensures var (root, cached) := XmlFile(s, host.now);
      var d := MetaDataTree.DeleteLocalContent(root, contentName);
      && r.contentChanged == d.removed
      && (!d.removed ==> r.state == cached)
      && (d.removed ==>
            && r.state.file == Some(d.root) && r.state.disk.metaDataFile == Some(d.root)
            && r.state.disk.files == RemoveFiles(s.disk.files, d.deletedFiles)
            && r.state.disk.directoryExists == s.disk.directoryExists)
    ensures r.state.index == s.index && r.state.isContentReady == s.isContentReady
    ensures Valid(s) ==> Valid(r.state)
  {
    var (root, cached) := XmlFile(s, host.now);
    var d := MetaDataTree.DeleteLocalContent(root, contentName);
    if !d.removed then Step(cached, [], false, None)
    else
      var disk := s.disk.(metaDataFile := Some(d.root), files := RemoveFiles(s.disk.files, d.deletedFiles));
      Step(cached.(file := Some(d.root), disk := disk), [], true, None)
  }

  // ---------------------------------------------------------------------
  // Properties over several calls.

  /** Storing an entry and then reloading the metadata makes it visible to
      `GetMetaData`, when the entry reads back unchanged, the tree was
      readable, and no node of it had the entry's name in any letter case. */
  lemma UpdateThenReload(codec: Codec, host: Host, s: Loader, entry: ContentMetaData, files: seq<ContentFile>)
    requires Storable(codec, entry)
    requires ParseXmlNode(codec, XmlFile(s, host.now).0, true, []).error.None?
    requires forall n :: n in PreOrderAll(XmlFile(s, host.now).0.children) ==> !SameKey(NodeName(n), entry.name.value)
    ensures var updated := UpdateLocalContent(codec, host, s, entry, files).state;
      var reloaded := OnLoadContentMetaData(codec, updated, host.now);
      && reloaded.error.None?
      && GetMetaData(reloaded.state, entry.name.value) == Success(Some(entry))
  {
    UpdateReadsBack(codec, XmlFile(s, host.now).0, entry);
  }

  /** Storing an entry whose name no child of the tree has and then
      deleting that name gives back the tree, both cached and on disk, and
      raises `ContentChanged` both times. */
  lemma UpdateThenDelete(codec: Codec, host: Host, s: Loader, entry: ContentMetaData, files: seq<ContentFile>)
    requires entry.name.Some?
    requires forall j :: 0 <= j < |XmlFile(s, host.now).0.children| ==>
      NodeName(XmlFile(s, host.now).0.children[j]) != entry.name.value
    ensures var u := UpdateLocalContent(codec, host, s, entry, files);
      var d := DeleteLocalContent(host, u.state, entry.name.value);
      && u.contentChanged && d.contentChanged
      && d.state.file == Some(XmlFile(s, host.now).0)
      && d.state.disk.metaDataFile == Some(XmlFile(s, host.now).0)
  {
    MetaDataTree.UpdateThenDelete(codec, XmlFile(s, host.now).0, entry);
  }

  /** The callbacks that reach the loader: the connection's
      `loadContentMetaData`, the startup check, and `DataReceived`. */
  datatype Event = LoadMetaData | CheckContent | Received(message: Message)

  function Handle(codec: Codec, host: Host, s: Loader, e: Event): (r: Step)
    ensures s.isContentReady ==> r.state.isContentReady
    ensures Valid(s) ==> Valid(r.state)
  {
    match e
    case LoadMetaData => OnLoadContentMetaData(codec, s, host.now)
    case CheckContent => HasValidContentAndMakeSureItIsLoaded(codec, s, host.now)
    case Received(message) => OnDataReceived(codec, host, s, message)
  }

  /** The loader after a sequence of callbacks; a callback that throws ends
      itself, not the loader, which keeps the state reached at the throw. */
  function HandleAll(codec: Codec, host: Host, s: Loader, events: seq<Event>): Loader
    decreases |events|
  {
    if |events| == 0 then s else HandleAll(codec, host, Handle(codec, host, s, events[0]).state, events[1..])
  }

  /** Readiness is a latch: once the content is ready it stays ready through
      any callbacks, so `GetMetaData` never throws `ContentNotReady` again,
      and every callback keeps the loader's disk and cache consistent. */
  lemma {:induction false} ReadyIsLatched(codec: Codec, host: Host, s: Loader, events: seq<Event>)
    ensures s.isContentReady ==> HandleAll(codec, host, s, events).isContentReady
    ensures Valid(s) ==> Valid(HandleAll(codec, host, s, events))
    ensures s.isContentReady ==> forall name :: GetMetaData(HandleAll(codec, host, s, events), name).Success?
    decreases |events|
  {
    if |events| > 0 {
      ReadyIsLatched(codec, host, Handle(codec, host, s, events[0]).state, events[1..]);
    }
  }
}

=== FILE: frame_encoding.dfy ===
/** The sending side of the wire format, as a reference for the reassembler:
    a payload shorter than 255 bytes gets the one-byte header holding its
    length, a longer one gets the sentinel 255 followed by its length as a
    little-endian 4-byte `int`. The writer itself (`WriteNumberMostlyBelow255`
    and the object codec) is not part of this model; this module states the
    format that `DataCollector` reads. */
module FrameEncoding {
  import opened Numbers
  import DataCollector

  /** A payload the format can carry: at most 128 MiB. */
  predicate Sendable(p: seq<Byte>) {
    |p| <= DataCollector.MaxMessageLength
  }

  predicate AllSendable(ps: seq<seq<Byte>>) {
    forall i :: 0 <= i < |ps| ==> Sendable(ps[i])
  }

  function EncodeHeader(n: nat): (r: seq<Byte>)
    requires n <= DataCollector.MaxMessageLength
    ensures n < 255 ==> r == [n]
    ensures n >= 255 ==> |r| == 5 && r[0] == 255 && Int32FromLittleEndian(r[1], r[2], r[3], r[4]) == n
  {
    if n < 255 then [n] else [255 as Byte] + Int32ToLittleEndian(n)
  }

  function EncodeFrame(p: seq<Byte>): (r: seq<Byte>)
    requires Sendable(p)
  {
    EncodeHeader(|p|) + p
  }

  /** The stream carrying `ps` one after another. */
  function EncodeFrames(ps: seq<seq<Byte>>): (r: seq<Byte>)
    requires AllSendable(ps)
  {
    if |ps| == 0 then [] else EncodeFrame(ps[0]) + EncodeFrames(ps[1..])
  }

  /** The concatenation of a list of chunks: the stream they were cut from. */
  function Flatten(chunks: seq<seq<Byte>>): (r: seq<Byte>)
  {
    if |chunks| == 0 then [] else chunks[0] + Flatten(chunks[1..])
  }

  /** The first frame of a non-empty stream, and the rest. */
  lemma EncodeFramesCons(ps: seq<seq<Byte>>)
    requires AllSendable(ps) && |ps| > 0
    ensures Sendable(ps[0]) && AllSendable(ps[1..])
    ensures EncodeFrames(ps) == EncodeFrame(ps[0]) + EncodeFrames(ps[1..])
    ensures [ps[0]] + ps[1..] == ps
  {
    assert forall i :: 0 <= i < |ps[1..]| ==> ps[1..][i] == ps[i + 1];
  }
}

=== FILE: message_data.dfy ===
/** The fill buffer of one incoming message: a byte array of the announced
    length and the number of bytes written into it so far
    (Networking/Tcp/MessageData.cs). */
module MessageData {
  import opened Numbers

  /** `data` is the whole array (`Data`), `readDataLength` the fill position. */
  datatype Container = Container(data: seq<Byte>, readDataLength: nat)

  /** The fill position never passes the end of the array. */
  predicate Valid(c: Container) {
    c.readDataLength <= |c.data|
  }

  /** `new MessageData(n)`: an all-zero array of length `n`, nothing read yet.
      A negative length makes the array allocation throw, so the caller must
      rule it out. */
  function New(dataLength: nat): (c: Container)
    ensures Valid(c)
    ensures |c.data| == dataLength && c.readDataLength == 0
    ensures forall i :: 0 <= i < dataLength ==> c.data[i] == 0
  {
    Container(seq(dataLength, _ => 0), 0)
  }

  /** How many bytes are still needed before the message is complete. */
  function MissingByteCount(c: Container): (r: nat)
    requires Valid(c)
    ensures c.readDataLength + r == |c.data|
  {
    |c.data| - c.readDataLength
  }

  /** The fill position has reached the end of the array. */
  predicate IsDataComplete(c: Container) {
    c.readDataLength == |c.data|
  }

  /** A container is complete exactly when no byte is missing; in particular a
      zero-length container is complete as soon as it is created. */
  lemma CompleteIffNothingMissing(c: Container)
    requires Valid(c)
    ensures IsDataComplete(c) <==> MissingByteCount(c) == 0
    ensures |c.data| == 0 ==> IsDataComplete(c)
  {
  }

  function Min(a: nat, b: nat): nat {
    if a < b then a else b
  }

  /** `ReadData`: dequeue `min(MissingByteCount, |queue|)` bytes from the front
      of the queue and write them at the fill position, in order. Bytes
      already written and bytes not yet reached are left alone, and the rest
      of the queue is returned untouched. */
  function ReadData(c: Container, queue: seq<Byte>): (r: (Container, seq<Byte>))
    requires Valid(c)
    ensures var k := Min(MissingByteCount(c), |queue|);
      && Valid(r.0)
      && |r.0.data| == |c.data|
      && r.0.readDataLength == c.readDataLength + k
      && r.0.data[..c.readDataLength + k] == c.data[..c.readDataLength] + queue[..k]
      && r.0.data[c.readDataLength + k..] == c.data[c.readDataLength + k..]
      && r.1 == queue[k..]
    ensures IsDataComplete(r.0) <==> |queue| >= MissingByteCount(c)
    ensures !IsDataComplete(r.0) ==> r.1 == []
  {
    var n := c.readDataLength;
    var k := Min(MissingByteCount(c), |queue|);
    var data := c.data[..n] + queue[..k] + c.data[n + k..];
    assert data[..n + k] == c.data[..n] + queue[..k];
    assert data[n + k..] == c.data[n + k..];
    (Container(data, n + k), queue[k..])
  }

  /** Bytes already written are never overwritten by a later `ReadData`. */
  lemma ReadDataKeepsWrittenBytes(c: Container, queue: seq<Byte>, i: nat)
    requires Valid(c) && i < c.readDataLength
    ensures ReadData(c, queue).0.data[i] == c.data[i]
  {
    var r := ReadData(c, queue);
    var k := Min(MissingByteCount(c), |queue|);
    assert r.0.data[..c.readDataLength + k][i] == c.data[..c.readDataLength][i];
  }

  /** A fill that completes the container leaves in it exactly the bytes
      written before, followed by the missing ones taken from the queue. */
  lemma ReadDataCompletes(c: Container, queue: seq<Byte>)
    requires Valid(c) && |queue| >= MissingByteCount(c)
    ensures ReadData(c, queue).0.data == c.data[..c.readDataLength] + queue[..MissingByteCount(c)]
  {
    var r := ReadData(c, queue);
    assert r.0.data == r.0.data[..|c.data|];
  }

  /** Filling from `a` and then from `b` is the same as filling once from
      `a + b`, provided the first fill used up all of `a`. */
  lemma ReadDataSplit(c: Container, a: seq<Byte>, b: seq<Byte>)
    requires Valid(c)
    requires ReadData(c, a).1 == []
    ensures ReadData(ReadData(c, a).0, b) == ReadData(c, a + b)
  {
    var r2 := ReadData(ReadData(c, a).0, b);
    var r := ReadData(c, a + b);
    var m := c.readDataLength + |a| + Min(MissingByteCount(c) - |a|, |b|);
    SplitPrefix(c, a, b);
    SplitSuffix(c, a, b);
    assert r2.0.data == r2.0.data[..m] + r2.0.data[m..];
    assert r.0.data == r.0.data[..m] + r.0.data[m..];
  }

  /** The written part of the two fills of `ReadDataSplit` agree. */
  lemma SplitPrefix(c: Container, a: seq<Byte>, b: seq<Byte>)
    requires Valid(c)
    requires ReadData(c, a).1 == []
    ensures |a| <= MissingByteCount(c)
    ensures var m := c.readDataLength + |a| + Min(MissingByteCount(c) - |a|, |b|);
      && ReadData(c, a + b).0.readDataLength == m
      && ReadData(ReadData(c, a).0, b).0.readDataLength == m
      && ReadData(ReadData(c, a).0, b).0.data[..m] == ReadData(c, a + b).0.data[..m]
      && ReadData(ReadData(c, a).0, b).1 == ReadData(c, a + b).1
  {
    var r1 := ReadData(c, a);
    var r2 := ReadData(r1.0, b);
    var r := ReadData(c, a + b);
    var n := c.readDataLength;
    var k1 := |a|;
    var k2 := Min(MissingByteCount(r1.0), |b|);
    var k := k1 + k2;
    assert (a + b)[..k] == a + b[..k2];
    assert r2.0.data[..n + k] == r1.0.data[..n + k1] + b[..k2];
    assert r1.0.data[..n + k1] == c.data[..n] + a;
    assert (a + b)[k..] == b[k2..];
  }

  /** The untouched tails of the two fills of `ReadDataSplit` agree. */
  lemma SplitSuffix(c: Container, a: seq<Byte>, b: seq<Byte>)
    requires Valid(c)
    requires ReadData(c, a).1 == []
    ensures |a| <= MissingByteCount(c)
    ensures var m := c.readDataLength + |a| + Min(MissingByteCount(c) - |a|, |b|);
      && m <= |c.data|
      && |ReadData(ReadData(c, a).0, b).0.data| == |c.data| == |ReadData(c, a + b).0.data|
      && ReadData(ReadData(c, a).0, b).0.data[m..] == ReadData(c, a + b).0.data[m..]
  {
    var r1 := ReadData(c, a);
    var r2 := ReadData(r1.0, b);
    var n := c.readDataLength;
    var k1 := |a|;
    var m := n + k1 + Min(MissingByteCount(c) - k1, |b|);
    ReadDataTail(r1.0, b, m);
    ReadDataTail(c, a, m);
    ReadDataTail(c, a + b, m);
  }

  /** A fill leaves every byte from the end of what it wrote on as it was. */
  lemma ReadDataTail(c: Container, queue: seq<Byte>, j: nat)
    requires Valid(c)
    requires c.readDataLength + Min(MissingByteCount(c), |queue|) <= j <= |c.data|
    ensures |ReadData(c, queue).0.data| == |c.data|
    ensures ReadData(c, queue).0.data[j..] == c.data[j..]
  {
    var r := ReadData(c, queue);
    var e := c.readDataLength + Min(MissingByteCount(c), |queue|);
    DropDrop(r.0.data, e, j - e);
    DropDrop(c.data, e, j - e);
  }

  lemma DropDrop(s: seq<Byte>, i: nat, j: nat)
    requires i + j <= |s|
    ensures s[i..][j..] == s[i + j..]
  {
  }

  /** Filling a fresh container from a queue holding at least its length
      yields exactly the first `n` queued bytes, and leaves the rest queued. */
  lemma FillFreshContainer(n: nat, queue: seq<Byte>)
    requires |queue| >= n
    ensures IsDataComplete(ReadData(New(n), queue).0)
    ensures ReadData(New(n), queue).0.data == queue[..n]
    ensures ReadData(New(n), queue).1 == queue[n..]
  {
    var r := ReadData(New(n), queue);
    assert r.0.data == r.0.data[..n];
  }
}

=== FILE: messages.dfy ===
/** The messages exchanged with the online content service. Their classes
    live in `DeltaEngine.Networking.Messages`, which is not part of this
    model; each is represented by the fields the code reads. A message type
    the dispatchers do not know is `OtherMessage`, carrying its type name. */
module Messages {
  import opened Wrappers
  import opened Numbers
  import opened ContentMetaDataModel

  /** `ProjectPermissions`: only `None` is distinguished by the code. */
  datatype ProjectPermissions = NoPermissions | Permissions(level: string)

  /** One file of an `UpdateContent`; a file without a name is skipped. */
  datatype ContentFile = ContentFile(name: Option<string>, data: seq<Byte>)

  datatype Message =
    | ServerError(error: string)
    | UnknownMessage(text: string)
    | LoginSuccessful(userName: string)
    | ContentReady
      /** A `null` API key is `None`. */
    | LoginRequest(apiKey: Option<string>, projectName: string)
    | LogInfoMessage(text: string)
    | SetProject(projectName: string, permissions: ProjectPermissions)
    | UpdateContent(metaData: ContentMetaData, files: seq<ContentFile>)
    | DeleteContent(contentName: string)
    | CheckProjectContent(metaDataXml: string)
    | OtherMessage(typeName: string)
}

=== FILE: metadata_tree.dfy ===
/** The in-memory index of the metadata file and the edits the developer
    content loader makes to the file's tree
    (Content/Online/DeveloperOnlineContentLoader.cs): `ParseXmlNode`,
    `RemoveExistingEntry`/`UpdateContentMetaDataFile`, the search of
    `DeleteLocalContent` and `DeleteFiles`.

    The index is a `Dictionary` with `StringComparer.OrdinalIgnoreCase`; it
    is only ever added to, so it is kept as the list of its entries in the
    order they were added. Case folding is modelled on ASCII letters. */
module MetaDataTree {
  import opened Wrappers
  import opened ContentMetaDataModel
  import opened MetaDataXml

  // ---------------------------------------------------------------------
  // Case-insensitive keys.

  function Upper(c: char): char {
    if 'a' <= c <= 'z' then (c as int - 32) as char else c
  }

  function Fold(s: string): (r: string)
    ensures |r| == |s|
    ensures forall i :: 0 <= i < |s| ==> r[i] == Upper(s[i])
  {
    seq(|s|, i requires 0 <= i < |s| => Upper(s[i]))
  }

  /** The comparer's notion of equal keys. */
  predicate SameKey(a: string, b: string) {
    Fold(a) == Fold(b)
  }

  datatype Entry = Entry(key: string, data: ContentMetaData)

  /** `ContainsKey` under the comparer. */
  predicate ContainsKey(index: seq<Entry>, name: string) {
    exists i :: 0 <= i < |index| && SameKey(index[i].key, name)
  }

  /** The comparer never sees two equal keys in the index. */
  predicate DistinctKeys(index: seq<Entry>) {
    forall i, j :: 0 <= i < j < |index| ==> !SameKey(index[i].key, index[j].key)
  }

  /** The indexer: the entry whose key equals the name under the comparer. */
  function Lookup(index: seq<Entry>, name: string): (r: Option<ContentMetaData>)
    ensures r.Some? <==> ContainsKey(index, name)
  {
    if |index| == 0 then None
    else if SameKey(index[0].key, name) then Some(index[0].data)
    else
      var r := Lookup(index[1..], name);
      assert forall i :: 1 <= i < |index| ==> index[i] == index[1..][i - 1];
      r
  }

  function NodeName(node: Xml): string {
    GetAttributeValue(node.attributes, NameKey)
  }

  // ---------------------------------------------------------------------
  // Building the index.

  /** The index built so far, and the exception that stopped the walk. The
      entries added before an exception stay in the index. */
  datatype Walk = Walk(index: seq<Entry>, error: Option<ParseError>)

  /** The visit of one node: its attributes are parsed (which may throw),
      and it is added under its first `Name` unless it is the root or its
      key is already present. */
  function Visit(codec: Codec, node: Xml, isRoot: bool, index: seq<Entry>): (r: Walk)
    ensures r.error.None? ==> |index| <= |r.index| <= |index| + 1 && r.index[..|index|] == index
    ensures r.error.Some? ==> r.index == index
    ensures DistinctKeys(index) ==> DistinctKeys(r.index)
  {
    match ParseContentMetaData(codec, node.attributes)
    case Failure(e) => Walk(index, Some(e))
    case Success(data) =>
      var name := NodeName(node);
      if !ContainsKey(index, name) && !isRoot then
        var r := index + [Entry(name, data)];
        assert r[..|index|] == index;
        Walk(r, None)
      else Walk(index, None)
  }

  /** `ParseXmlNode`: the node, then each child's subtree in order. Below
      the root this is the visit of the subtree's nodes in pre-order; the
      root is parsed, and so can throw, but is not indexed. */
  function ParseXmlNode(codec: Codec, node: Xml, isRoot: bool, index: seq<Entry>): (r: Walk)
    ensures DistinctKeys(index) ==> DistinctKeys(r.index)
    ensures !isRoot ==> r == VisitAll(codec, PreOrder(node), index)
    ensures isRoot ==>
      r == if ParseContentMetaData(codec, node.attributes).Failure?
           then Walk(index, Some(ParseContentMetaData(codec, node.attributes).error))
           else VisitAll(codec, PreOrder(node)[1..], index)
    decreases node, 1
  {
    var v := Visit(codec, node, isRoot, index);
    assert PreOrder(node)[1..] == PreOrderAll(node.children);
    if v.error.Some? then v else ParseChildren(codec, node.children, v.index)
  }

  /** The children's subtrees in order: their nodes visited in pre-order. */
  function ParseChildren(codec: Codec, children: seq<Xml>, index: seq<Entry>): (r: Walk)
    ensures DistinctKeys(index) ==> DistinctKeys(r.index)
    ensures r == VisitAll(codec, PreOrderAll(children), index)
    decreases children, 0
  {
    if |children| == 0 then Walk(index, None)
    else
      var r := ParseXmlNode(codec, children[0], false, index);
      VisitAllAppend(codec, PreOrder(children[0]), PreOrderAll(children[1..]), index);
      if r.error.Some? then r else ParseChildren(codec, children[1..], r.index)
  }

  // ---------------------------------------------------------------------
  // The walk as a list.

  /** The nodes of a tree in pre-order: the node, then each child's
      subtree in order. */
  function PreOrder(node: Xml): (r: seq<Xml>)
    ensures |r| > 0 && r[0] == node
    decreases node, 1
  {
    [node] + PreOrderAll(node.children)
  }

  function PreOrderAll(children: seq<Xml>): seq<Xml>
    decreases children, 0
  {
    if |children| == 0 then [] else PreOrder(children[0]) + PreOrderAll(children[1..])
  }

  /** Visiting a list of non-root nodes in order, stopping at the first
      exception. */
  function VisitAll(codec: Codec, nodes: seq<Xml>, index: seq<Entry>): Walk
    decreases |nodes|
  {
    if |nodes| == 0 then Walk(index, None)
    else
      var v := Visit(codec, nodes[0], false, index);
      if v.error.Some? then v else VisitAll(codec, nodes[1..], v.index)
  }

  lemma {:induction false} VisitAllAppend(codec: Codec, a: seq<Xml>, b: seq<Xml>, index: seq<Entry>)
    ensures VisitAll(codec, a + b, index)
         == var r := VisitAll(codec, a, index);
            if r.error.Some? then r else VisitAll(codec, b, r.index)
    decreases |a|
  {
    if |a| == 0 {
      assert a + b == b;
    } else {
      assert (a + b)[1..] == a[1..] + b;
      var v := Visit(codec, a[0], false, index);
      if v.error.None? {
        VisitAllAppend(codec, a[1..], b, v.index);
      }
    }
  }

  // ---------------------------------------------------------------------
  // First wins.

  /** The metadata of the first node in the list whose name is the same
      key, when every node parses. */
  function FirstNamed(codec: Codec, nodes: seq<Xml>, name: string): Option<ContentMetaData>
    decreases |nodes|
  {
    if |nodes| == 0 then None
    else if SameKey(NodeName(nodes[0]), name) && ParseContentMetaData(codec, nodes[0].attributes).Success?
    then Some(ParseContentMetaData(codec, nodes[0].attributes).value)
    else FirstNamed(codec, nodes[1..], name)
  }

  /** When the walk completes, looking a name up gives what the index held
      before, or else the first node visited with that key: later nodes
      with the same key, in any letter case, are ignored. */
  lemma {:induction false} FirstWins(codec: Codec, nodes: seq<Xml>, index: seq<Entry>, name: string)
    requires VisitAll(codec, nodes, index).error.None?
    ensures Lookup(VisitAll(codec, nodes, index).index, name)
         == if ContainsKey(index, name) then Lookup(index, name) else FirstNamed(codec, nodes, name)
    decreases |nodes|
  {
    if |nodes| > 0 {
      var v := Visit(codec, nodes[0], false, index);
      FirstWins(codec, nodes[1..], v.index, name);
      if v.index != index {
        var data := ParseContentMetaData(codec, nodes[0].attributes).value;
        LookupAppend(index, Entry(NodeName(nodes[0]), data), name);
        if ContainsKey(index, name) {
          assert ContainsKey(v.index, name);
        }
      }
    }
  }

  lemma {:induction false} LookupAppend(index: seq<Entry>, e: Entry, name: string)
    ensures Lookup(index + [e], name)
         == if ContainsKey(index, name) then Lookup(index, name)
            else if SameKey(e.key, name) then Some(e.data) else None
  {
    if |index| == 0 {
      assert index + [e] == [e];
    } else {
      assert (index + [e])[1..] == index[1..] + [e];
      LookupAppend(index[1..], e, name);
      if !SameKey(index[0].key, name) && ContainsKey(index[1..], name) {
        var i :| 0 <= i < |index[1..]| && SameKey(index[1..][i].key, name);
        assert index[i + 1] == index[1..][i];
      }
    }
  }

  // ---------------------------------------------------------------------
  // Editing the file's tree.

  /** The position of the first child whose `Name` is exactly `name`, or
      the number of children. A `null` name matches no child. */
  function FirstChildNamed(children: seq<Xml>, name: Option<string>): (i: nat)
    ensures i <= |children|
    ensures forall j :: 0 <= j < i ==> name.None? || NodeName(children[j]) != name.value
    ensures i < |children| ==> name.Some? && NodeName(children[i]) == name.value
  {
    if |children| == 0 || name.None? then |children|
    else if NodeName(children[0]) == name.value then 0
    else 1 + FirstChildNamed(children[1..], name)
  }

  /** Removes the child at `i`, if there is one. */
  function RemoveAt(children: seq<Xml>, i: nat): (r: seq<Xml>)
    ensures i < |children| ==> |r| == |children| - 1
    ensures i >= |children| ==> r == children
    ensures forall j :: 0 <= j < i && j < |children| ==> r[j] == children[j]
    ensures forall j :: i < j < |children| ==> r[j - 1] == children[j]
  {
    if i < |children| then children[..i] + children[i + 1..] else children
  }

  /** The child `UpdateContentMetaDataFile` appends for an entry. */
  function EntryNode(codec: Codec, entry: ContentMetaData): Xml {
    Xml("ContentMetaData", ParseAttributes(codec, entry), [])
  }

  /** `UpdateContentMetaDataFile` with `RemoveExistingEntry`: the first
      child with the entry's name, if any, is dropped, the others keep their
      order, and the new child goes last. */
  function UpdateContentMetaDataFile(codec: Codec, root: Xml, entry: ContentMetaData): (r: Xml)
    ensures r.tag == root.tag && r.attributes == root.attributes
    ensures var i := FirstChildNamed(root.children, entry.name);
      && |r.children| == |root.children| + (if i < |root.children| then 0 else 1)
      && r.children[|r.children| - 1] == EntryNode(codec, entry)
      && r.children[..|r.children| - 1] == RemoveAt(root.children, i)
  {
    var kept := RemoveAt(root.children, FirstChildNamed(root.children, entry.name));
    var children := kept + [EntryNode(codec, entry)];
    assert children[..|children| - 1] == kept;
    root.(children := children)
  }

  /** The appended child carries the entry's name as its first `Name`. */
  lemma EntryNodeName(codec: Codec, entry: ContentMetaData)
    ensures NodeName(EntryNode(codec, entry)) == Text(entry.name)
  {
    KeyFields();
    assert FirstIndexOf(ParseAttributes(codec, entry), NameKey) == 0;
  }

  /** Updating twice with the same entry is updating once, when at most the
      first child carried its name before. */
  lemma UpdateIdempotent(codec: Codec, root: Xml, entry: ContentMetaData)
    requires entry.name.Some?
    requires forall j :: 0 <= j < |root.children| && j != FirstChildNamed(root.children, entry.name) ==>
      NodeName(root.children[j]) != entry.name.value
    ensures var once := UpdateContentMetaDataFile(codec, root, entry);
      UpdateContentMetaDataFile(codec, once, entry) == once
  {
    var once := UpdateContentMetaDataFile(codec, root, entry);
    var n := |once.children|;
    EntryNodeName(codec, entry);
    var kept := once.children[..n - 1];
    assert forall j :: 0 <= j < n - 1 ==> NodeName(once.children[j]) != entry.name.value by {
      var i := FirstChildNamed(root.children, entry.name);
      forall j | 0 <= j < n - 1 ensures NodeName(once.children[j]) != entry.name.value {
        if j < i {
          assert once.children[j] == kept[j] == root.children[j];
        } else {
          assert once.children[j] == kept[j] == root.children[j + 1];
        }
      }
    }
    assert FirstChildNamed(once.children, entry.name) == n - 1;
    assert once.children[..n - 1] + [once.children[n - 1]] == once.children;
  }

  /** The position of the last child whose `Name` is exactly `name`. */
  function LastChildNamed(children: seq<Xml>, name: string): (r: Option<nat>)
    ensures r.Some? ==> r.value < |children| && NodeName(children[r.value]) == name
    ensures r.Some? ==> forall j :: r.value < j < |children| ==> NodeName(children[j]) != name
    ensures r.None? ==> forall j :: 0 <= j < |children| ==> NodeName(children[j]) != name
    decreases |children|
  {
    if |children| == 0 then None
    else if NodeName(children[|children| - 1]) == name then Some(|children| - 1)
    else LastChildNamed(children[..|children| - 1], name)
  }

  /** What `DeleteLocalContent` did: the new tree, the files it deleted,
      and whether it went on to save and raise `ContentChanged`. */
  datatype Deletion = Deletion(root: Xml, deletedFiles: seq<string>, removed: bool)

  /** `DeleteLocalContent` on the tree: the last child with the name is
      removed together with its files; without one nothing happens. */
  function DeleteLocalContent(root: Xml, contentName: string): (r: Deletion)
    ensures r.root.tag == root.tag && r.root.attributes == root.attributes
    ensures r.removed <==> exists j :: 0 <= j < |root.children| && NodeName(root.children[j]) == contentName
    ensures !r.removed ==> r == Deletion(root, [], false)
    ensures r.removed ==> var k := LastChildNamed(root.children, contentName).value;
      && r.root.children == RemoveAt(root.children, k)
      && r.deletedFiles == DeleteFiles(root.children[k])
  {
    match LastChildNamed(root.children, contentName)
    case None => Deletion(root, [], false)
    case Some(k) => Deletion(root.(children := RemoveAt(root.children, k)), DeleteFiles(root.children[k]), true)
  }

  /** Updating with an entry whose name no child has and then deleting that
      name gives back the tree, and deletes the entry's own file if it has
      one. */
  lemma UpdateThenDelete(codec: Codec, root: Xml, entry: ContentMetaData)
    requires entry.name.Some?
    requires forall j :: 0 <= j < |root.children| ==> NodeName(root.children[j]) != entry.name.value
    ensures var d := DeleteLocalContent(UpdateContentMetaDataFile(codec, root, entry), entry.name.value);
      && d.removed
      && d.root == root
      && d.deletedFiles == DeleteFiles(EntryNode(codec, entry))
  {
    var once := UpdateContentMetaDataFile(codec, root, entry);
    EntryNodeName(codec, entry);
    assert FirstChildNamed(root.children, entry.name) == |root.children|;
    assert once.children == root.children + [EntryNode(codec, entry)];
    assert LastChildNamed(once.children, entry.name.value) == Some(|root.children|);
    assert RemoveAt(once.children, |root.children|) == root.children;
  }

  function LocalPath(node: Xml): string {
    GetAttributeValue(node.attributes, LocalFilePathKey)
  }

  /** `DeleteFiles`: a node with a file path names that file; a node
      without one stands for its children's files. */
  function DeleteFiles(entry: Xml): (r: seq<string>)
    ensures forall p :: p in r ==> p != "" && exists n :: n in PreOrder(entry) && LocalPath(n) == p
    ensures LocalPath(entry) != "" ==> r == [LocalPath(entry)]
    decreases entry, 1
  {
    if LocalPath(entry) == "" then
      var r := DeleteFilesAll(entry.children);
      assert forall n :: n in PreOrderAll(entry.children) ==> n in PreOrder(entry);
      r
    else [LocalPath(entry)]
  }

  function DeleteFilesAll(children: seq<Xml>): (r: seq<string>)
    ensures forall p :: p in r ==> p != "" && exists n :: n in PreOrderAll(children) && LocalPath(n) == p
    decreases children, 0
  {
    if |children| == 0 then []
    else
      var r := DeleteFiles(children[0]) + DeleteFilesAll(children[1..]);
      assert forall n :: n in PreOrder(children[0]) ==> n in PreOrderAll(children);
      assert forall n :: n in PreOrderAll(children[1..]) ==> n in PreOrderAll(children);
      r
  }

  // ---------------------------------------------------------------------
  // Reading back an update.

  /** The entries `ParseAttributes` writes and `ParseContentMetaData` reads
      back unchanged. */
  ghost predicate Storable(codec: Codec, entry: ContentMetaData) {
    && RoundTrips(codec)
    && entry.name.Some? && entry.name.value != ""
    && entry.language.None? && entry.localFilePath != Some("")
    && DistinctNames(entry.values)
    && forall i :: 0 <= i < |entry.values| ==> FieldOf(entry.values[i].name) == Extra
  }

  lemma {:induction false} PreOrderAllAppend(a: seq<Xml>, b: seq<Xml>)
    ensures PreOrderAll(a + b) == PreOrderAll(a) + PreOrderAll(b)
    decreases |a|
  {
    if |a| == 0 {
      assert a + b == b;
    } else {
      assert (a + b)[1..] == a[1..] + b;
      PreOrderAllAppend(a[1..], b);
    }
  }

  lemma {:induction false} ChildInPreOrderAll(children: seq<Xml>, j: nat)
    requires j < |children|
    ensures children[j] in PreOrderAll(children)
    decreases j
  {
    if j == 0 {
      assert PreOrderAll(children)[0] == children[0];
    } else {
      ChildInPreOrderAll(children[1..], j - 1);
    }
  }

  /** Nodes with another key are passed over by `FirstNamed`. */
  lemma {:induction false} FirstNamedSkip(codec: Codec, a: seq<Xml>, b: seq<Xml>, name: string)
    requires forall n :: n in a ==> !SameKey(NodeName(n), name)
    ensures FirstNamed(codec, a + b, name) == FirstNamed(codec, b, name)
    decreases |a|
  {
    if |a| == 0 {
      assert a + b == b;
    } else {
      assert a[0] in a;
      assert (a + b)[1..] == a[1..] + b;
      FirstNamedSkip(codec, a[1..], b, name);
    }
  }

  /** After an update with a storable entry whose name no node of the tree
      carries in any letter case, re-reading the file still succeeds if it
      did before, and looking the name up gives back the entry. */
  lemma UpdateReadsBack(codec: Codec, root: Xml, entry: ContentMetaData)
    requires Storable(codec, entry)
    requires ParseXmlNode(codec, root, true, []).error.None?
    requires forall n :: n in PreOrderAll(root.children) ==> !SameKey(NodeName(n), entry.name.value)
    ensures var walk := ParseXmlNode(codec, UpdateContentMetaDataFile(codec, root, entry), true, []);
      && walk.error.None?
      && Lookup(walk.index, entry.name.value) == Some(entry)
  {
    var name := entry.name.value;
    var e := EntryNode(codec, entry);
    var before := PreOrderAll(root.children);
    UpdatedPreOrder(codec, root, entry);
    EntryVisits(codec, entry, before);
    FirstWins(codec, before + [e], [], name);
  }

  /** The walk of the updated file visits the nodes the old file had below
      its root, then the new entry. */
  lemma UpdatedPreOrder(codec: Codec, root: Xml, entry: ContentMetaData)
    requires entry.name.Some?
    requires ParseXmlNode(codec, root, true, []).error.None?
    requires forall n :: n in PreOrderAll(root.children) ==> !SameKey(NodeName(n), entry.name.value)
    ensures var before := PreOrderAll(root.children);
      && VisitAll(codec, before, []).error.None?
      && ParseXmlNode(codec, UpdateContentMetaDataFile(codec, root, entry), true, [])
         == VisitAll(codec, before + [EntryNode(codec, entry)], [])
  {
    var e := EntryNode(codec, entry);
    var updated := UpdateContentMetaDataFile(codec, root, entry);
    var before := PreOrderAll(root.children);
    UpdateAppends(codec, root, entry);
    PreOrderAllAppend(root.children, [e]);
    assert PreOrderAll([e]) == [e];
    assert PreOrder(root)[1..] == before;
    assert PreOrder(updated)[1..] == before + [e];
  }

  /** After nodes that do not carry its name and whose walk completes, a
      storable entry's node is visited without error and is the first
      node with its name. */
  lemma EntryVisits(codec: Codec, entry: ContentMetaData, before: seq<Xml>)
    requires Storable(codec, entry)
    requires VisitAll(codec, before, []).error.None?
    requires forall n :: n in before ==> !SameKey(NodeName(n), entry.name.value)
    ensures var nodes := before + [EntryNode(codec, entry)];
      && VisitAll(codec, nodes, []).error.None?
      && FirstNamed(codec, nodes, entry.name.value) == Some(entry)
  {
    var e := EntryNode(codec, entry);
    VisitAllAppend(codec, before, [e], []);
    AttributesRoundTrip(codec, entry);
    EntryNodeName(codec, entry);
    FirstNamedSkip(codec, before, [e], entry.name.value);
  }

  /** An entry whose name no node carries is appended as a new last child. */
  lemma UpdateAppends(codec: Codec, root: Xml, entry: ContentMetaData)
    requires entry.name.Some?
    requires forall n :: n in PreOrderAll(root.children) ==> !SameKey(NodeName(n), entry.name.value)
    ensures UpdateContentMetaDataFile(codec, root, entry) == root.(children := root.children + [EntryNode(codec, entry)])
  {
    var i := FirstChildNamed(root.children, entry.name);
    if i < |root.children| {
      ChildInPreOrderAll(root.children, i);
    }
  }
}

=== FILE: metadata_xml.dfy ===
/** The metadata file of the developer content loader as a tree, and the
    conversions between a tree node's attributes and a `ContentMetaData`
    (Content/Online/DeveloperOnlineContentLoader.cs). The `XmlData` class is
    not part of this model: a node is its attributes in order and its
    children in order, and `GetAttributeValue` gives the value of the first
    attribute with the name, or the empty string when there is none. */
module MetaDataXml {
  import opened Wrappers
  import opened ContentMetaDataModel

  datatype Xml = Xml(tag: string, attributes: seq<Attribute>, children: seq<Xml>)

  datatype ParseError =
    | InvalidContentMetaDataNameIsAlwaysNeeded
      /** `Dictionary.Add` of an extra attribute whose name is already a key. */
    | DuplicateValueKey(key: string)

  const NameKey: string := "Name"
  const TypeKey: string := "Type"
  const LastTimeUpdatedKey: string := "LastTimeUpdated"
  const LanguageKey: string := "Language"
  const LocalFilePathKey: string := "LocalFilePath"
  const PlatformFileIdKey: string := "PlatformFileId"
  const FileSizeKey: string := "FileSize"

  /** The position of the first attribute with the name, or the length of
      the list when there is none. */
  function FirstIndexOf(attributes: seq<Attribute>, name: string): (i: nat)
    ensures i <= |attributes|
    ensures forall j :: 0 <= j < i ==> attributes[j].name != name
    ensures i < |attributes| ==> attributes[i].name == name
  {
    if |attributes| == 0 then 0
    else if attributes[0].name == name then 0
    else 1 + FirstIndexOf(attributes[1..], name)
  }

  /** `GetAttributeValue`: the first attribute with that name, else "". */
  function GetAttributeValue(attributes: seq<Attribute>, name: string): (r: string)
    ensures !HasName(attributes, name) ==> r == ""
    ensures HasName(attributes, name) ==>
      var i := FirstIndexOf(attributes, name);
      i < |attributes| && attributes[i] == Attribute(name, r)
  {
    var i := FirstIndexOf(attributes, name);
    if i < |attributes| then attributes[i].value else ""
  }

  // ---------------------------------------------------------------------
  // Attributes to metadata.

  /** The case of the `switch` of `ParseContentMetaData` an attribute name
      selects. `Language` has no case of its own and is an `Extra`. */
  datatype Field = NameField | TypeField | DateField | PathField | IdField | SizeField | Extra

  function FieldOf(name: string): (f: Field)
    ensures f == NameField <==> name == NameKey
  {
    if name == NameKey then NameField
    else if name == TypeKey then TypeField
    else if name == LastTimeUpdatedKey then DateField
    else if name == LocalFilePathKey then PathField
    else if name == PlatformFileIdKey then IdField
    else if name == FileSizeKey then SizeField
    else Extra
  }

  predicate HasName(s: seq<Attribute>, name: string) {
    exists i :: 0 <= i < |s| && s[i].name == name
  }

  /** The attributes that fall to the `default` case, in order. */
  function Extras(attributes: seq<Attribute>): (r: seq<Attribute>)
    ensures |r| <= |attributes|
  {
    if |attributes| == 0 then []
    else (if FieldOf(attributes[0].name) == Extra then [attributes[0]] else []) + Extras(attributes[1..])
  }

  /** An attribute is among the extras exactly when it is in the list and
      its name has no case of its own. */
  lemma {:induction false} ExtrasMembers(attributes: seq<Attribute>, a: Attribute)
    ensures a in Extras(attributes) <==> a in attributes && FieldOf(a.name) == Extra
  {
    if |attributes| > 0 {
      ExtrasMembers(attributes[1..], a);
      assert attributes == [attributes[0]] + attributes[1..];
    }
  }

  /** The value of the last attribute selecting the case: later cases of the
      `switch` overwrite earlier ones. */
  function LastValue(attributes: seq<Attribute>, field: Field): Option<string> {
    if |attributes| == 0 then None
    else
      var rest := LastValue(attributes[1..], field);
      if rest.Some? then rest
      else if FieldOf(attributes[0].name) == field then Some(attributes[0].value)
      else None
  }

  /** `LastValue` is absent exactly when no attribute selects the case, and
      is otherwise the value of one that no later attribute overrides. */
  lemma {:induction false} LastValueIsLast(attributes: seq<Attribute>, field: Field)
    ensures LastValue(attributes, field).None? <==>
      forall i :: 0 <= i < |attributes| ==> FieldOf(attributes[i].name) != field
    ensures LastValue(attributes, field).Some? ==>
      exists i :: 0 <= i < |attributes| && FieldOf(attributes[i].name) == field
                  && attributes[i].value == LastValue(attributes, field).value
                  && forall j :: i < j < |attributes| ==> FieldOf(attributes[j].name) != field
  {
    if |attributes| > 0 {
      var rest := attributes[1..];
      LastValueIsLast(rest, field);
      assert forall i :: 1 <= i < |attributes| ==> attributes[i] == rest[i - 1];
      if LastValue(rest, field).Some? {
        var i :| 0 <= i < |rest| && FieldOf(rest[i].name) == field
                 && rest[i].value == LastValue(rest, field).value
                 && forall j :: i < j < |rest| ==> FieldOf(rest[j].name) != field;
        assert attributes[i + 1] == rest[i];
      }
    }
  }

  /** No two entries share a name. */
  predicate DistinctNames(s: seq<Attribute>) {
    forall i, j :: 0 <= i < j < |s| ==> s[i].name != s[j].name
  }

  lemma DistinctAppend(s: seq<Attribute>, a: Attribute)
    requires DistinctNames(s) && !HasName(s, a.name)
    ensures DistinctNames(s + [a])
  {
    var t := s + [a];
    forall i, j | 0 <= i < j < |t| ensures t[i].name != t[j].name {
      if j == |s| {
        assert t[i] == s[i];
      }
    }
  }

  /** What the `switch` leaves in `data` when no extra attribute collides:
      each field takes the last value given for it, parsed, and the extras
      are appended to `Values`. */
  function Assign(codec: Codec, data: ContentMetaData, attributes: seq<Attribute>): ContentMetaData {
    var name := LastValue(attributes, NameField);
    var typ := LastValue(attributes, TypeField);
    var date := LastValue(attributes, DateField);
    var path := LastValue(attributes, PathField);
    var id := LastValue(attributes, IdField);
    var size := LastValue(attributes, SizeField);
    data.(
      name := if name.Some? then name else data.name,
      contentType := if typ.Some? then codec.parseType(typ.value) else data.contentType,
      lastTimeUpdated := if date.Some? then codec.parseDate(date.value) else data.lastTimeUpdated,
      localFilePath := if path.Some? then path else data.localFilePath,
      platformFileId := if id.Some? then codec.parseInt(id.value) else data.platformFileId,
      fileSize := if size.Some? then codec.parseInt(size.value) else data.fileSize,
      values := data.values + Extras(attributes))
  }

  /** One case of the `switch`. */
  function ApplyAttribute(codec: Codec, data: ContentMetaData, a: Attribute): Result<ContentMetaData, ParseError> {
    match FieldOf(a.name)
    case NameField => Success(data.(name := Some(a.value)))
    case TypeField => Success(data.(contentType := codec.parseType(a.value)))
    case DateField => Success(data.(lastTimeUpdated := codec.parseDate(a.value)))
    case PathField => Success(data.(localFilePath := Some(a.value)))
    case IdField => Success(data.(platformFileId := codec.parseInt(a.value)))
    case SizeField => Success(data.(fileSize := codec.parseInt(a.value)))
    case Extra =>
      if HasName(data.values, a.name) then Failure(DuplicateValueKey(a.name))
      else Success(data.(values := data.values + [a]))
  }

  /** The `foreach` of `ParseContentMetaData`: it throws exactly when an
      extra attribute repeats a key, and otherwise leaves `Assign`'s
      result. */
  function ApplyAll(codec: Codec, data: ContentMetaData, attributes: seq<Attribute>): (r: Result<ContentMetaData, ParseError>)
    requires DistinctNames(data.values)
    ensures r.Success? <==> DistinctNames(data.values + Extras(attributes))
    ensures r.Success? ==> r.value == Assign(codec, data, attributes)
    ensures r.Failure? ==> r.error.DuplicateValueKey?
    decreases |attributes|
  {
    if |attributes| == 0 then
      assert data.values + [] == data.values;
      Success(data)
    else
      match ApplyAttribute(codec, data, attributes[0])
      case Failure(e) =>
        ApplyFails(codec, data, attributes);
        Failure(e)
      case Success(next) =>
        ApplySucceeds(codec, data, attributes);
        ApplyAll(codec, next, attributes[1..])
  }

  /** A first case that throws does so on a repeated key. */
  lemma ApplyFails(codec: Codec, data: ContentMetaData, attributes: seq<Attribute>)
    requires |attributes| > 0 && ApplyAttribute(codec, data, attributes[0]).Failure?
    ensures !DistinctNames(data.values + Extras(attributes))
    ensures ApplyAttribute(codec, data, attributes[0]).error.DuplicateValueKey?
  {
    var a := attributes[0];
    FailureIsDuplicate(codec, data, a);
    ExtraCons(attributes);
    DuplicateBlocks(data.values, a, Extras(attributes[1..]));
  }

  /** Only the `default` case throws, and only on a key already present. */
  lemma FailureIsDuplicate(codec: Codec, data: ContentMetaData, a: Attribute)
    requires ApplyAttribute(codec, data, a).Failure?
    ensures FieldOf(a.name) == Extra && HasName(data.values, a.name)
    ensures ApplyAttribute(codec, data, a).error.DuplicateValueKey?
  {
    if FieldOf(a.name) != Extra {
      KnownKeepsValues(codec, data, a);
    }
  }

  lemma ExtraCons(attributes: seq<Attribute>)
    requires |attributes| > 0 && FieldOf(attributes[0].name) == Extra
    ensures Extras(attributes) == [attributes[0]] + Extras(attributes[1..])
  {
    ExtrasCons(attributes);
  }

  /** A first case that does not throw leaves the rest of the list to run
      on its result, with the same keys to come and the same outcome. */
  lemma ApplySucceeds(codec: Codec, data: ContentMetaData, attributes: seq<Attribute>)
    requires |attributes| > 0 && DistinctNames(data.values)
    requires ApplyAttribute(codec, data, attributes[0]).Success?
    ensures var next := ApplyAttribute(codec, data, attributes[0]).value;
      && DistinctNames(next.values)
      && data.values + Extras(attributes) == next.values + Extras(attributes[1..])
      && Assign(codec, next, attributes[1..]) == Assign(codec, data, attributes)
  {
    ExtrasStep(codec, data, attributes);
    ApplyKeepsDistinct(codec, data, attributes[0]);
    AssignStep(codec, data, attributes);
  }

  /** An extra attribute whose name is already a key makes the whole list
      of keys non-distinct. */
  lemma DuplicateBlocks(values: seq<Attribute>, a: Attribute, rest: seq<Attribute>)
    requires HasName(values, a.name)
    ensures !DistinctNames(values + ([a] + rest))
  {
    var i :| 0 <= i < |values| && values[i].name == a.name;
    var s := values + ([a] + rest);
    assert s[i].name == s[|values|].name;
  }

  /** The first case of the `switch` moves an extra attribute from the
      list into `Values`. */
  lemma ExtrasStep(codec: Codec, data: ContentMetaData, attributes: seq<Attribute>)
    requires |attributes| > 0
    requires ApplyAttribute(codec, data, attributes[0]).Success?
    ensures data.values + Extras(attributes)
         == ApplyAttribute(codec, data, attributes[0]).value.values + Extras(attributes[1..])
  {
    var a := attributes[0];
    ExtrasCons(attributes);
    if FieldOf(a.name) == Extra {
      ExtraAppended(codec, data, a, Extras(attributes[1..]));
    } else {
      KnownKeepsValues(codec, data, a);
      assert [] + Extras(attributes[1..]) == Extras(attributes[1..]);
    }
  }

  lemma ExtrasCons(attributes: seq<Attribute>)
    requires |attributes| > 0
    ensures Extras(attributes)
         == (if FieldOf(attributes[0].name) == Extra then [attributes[0]] else []) + Extras(attributes[1..])
  {
  }

  /** The `default` case appends the attribute to `Values`. */
  lemma ExtraAppended(codec: Codec, data: ContentMetaData, a: Attribute, e: seq<Attribute>)
    requires FieldOf(a.name) == Extra
    requires ApplyAttribute(codec, data, a).Success?
    ensures data.values + ([a] + e) == ApplyAttribute(codec, data, a).value.values + e
  {
    assert ApplyAttribute(codec, data, a).value.values == data.values + [a];
    Associative(data.values, [a], e);
  }

  lemma Associative(a: seq<Attribute>, b: seq<Attribute>, c: seq<Attribute>)
    ensures a + (b + c) == (a + b) + c
  {
  }

  /** A case that does not throw keeps `Values` free of repeated keys. */
  lemma ApplyKeepsDistinct(codec: Codec, data: ContentMetaData, a: Attribute)
    requires DistinctNames(data.values)
    requires ApplyAttribute(codec, data, a).Success?
    ensures DistinctNames(ApplyAttribute(codec, data, a).value.values)
  {
    if FieldOf(a.name) == Extra {
      DistinctAppend(data.values, a);
    } else {
      KnownKeepsValues(codec, data, a);
    }
  }

  /** A case other than `default` leaves `Values` alone. */
  lemma KnownKeepsValues(codec: Codec, data: ContentMetaData, a: Attribute)
    requires FieldOf(a.name) != Extra
    ensures ApplyAttribute(codec, data, a).Success?
    ensures ApplyAttribute(codec, data, a).value.values == data.values
  {
  }

  /** `Assign` over a list is the first case of the `switch` followed by
      `Assign` over the rest. */
  lemma AssignStep(codec: Codec, data: ContentMetaData, attributes: seq<Attribute>)
    requires |attributes| > 0
    requires ApplyAttribute(codec, data, attributes[0]).Success?
    ensures Assign(codec, ApplyAttribute(codec, data, attributes[0]).value, attributes[1..])
         == Assign(codec, data, attributes)
  {
    ExtrasStep(codec, data, attributes);
    AssignFieldStep(codec, data, attributes, NameField);
    AssignFieldStep(codec, data, attributes, TypeField);
    AssignFieldStep(codec, data, attributes, DateField);
    AssignFieldStep(codec, data, attributes, PathField);
    AssignFieldStep(codec, data, attributes, IdField);
    AssignFieldStep(codec, data, attributes, SizeField);
  }

  /** The field a case sets comes out of `Assign` the same way after the
      first step. */
  lemma AssignFieldStep(codec: Codec, data: ContentMetaData, attributes: seq<Attribute>, field: Field)
    requires |attributes| > 0 && field != Extra
    requires ApplyAttribute(codec, data, attributes[0]).Success?
    ensures var l := Assign(codec, ApplyAttribute(codec, data, attributes[0]).value, attributes[1..]);
      var r := Assign(codec, data, attributes);
      match field
      case NameField => l.name == r.name
      case TypeField => l.contentType == r.contentType
      case DateField => l.lastTimeUpdated == r.lastTimeUpdated
      case PathField => l.localFilePath == r.localFilePath
      case IdField => l.platformFileId == r.platformFileId
      case SizeField => l.fileSize == r.fileSize
  {
    LastValueCons(attributes, field);
  }

  lemma LastValueCons(attributes: seq<Attribute>, field: Field)
    requires |attributes| > 0
    ensures LastValue(attributes, field) ==
      if LastValue(attributes[1..], field).Some? then LastValue(attributes[1..], field)
      else if FieldOf(attributes[0].name) == field then Some(attributes[0].value)
      else None
  {
  }

  /** `ParseContentMetaData`: a fresh `ContentMetaData` run through the
      `switch`, refused when it has no name. */
  function ParseContentMetaData(codec: Codec, attributes: seq<Attribute>): (r: Result<ContentMetaData, ParseError>)
    ensures r.Failure? <==>
      !DistinctNames(Extras(attributes)) || IsNullOrEmpty(LastValue(attributes, NameField))
    ensures r.Failure? && DistinctNames(Extras(attributes)) ==>
      r.error == InvalidContentMetaDataNameIsAlwaysNeeded
    ensures r.Success? ==>
      && r.value == Assign(codec, Fresh(codec), attributes)
      && r.value.name == LastValue(attributes, NameField)
      && r.value.values == Extras(attributes)
      && r.value.language.None?
  {
    var blank := Fresh(codec);
    assert blank.values + Extras(attributes) == Extras(attributes);
    var data :- ApplyAll(codec, blank, attributes);
    if IsNullOrEmpty(data.name) then Failure(InvalidContentMetaDataNameIsAlwaysNeeded) else Success(data)
  }

  // ---------------------------------------------------------------------
  // Metadata to attributes.

  /** A `null` text is written as the empty string. */
  function Text(s: Option<string>): string {
    if s.Some? then s.value else ""
  }

  function Count(b: bool): nat {
    if b then 1 else 0
  }

  /** `ParseAttributes`: Name, Type and LastTimeUpdated always, in that
      order; Language when not `null`; LocalFilePath when not empty;
      PlatformFileId and FileSize when not zero; then the extra values. */
  function ParseAttributes(codec: Codec, entry: ContentMetaData): (r: seq<Attribute>)
    ensures |r| == 3 + Count(entry.language.Some?) + Count(!IsNullOrEmpty(entry.localFilePath))
                     + Count(entry.platformFileId != 0) + Count(entry.fileSize != 0) + |entry.values|
    ensures r[0] == Attribute(NameKey, Text(entry.name))
    ensures r[1] == Attribute(TypeKey, codec.formatType(entry.contentType))
    ensures r[2] == Attribute(LastTimeUpdatedKey, codec.formatDate(entry.lastTimeUpdated))
    ensures r[|r| - |entry.values|..] == entry.values
  {
    Required(codec, entry) + Optional(codec, entry) + entry.values
  }

  function Required(codec: Codec, entry: ContentMetaData): seq<Attribute> {
    [Attribute(NameKey, Text(entry.name)),
     Attribute(TypeKey, codec.formatType(entry.contentType)),
     Attribute(LastTimeUpdatedKey, codec.formatDate(entry.lastTimeUpdated))]
  }

  function Optional(codec: Codec, entry: ContentMetaData): (r: seq<Attribute>)
    ensures |r| == Count(entry.language.Some?) + Count(!IsNullOrEmpty(entry.localFilePath))
                 + Count(entry.platformFileId != 0) + Count(entry.fileSize != 0)
  {
    LanguageAttr(entry) + PathAttr(entry) + (IdAttr(codec, entry) + SizeAttr(codec, entry))
  }

  function LanguageAttr(entry: ContentMetaData): seq<Attribute> {
    if entry.language.Some? then [Attribute(LanguageKey, entry.language.value)] else []
  }

  function PathAttr(entry: ContentMetaData): seq<Attribute> {
    if !IsNullOrEmpty(entry.localFilePath) then [Attribute(LocalFilePathKey, entry.localFilePath.value)] else []
  }

  function IdAttr(codec: Codec, entry: ContentMetaData): seq<Attribute> {
    if entry.platformFileId != 0 then [Attribute(PlatformFileIdKey, codec.formatInt(entry.platformFileId))] else []
  }

  function SizeAttr(codec: Codec, entry: ContentMetaData): seq<Attribute> {
    if entry.fileSize != 0 then [Attribute(FileSizeKey, codec.formatInt(entry.fileSize))] else []
  }

  // ---------------------------------------------------------------------
  // Round trip.

  lemma {:induction false} ExtrasAppend(a: seq<Attribute>, b: seq<Attribute>)
    ensures Extras(a + b) == Extras(a) + Extras(b)
  {
    if |a| > 0 {
      ExtrasAppend(a[1..], b);
      var head := if FieldOf(a[0].name) == Extra then [a[0]] else [];
      ExtrasHead(a, b, head);
      Associative(head, Extras(a[1..]), Extras(b));
    } else {
      assert a + b == b;
    }
  }

  lemma ExtrasHead(a: seq<Attribute>, b: seq<Attribute>, head: seq<Attribute>)
    requires |a| > 0 && head == if FieldOf(a[0].name) == Extra then [a[0]] else []
    ensures Extras(a + b) == head + Extras(a[1..] + b)
    ensures Extras(a) == head + Extras(a[1..])
  {
    assert (a + b)[1..] == a[1..] + b;
    assert (a + b)[0] == a[0];
  }

  lemma {:induction false} LastValueAppend(a: seq<Attribute>, b: seq<Attribute>, field: Field)
    ensures LastValue(a + b, field) == if LastValue(b, field).Some? then LastValue(b, field) else LastValue(a, field)
  {
    if |a| > 0 {
      LastValueAppend(a[1..], b, field);
      assert (a + b)[1..] == a[1..] + b;
    } else {
      assert a + b == b;
    }
  }

  /** Attributes without a case of their own are all extras and set no
      field. */
  lemma {:induction false} OnlyExtras(values: seq<Attribute>, field: Field)
    requires forall i :: 0 <= i < |values| ==> FieldOf(values[i].name) == Extra
    requires field != Extra
    ensures Extras(values) == values
    ensures LastValue(values, field) == None
  {
    if |values| > 0 {
      OnlyExtras(values[1..], field);
      assert values == [values[0]] + values[1..];
    }
  }

  /** Written attributes read back as the entry they were written from,
      when the codec's conversions invert each other, the entry has a name,
      no language, no empty file path, and extra values under distinct names
      that have no case of their own. */
  lemma AttributesRoundTrip(codec: Codec, entry: ContentMetaData)
    requires RoundTrips(codec)
    requires entry.name.Some? && entry.name.value != ""
    requires entry.language.None? && entry.localFilePath != Some("")
    requires DistinctNames(entry.values)
    requires forall i :: 0 <= i < |entry.values| ==> FieldOf(entry.values[i].name) == Extra
    ensures ParseContentMetaData(codec, ParseAttributes(codec, entry)) == Success(entry)
  {
    var attrs := ParseAttributes(codec, entry);
    AttributesLayout(codec, entry);
    FrontFields(codec, entry);
    ReadBack(codec, entry, attrs);
  }

  /** The written attributes are the fixed and optional ones, whose cases
      the values never touch, followed by the values as extras. */
  lemma AttributesLayout(codec: Codec, entry: ContentMetaData)
    requires entry.language.None?
    requires forall i :: 0 <= i < |entry.values| ==> FieldOf(entry.values[i].name) == Extra
    ensures var attrs := ParseAttributes(codec, entry);
      var front := Required(codec, entry) + Optional(codec, entry);
      && Extras(attrs) == entry.values
      && forall field :: field != Extra ==> LastValue(attrs, field) == LastValue(front, field)
  {
    var req := Required(codec, entry);
    var opt := Optional(codec, entry);
    var attrs := ParseAttributes(codec, entry);
    var front := req + opt;
    assert attrs == front + entry.values;
    ExtrasAppend(front, entry.values);
    ExtrasAppend(req, opt);
    OnlyExtras(entry.values, NameField);
    RequiredIsKnown(codec, entry);
    OptionalIsKnown(codec, entry);
    forall field | field != Extra
      ensures LastValue(attrs, field) == LastValue(front, field)
    {
      OnlyExtras(entry.values, field);
      LastValueAppend(front, entry.values, field);
    }
  }

  /** Attributes whose extras are the entry's values and whose last values
      are the entry's fields, formatted, read back as the entry. */
  lemma ReadBack(codec: Codec, entry: ContentMetaData, attrs: seq<Attribute>)
    requires RoundTrips(codec)
    requires entry.name.Some? && entry.name.value != ""
    requires entry.language.None? && entry.localFilePath != Some("")
    requires DistinctNames(entry.values) && Extras(attrs) == entry.values
    requires LastValue(attrs, NameField) == entry.name
    requires LastValue(attrs, TypeField) == Some(codec.formatType(entry.contentType))
    requires LastValue(attrs, DateField) == Some(codec.formatDate(entry.lastTimeUpdated))
    requires LastValue(attrs, PathField) == (if entry.localFilePath.Some? then entry.localFilePath else None)
    requires LastValue(attrs, IdField) == (if entry.platformFileId != 0 then Some(codec.formatInt(entry.platformFileId)) else None)
    requires LastValue(attrs, SizeField) == (if entry.fileSize != 0 then Some(codec.formatInt(entry.fileSize)) else None)
    ensures ParseContentMetaData(codec, attrs) == Success(entry)
  {
    var r := ParseContentMetaData(codec, attrs);
    assert r.Success?;
    assert r.value == Assign(codec, Fresh(codec), attrs);
  }

  /** The optional attributes have cases of their own when there is no
      language. */
  lemma OptionalIsKnown(codec: Codec, entry: ContentMetaData)
    requires entry.language.None?
    ensures Extras(Optional(codec, entry)) == []
  {
    var p := PathAttr(entry);
    var i := IdAttr(codec, entry);
    var z := SizeAttr(codec, entry);
    assert LanguageAttr(entry) == [];
    ExtrasAppend(p, i + z);
    ExtrasAppend(i, z);
  }

  /** Each field of the entry is read back from the fixed and optional
      attributes. */
  lemma FrontFields(codec: Codec, entry: ContentMetaData)
    requires RoundTrips(codec)
    requires entry.name.Some? && entry.language.None? && entry.localFilePath != Some("")
    ensures var attrs := ParseAttributes(codec, entry);
      var front := Required(codec, entry) + Optional(codec, entry);
      && LastValue(front, NameField) == entry.name
      && LastValue(front, TypeField) == Some(codec.formatType(entry.contentType))
      && LastValue(front, DateField) == Some(codec.formatDate(entry.lastTimeUpdated))
      && LastValue(front, PathField) == (if entry.localFilePath.Some? then entry.localFilePath else None)
      && LastValue(front, IdField) == (if entry.platformFileId != 0 then Some(codec.formatInt(entry.platformFileId)) else None)
      && LastValue(front, SizeField) == (if entry.fileSize != 0 then Some(codec.formatInt(entry.fileSize)) else None)
  {
    KeyFields();
    FrontField(codec, entry, NameField);
    FrontField(codec, entry, TypeField);
    FrontField(codec, entry, DateField);
    FrontField(codec, entry, PathField);
    FrontField(codec, entry, IdField);
    FrontField(codec, entry, SizeField);
  }

  /** The last value of one case among the fixed and optional attributes:
      the latest of the at most one attribute each of them gives it. */
  lemma FrontField(codec: Codec, entry: ContentMetaData, field: Field)
    requires entry.language.None?
    ensures var req := Required(codec, entry);
      var p := PathAttr(entry);
      var i := IdAttr(codec, entry);
      var z := SizeAttr(codec, entry);
      LastValue(req + Optional(codec, entry), field)
        == Pick(Sel(z, field), Pick(Sel(i, field), Pick(Sel(p, field),
             Pick(Sel([req[2]], field), Pick(Sel([req[1]], field), Sel([req[0]], field))))))
  {
    var req := Required(codec, entry);
    var opt := Optional(codec, entry);
    var p := PathAttr(entry);
    var i := IdAttr(codec, entry);
    var z := SizeAttr(codec, entry);
    assert opt == p + (i + z);
    LastValueAppend(req, opt, field);
    OptionalLast(p, i, z, field);
    RequiredLast(req, field);
  }

  lemma OptionalLast(p: seq<Attribute>, i: seq<Attribute>, z: seq<Attribute>, field: Field)
    requires |p| <= 1 && |i| <= 1 && |z| <= 1
    ensures LastValue(p + (i + z), field) == Pick(Sel(z, field), Pick(Sel(i, field), Sel(p, field)))
  {
    LastValueAppend(p, i + z, field);
    LastValueAppend(i, z, field);
    LastValueAtMostOne(p, field);
    LastValueAtMostOne(i, field);
    LastValueAtMostOne(z, field);
  }

  lemma RequiredLast(req: seq<Attribute>, field: Field)
    requires |req| == 3
    ensures LastValue(req, field) == Pick(Sel([req[2]], field), Pick(Sel([req[1]], field), Sel([req[0]], field)))
  {
    assert req == [req[0]] + ([req[1]] + [req[2]]);
    LastValueAppend([req[0]], [req[1]] + [req[2]], field);
    LastValueAppend([req[1]], [req[2]], field);
    LastValueAtMostOne([req[0]], field);
    LastValueAtMostOne([req[1]], field);
    LastValueAtMostOne([req[2]], field);
  }

  lemma LastValueSingle(a: Attribute, field: Field)
    ensures LastValue([a], field) == if FieldOf(a.name) == field then Some(a.value) else None
  {
    assert [a][1..] == [];
  }

  /** The value a list of at most one attribute gives the case. */
  function Sel(s: seq<Attribute>, field: Field): Option<string> {
    if |s| == 1 && FieldOf(s[0].name) == field then Some(s[0].value) else None
  }

  lemma LastValueAtMostOne(s: seq<Attribute>, field: Field)
    requires |s| <= 1
    ensures LastValue(s, field) == Sel(s, field)
  {
    if |s| == 1 {
      LastValueSingle(s[0], field);
      assert s == [s[0]];
    }
  }

  /** The later value if there is one, else the earlier. */
  function Pick(later: Option<string>, earlier: Option<string>): Option<string> {
    if later.Some? then later else earlier
  }

  /** Each attribute name the writer uses selects its own case. */
  lemma KeyFields()
    ensures FieldOf(NameKey) == NameField && FieldOf(TypeKey) == TypeField
    ensures FieldOf(LastTimeUpdatedKey) == DateField && FieldOf(LocalFilePathKey) == PathField
    ensures FieldOf(PlatformFileIdKey) == IdField && FieldOf(FileSizeKey) == SizeField
    ensures FieldOf(LanguageKey) == Extra
  {
  }

  /** Two attribute lists with the same extras and the same last value for
      every case read as the same metadata. */
  lemma SameReading(codec: Codec, a: seq<Attribute>, b: seq<Attribute>)
    requires Extras(a) == Extras(b) && DistinctNames(Extras(a))
    requires forall field :: field != Extra ==> LastValue(a, field) == LastValue(b, field)
    ensures ParseContentMetaData(codec, a) == ParseContentMetaData(codec, b)
  {
    var ra := ParseContentMetaData(codec, a);
    var rb := ParseContentMetaData(codec, b);
    assert LastValue(a, NameField) == LastValue(b, NameField);
    if ra.Success? {
      SameAssign(codec, Fresh(codec), a, b);
    }
  }

  lemma SameAssign(codec: Codec, data: ContentMetaData, a: seq<Attribute>, b: seq<Attribute>)
    requires Extras(a) == Extras(b)
    requires forall field :: field != Extra ==> LastValue(a, field) == LastValue(b, field)
    ensures Assign(codec, data, a) == Assign(codec, data, b)
  {
    assert LastValue(a, NameField) == LastValue(b, NameField);
    assert LastValue(a, TypeField) == LastValue(b, TypeField);
    assert LastValue(a, DateField) == LastValue(b, DateField);
    assert LastValue(a, PathField) == LastValue(b, PathField);
    assert LastValue(a, IdField) == LastValue(b, IdField);
    assert LastValue(a, SizeField) == LastValue(b, SizeField);
  }

  /** An attribute without a case of its own only adds to the extras. */
  lemma InsertExtra(a: seq<Attribute>, x: Attribute, b: seq<Attribute>)
    requires FieldOf(x.name) == Extra
    ensures Extras(a + [x] + b) == Extras(a) + [x] + Extras(b)
    ensures forall field :: field != Extra ==> LastValue(a + [x] + b, field) == LastValue(a + b, field)
  {
    ExtrasAppend(a + [x], b);
    ExtrasAppend(a, [x]);
    assert Extras([x]) == [x] by {
      assert [x][1..] == [];
    }
    forall field | field != Extra
      ensures LastValue(a + [x] + b, field) == LastValue(a + b, field)
    {
      LastValueAppend(a + [x], b, field);
      LastValueAppend(a, [x], field);
      LastValueAppend(a, b, field);
      LastValueAtMostOne([x], field);
    }
  }

  /** The language is written but has no case of its own, so it is read
      back as an extra value named `Language` in front of the others, and
      the language field stays `null`. */
  lemma LanguageLandsInValues(codec: Codec, entry: ContentMetaData)
    requires RoundTrips(codec)
    requires entry.name.Some? && entry.name.value != ""
    requires entry.language.Some? && entry.localFilePath != Some("")
    requires DistinctNames(entry.values) && !HasName(entry.values, LanguageKey)
    requires forall i :: 0 <= i < |entry.values| ==> FieldOf(entry.values[i].name) == Extra
    ensures ParseContentMetaData(codec, ParseAttributes(codec, entry))
         == Success(entry.(language := None, values := [Attribute(LanguageKey, entry.language.value)] + entry.values))
  {
    var lang := Attribute(LanguageKey, entry.language.value);
    var moved := entry.(language := None, values := [lang] + entry.values);
    DistinctCons(lang, entry.values);
    KeyFields();
    assert forall i :: 0 <= i < |moved.values| ==> FieldOf(moved.values[i].name) == Extra by {
      assert forall i :: 1 <= i < |moved.values| ==> moved.values[i] == entry.values[i - 1];
    }
    AttributesRoundTrip(codec, moved);
    LanguageSameReading(codec, entry);
  }

  /** Writing with the language and writing with the language moved to the
      front of the values differ only in where that one extra attribute
      sits. */
  lemma LanguageSameReading(codec: Codec, entry: ContentMetaData)
    requires entry.language.Some?
    requires forall i :: 0 <= i < |entry.values| ==> FieldOf(entry.values[i].name) == Extra
    requires DistinctNames([Attribute(LanguageKey, entry.language.value)] + entry.values)
    ensures var moved := entry.(language := None, values := [Attribute(LanguageKey, entry.language.value)] + entry.values);
      ParseContentMetaData(codec, ParseAttributes(codec, entry)) == ParseContentMetaData(codec, ParseAttributes(codec, moved))
  {
    var lang := Attribute(LanguageKey, entry.language.value);
    var moved := entry.(language := None, values := [lang] + entry.values);
    var req := Required(codec, entry);
    var rest := Optional(codec, moved);
    LanguageLayout(codec, entry);
    var a := req + [lang] + (rest + entry.values);
    var b := (req + rest) + [lang] + entry.values;
    InsertExtra(req, lang, rest + entry.values);
    InsertExtra(req + rest, lang, entry.values);
    Associative(req, rest, entry.values);
    LanguageExtras(codec, entry);
    SameReading(codec, a, b);
  }

  /** Where the language attribute sits in each of the two writings. */
  lemma LanguageLayout(codec: Codec, entry: ContentMetaData)
    requires entry.language.Some?
    ensures var lang := Attribute(LanguageKey, entry.language.value);
      var moved := entry.(language := None, values := [lang] + entry.values);
      var req := Required(codec, entry);
      var rest := Optional(codec, moved);
      && ParseAttributes(codec, entry) == req + [lang] + (rest + entry.values)
      && ParseAttributes(codec, moved) == (req + rest) + [lang] + entry.values
  {
    var lang := Attribute(LanguageKey, entry.language.value);
    var moved := entry.(language := None, values := [lang] + entry.values);
    var req := Required(codec, entry);
    var tail := PathAttr(entry) + (IdAttr(codec, entry) + SizeAttr(codec, entry));
    OptionalWithLanguage(codec, entry);
    assert ParseAttributes(codec, entry) == req + ([lang] + tail) + entry.values;
    assert ParseAttributes(codec, moved) == req + tail + ([lang] + entry.values) by {
      assert Required(codec, moved) == req;
    }
    LayoutShapes(req, lang, tail, entry.values);
  }

  /** Moving the language into the values takes it out of the optional
      attributes and leaves the others. */
  lemma OptionalWithLanguage(codec: Codec, entry: ContentMetaData)
    requires entry.language.Some?
    ensures var lang := Attribute(LanguageKey, entry.language.value);
      var moved := entry.(language := None, values := [lang] + entry.values);
      var tail := PathAttr(entry) + (IdAttr(codec, entry) + SizeAttr(codec, entry));
      && Optional(codec, entry) == [lang] + tail
      && Optional(codec, moved) == tail
  {
    var lang := Attribute(LanguageKey, entry.language.value);
    var moved := entry.(language := None, values := [lang] + entry.values);
    var tail := PathAttr(entry) + (IdAttr(codec, entry) + SizeAttr(codec, entry));
    assert LanguageAttr(entry) == [lang] && LanguageAttr(moved) == [];
    assert PathAttr(moved) == PathAttr(entry);
    assert IdAttr(codec, moved) == IdAttr(codec, entry) && SizeAttr(codec, moved) == SizeAttr(codec, entry);
    assert [] + tail == tail;
  }

  lemma LayoutShapes(req: seq<Attribute>, lang: Attribute, tail: seq<Attribute>, values: seq<Attribute>)
    ensures req + ([lang] + tail) + values == req + [lang] + (tail + values)
    ensures req + tail + ([lang] + values) == (req + tail) + [lang] + values
  {
  }

  /** Both writings have the language followed by the values as extras. */
  lemma LanguageExtras(codec: Codec, entry: ContentMetaData)
    requires entry.language.Some?
    requires forall i :: 0 <= i < |entry.values| ==> FieldOf(entry.values[i].name) == Extra
    ensures var lang := Attribute(LanguageKey, entry.language.value);
      var moved := entry.(language := None, values := [lang] + entry.values);
      var req := Required(codec, entry);
      var rest := Optional(codec, moved);
      && Extras(req) + [lang] + Extras(rest + entry.values) == [lang] + entry.values
      && Extras(req + rest) + [lang] + Extras(entry.values) == [lang] + entry.values
  {
    var lang := Attribute(LanguageKey, entry.language.value);
    var moved := entry.(language := None, values := [lang] + entry.values);
    var req := Required(codec, entry);
    var rest := Optional(codec, moved);
    RequiredIsKnown(codec, entry);
    OptionalIsKnown(codec, moved);
    OnlyExtras(entry.values, NameField);
    LanguageFirstExtras(req, lang, rest, entry.values);
    LanguageMovedExtras(req, lang, rest, entry.values);
  }

  lemma LanguageFirstExtras(req: seq<Attribute>, lang: Attribute, rest: seq<Attribute>, values: seq<Attribute>)
    requires Extras(req) == [] && Extras(rest) == [] && Extras(values) == values
    ensures Extras(req) + [lang] + Extras(rest + values) == [lang] + values
  {
    ExtrasAppend(rest, values);
    EmptyThen(Extras(req), lang, Extras(rest + values), values);
  }

  lemma LanguageMovedExtras(req: seq<Attribute>, lang: Attribute, rest: seq<Attribute>, values: seq<Attribute>)
    requires Extras(req) == [] && Extras(rest) == [] && Extras(values) == values
    ensures Extras(req + rest) + [lang] + Extras(values) == [lang] + values
  {
    ExtrasAppend(req, rest);
    EmptyThen(Extras(req + rest), lang, Extras(values), values);
  }

  lemma EmptyThen(x: seq<Attribute>, lang: Attribute, e: seq<Attribute>, values: seq<Attribute>)
    requires x == [] && e == values
    ensures x + [lang] + e == [lang] + values
  {
  }

  lemma DistinctCons(x: Attribute, s: seq<Attribute>)
    requires DistinctNames(s) && !HasName(s, x.name)
    ensures DistinctNames([x] + s)
  {
    var t := [x] + s;
    forall i, j | 0 <= i < j < |t| ensures t[i].name != t[j].name {
      assert t[j] == s[j - 1];
      if i > 0 {
        assert t[i] == s[i - 1];
      }
    }
  }

  lemma RequiredIsKnown(codec: Codec, entry: ContentMetaData)
    ensures Extras(Required(codec, entry)) == []
  {
    var req := Required(codec, entry);
    KeyFields();
    assert req == [req[0]] + ([req[1]] + [req[2]]);
    ExtrasAppend([req[0]], [req[1]] + [req[2]]);
    ExtrasAppend([req[1]], [req[2]]);
  }
}

=== FILE: mock_online_server.dfy ===
/** The test double of the online content service
    (Networking/Tests/Tcp/MockOnlineServer.cs): a mock server whose second
    `ClientDataReceived` handler answers each message with at most one reply
    to the connection it came from.

    `describe` is the message's `ToString`, which belongs to the message
    classes and is not part of this model. */
module MockOnlineServerModel {
  import opened Wrappers
  import opened ServerRegistry
  import opened MockServerModel
  import opened Messages
  import OnlineServiceConnection

  const LoginWithoutApiKey: string := "Unable to login without ApiKey"
  const MessageWithoutLogin: string := "Unable to process message without login"
  const TestUser: string := "TestUser"
  const NotSupported: string := " is not supported"

  datatype OnlineServer = OnlineServer(mock: MockServer<Message>, wasLoggedInSuccessfully: bool)

  function New(): (s: OnlineServer)
    ensures !s.wasLoggedInSuccessfully && s.mock == MockServerModel.New()
  {
    OnlineServer(MockServerModel.New(), false)
  }

  /** `SendBackToClient` with `HandleLoginRequest` and `HandleLogInfoMessage`:
      the new login flag and the reply, if any. */
  function SendBackToClient(wasLoggedIn: bool, message: Message, describe: Message -> string)
    : (r: (bool, Option<Message>))
    ensures wasLoggedIn ==> r.0
    ensures r.0 <==> wasLoggedIn || (message.LoginRequest? && !ContentMetaDataModel.IsNullOrEmpty(message.apiKey))
    ensures message.LoginRequest? && ContentMetaDataModel.IsNullOrEmpty(message.apiKey) ==>
      r.1 == Some(ServerError(LoginWithoutApiKey))
    ensures message.LoginRequest? && !ContentMetaDataModel.IsNullOrEmpty(message.apiKey) ==>
      r.1 == Some(LoginSuccessful(TestUser))
    ensures message.LogInfoMessage? ==>
      r.1 == if wasLoggedIn then None else Some(ServerError(MessageWithoutLogin))
    ensures !message.LoginRequest? && !message.LogInfoMessage? ==>
      r.1 == Some(UnknownMessage(describe(message) + NotSupported))
  {
    match message
    case LoginRequest(apiKey, _) =>
      if ContentMetaDataModel.IsNullOrEmpty(apiKey) then (wasLoggedIn, Some(ServerError(LoginWithoutApiKey)))
      else (true, Some(LoginSuccessful(TestUser)))
    case LogInfoMessage(_) =>
      (wasLoggedIn, if wasLoggedIn then None else Some(ServerError(MessageWithoutLogin)))
    case _ => (wasLoggedIn, Some(UnknownMessage(describe(message) + NotSupported)))
  }

  /** A reply and the connection it is sent to. */
  datatype Reply = Reply(to: Connection, message: Message)

  /** A message arriving on a connection: both `ClientDataReceived` handlers
      run in subscription order, first the mock server's, which records it
      as `LastMessage`, then `SendBackToClient`. */
  function Receive(s: OnlineServer, connection: Connection, message: Message, describe: Message -> string)
    : (r: (OnlineServer, seq<Event<Connection, Message>>, seq<Reply>))
    ensures r.0.mock.base == s.mock.base && r.0.mock.lastMessage == Some(message)
    ensures r.1 == [ClientDataReceived(connection, message)]
    ensures |r.2| <= 1
    ensures forall i :: 0 <= i < |r.2| ==> r.2[i].to == connection
    ensures s.wasLoggedInSuccessfully ==> r.0.wasLoggedInSuccessfully
  {
    var (mock, events) := MockServerModel.OnClientDataReceived(s.mock, connection, message);
    var (loggedIn, reply) := SendBackToClient(s.wasLoggedInSuccessfully, message, describe);
    (OnlineServer(mock, loggedIn), events, if reply.Some? then [Reply(connection, reply.value)] else [])
  }

  /** A sequence of messages on one connection. */
  function ReceiveAll(s: OnlineServer, connection: Connection, messages: seq<Message>, describe: Message -> string)
    : (r: (OnlineServer, seq<Reply>))
    decreases |messages|
  {
    if |messages| == 0 then (s, [])
    else
      var first := Receive(s, connection, messages[0], describe);
      var rest := ReceiveAll(first.0, connection, messages[1..], describe);
      (rest.0, first.2 + rest.1)
  }

  /** The server's login flag is monotone, every reply goes back to the
      connection the messages came from, and there is at most one reply per
      message. */
  lemma {:induction false} ReceiveAllInvariants(s: OnlineServer, connection: Connection,
                                                messages: seq<Message>, describe: Message -> string)
    ensures var r := ReceiveAll(s, connection, messages, describe);
      && (s.wasLoggedInSuccessfully ==> r.0.wasLoggedInSuccessfully)
      && |r.1| <= |messages|
      && (forall i :: 0 <= i < |r.1| ==> r.1[i].to == connection)
    decreases |messages|
  {
    if |messages| > 0 {
      var first := Receive(s, connection, messages[0], describe);
      ReceiveAllInvariants(first.0, connection, messages[1..], describe);
      var rest := ReceiveAll(first.0, connection, messages[1..], describe);
      var all := first.2 + rest.1;
      forall i | 0 <= i < |all| ensures all[i].to == connection {
        if i >= |first.2| {
          assert all[i] == rest.1[i - |first.2|];
        }
      }
    }
  }

  /** The login handshake end to end: the connected client sends its login
      request, the server answers, and the client handles the answer. With
      an API key both sides end up logged in and the client's `LoggedIn`
      runs; without one nobody is logged in and the client's error callback,
      if any, gets the server's refusal. */
  lemma Handshake(client: OnlineServiceConnection.Connection, server: OnlineServer,
                  connection: Connection, apiKey: Option<string>, projectName: string,
                  describe: Message -> string)
    requires !server.wasLoggedInSuccessfully && !client.isLoggedIn
    ensures var sent := OnlineServiceConnection.OnConnected(apiKey, projectName);
      var received := Receive(server, connection, sent[0], describe);
      && |received.2| == 1
      && var answer := OnlineServiceConnection.OnDataReceived(client, received.2[0].message);
      && answer.error.None?
      && (!ContentMetaDataModel.IsNullOrEmpty(apiKey) ==>
            && received.0.wasLoggedInSuccessfully
            && answer.state.isLoggedIn
            && answer.callbacks == (if client.hasLoggedIn then [OnlineServiceConnection.LoggedIn] else []))
      && (ContentMetaDataModel.IsNullOrEmpty(apiKey) ==>
            && !received.0.wasLoggedInSuccessfully
            && !answer.state.isLoggedIn
            && answer.callbacks == (if client.hasServerErrorHappened
                                    then [OnlineServiceConnection.ServerErrorHappened(LoginWithoutApiKey)]
                                    else []))
  {
  }
}

=== FILE: mock_server.dfy ===
/** The in-process server used by the tests (Networking/Mocks/MockServer.cs):
    connections are registered and cleared directly, received messages are
    forwarded to every connection of the sending client, and the server
    remembers the last message it saw.

    A `MockClient` is identified by a number. Each `new MockConnection` is a
    fresh object; the model gives it a serial number no earlier connection
    has. `ReceiveMessage` decodes its bytes with the object codec, which is
    not part of this model: the decoded message is passed in. */
module MockServerModel {
  import opened Wrappers
  import opened ServerRegistry

  type MockClient = nat

  /** `new MockConnection(client)`; `serial` tells apart connections of the
      same client. */
  datatype Connection = MockConnection(client: MockClient, serial: nat)

  datatype MockServer<M> = MockServer(base: Server<Connection>, lastMessage: Option<M>, nextSerial: nat)

  /** Every registered connection was created before `nextSerial`. */
  predicate Valid<M>(ms: MockServer<M>) {
    forall c :: c in ms.base.connectedClients ==> c.serial < ms.nextSerial
  }

  /** `new MockServer()`: not running, port 0, no clients, no message yet. */
  function New<M>(): (ms: MockServer<M>)
    ensures Valid(ms)
    ensures !ms.base.isRunning && ms.base.listenPort == 0
    ensures NumberOfConnectedClients(ms.base) == 0 && ms.lastMessage.None?
  {
    MockServer(Server(false, 0, [], multiset{}), None, 0)
  }

  /** `Start`: running, on the given port; the clients are untouched. */
  function Start<M>(ms: MockServer<M>, listenPort: int): (r: MockServer<M>)
    ensures r.base.isRunning && r.base.listenPort == listenPort
    ensures r.base.connectedClients == ms.base.connectedClients
    ensures r.lastMessage == ms.lastMessage
    ensures Valid(ms) ==> Valid(r)
  {
    ms.(base := ms.base.(isRunning := true, listenPort := listenPort))
  }

  /** `ClientConnectedToServer`: a new connection wrapping the client is
      appended directly to the list, without raising `ClientConnected`. */
  function ClientConnectedToServer<M>(ms: MockServer<M>, client: MockClient): (r: MockServer<M>)
    requires Valid(ms)
    ensures Valid(r)
    ensures NumberOfConnectedClients(r.base) == NumberOfConnectedClients(ms.base) + 1
    ensures var added := r.base.connectedClients[|ms.base.connectedClients|];
      && r.base.connectedClients == ms.base.connectedClients + [added]
      && added.client == client
      && added !in ms.base.connectedClients
    ensures r.base.isRunning == ms.base.isRunning && r.base.listenPort == ms.base.listenPort
    ensures r.lastMessage == ms.lastMessage
  {
    var connection := MockConnection(client, ms.nextSerial);
    MockServer(ms.base.(connectedClients := ms.base.connectedClients + [connection]),
               ms.lastMessage, ms.nextSerial + 1)
  }

  /** `ClientDisconnectedFromServer`: every connection is dropped at once,
      without raising `ClientDisconnected`. */
  function ClientDisconnectedFromServer<M>(ms: MockServer<M>): (r: MockServer<M>)
    ensures Valid(r)
    ensures NumberOfConnectedClients(r.base) == 0
    ensures r.base.isRunning == ms.base.isRunning && r.base.listenPort == ms.base.listenPort
    ensures r.lastMessage == ms.lastMessage
  {
    ms.(base := ms.base.(connectedClients := []))
  }

  /** `Server.OnClientDataReceived` on a mock server: the event is raised,
      and the handler the constructor subscribed stores the message as
      `LastMessage`. */
  function OnClientDataReceived<M>(ms: MockServer<M>, connection: Connection, message: M)
    : (r: (MockServer<M>, seq<Event<Connection, M>>))
    ensures r.0.base == ms.base && r.0.nextSerial == ms.nextSerial
    ensures r.0.lastMessage == Some(message)
    ensures r.1 == [ClientDataReceived(connection, message)]
  {
    var step := ServerRegistry.OnClientDataReceived(ms.base, connection, message);
    (ms.(lastMessage := Some(message)), step.events)
  }

  /** The connections in `cs` that wrap `client`, in order. */
  function ConnectionsOf(cs: seq<Connection>, client: MockClient): (r: seq<Connection>)
    ensures forall c :: c in r ==> c in cs && c.client == client
    ensures forall c :: c in cs && c.client == client ==> c in r
  {
    if |cs| == 0 then []
    else (if cs[0].client == client then [cs[0]] else []) + ConnectionsOf(cs[1..], client)
  }

  /** The `ClientDataReceived` events that forward `message` from each of
      `cs`, in order. */
  function Forwarded<M>(cs: seq<Connection>, message: M): (r: seq<Event<Connection, M>>)
    ensures |r| == |cs|
    ensures forall i :: 0 <= i < |cs| ==> r[i] == ClientDataReceived(cs[i], message)
  {
    if |cs| == 0 then [] else [ClientDataReceived(cs[0], message)] + Forwarded(cs[1..], message)
  }

  /** The `foreach` of `ReceiveMessage` over the connections `cs`. */
  function ForwardTo<M>(ms: MockServer<M>, cs: seq<Connection>, client: MockClient, message: M)
    : (r: (MockServer<M>, seq<Event<Connection, M>>))
    ensures r.0.base == ms.base && r.0.nextSerial == ms.nextSerial
    ensures r.1 == Forwarded(ConnectionsOf(cs, client), message)
    ensures r.0.lastMessage == if |r.1| > 0 then Some(message) else ms.lastMessage
    decreases |cs|
  {
    if |cs| == 0 then (ms, [])
    else
      var first := if cs[0].client == client then OnClientDataReceived(ms, cs[0], message) else (ms, []);
      var rest := ForwardTo(first.0, cs[1..], client, message);
      assert Forwarded(ConnectionsOf(cs, client), message)
          == first.1 + Forwarded(ConnectionsOf(cs[1..], client), message) by {
        ForwardedAppend(if cs[0].client == client then [cs[0]] else [], ConnectionsOf(cs[1..], client), message);
      }
      (rest.0, first.1 + rest.1)
  }

  lemma ForwardedAppend<M>(a: seq<Connection>, b: seq<Connection>, message: M)
    ensures Forwarded(a + b, message) == Forwarded(a, message) + Forwarded(b, message)
  {
    var l := Forwarded(a + b, message);
    var r := Forwarded(a, message) + Forwarded(b, message);
    assert |l| == |r|;
    forall i | 0 <= i < |l| ensures l[i] == r[i] {
      if i >= |a| {
        assert (a + b)[i] == b[i - |a|];
      }
    }
  }

  /** `ReceiveMessage`: the message goes once to every registered connection
      of the sending client, in list order, and to no other connection. The
      list itself is unchanged. */
  function ReceiveMessage<M>(ms: MockServer<M>, client: MockClient, message: M)
    : (r: (MockServer<M>, seq<Event<Connection, M>>))
    ensures r.0.base == ms.base && r.0.nextSerial == ms.nextSerial
    ensures r.1 == Forwarded(ConnectionsOf(ms.base.connectedClients, client), message)
    ensures |r.1| == |ConnectionsOf(ms.base.connectedClients, client)|
    ensures forall i :: 0 <= i < |r.1| ==>
      && r.1[i].ClientDataReceived?
      && r.1[i].client in ms.base.connectedClients
      && r.1[i].client.client == client
      && r.1[i].message == message
    ensures forall c :: c in ms.base.connectedClients && c.client == client ==>
      ClientDataReceived(c, message) in r.1
    ensures r.0.lastMessage == if |r.1| > 0 then Some(message) else ms.lastMessage
  {
    var r := ForwardTo(ms, ms.base.connectedClients, client, message);
    var cs := ConnectionsOf(ms.base.connectedClients, client);
    assert forall c :: c in cs ==> ClientDataReceived(c, message) in r.1 by {
      forall c | c in cs ensures ClientDataReceived(c, message) in r.1 {
        var i :| 0 <= i < |cs| && cs[i] == c;
        assert r.1[i] == ClientDataReceived(c, message);
      }
    }
    r
  }

  /** `LastMessage` is the message of the most recent `ClientDataReceived`
      event, whatever sequence of receptions produced it. */
  function ReceiveAll<M>(ms: MockServer<M>, deliveries: seq<(MockClient, M)>)
    : (r: (MockServer<M>, seq<Event<Connection, M>>))
    ensures r.0.base == ms.base
    ensures forall i :: 0 <= i < |r.1| ==> r.1[i].ClientDataReceived?
    ensures r.0.lastMessage == if |r.1| > 0 then Some(r.1[|r.1| - 1].message) else ms.lastMessage
    decreases |deliveries|
  {
    if |deliveries| == 0 then (ms, [])
    else
      var first := ReceiveMessage(ms, deliveries[0].0, deliveries[0].1);
      var rest := ReceiveAll(first.0, deliveries[1..]);
      (rest.0, first.1 + rest.1)
  }

  /** The recorded scenarios: a fresh server listens on port 0 with no
      clients; one client connecting makes one; starting it on port 800
      makes it run there. */
  lemma ServerScenarios()
    ensures var ms := New<int>();
      && ms.base.listenPort == 0 && NumberOfConnectedClients(ms.base) == 0
      && NumberOfConnectedClients(ClientConnectedToServer(ms, 1).base) == 1
      && Start(ms, 800).base.isRunning && Start(ms, 800).base.listenPort == 800
  {
  }

  /** Connecting the same client twice gives two distinct connections, and a
      message from it is forwarded twice. */
  lemma TwoConnectionsOneClient<M>(client: MockClient, message: M)
    ensures var ms := ClientConnectedToServer(ClientConnectedToServer(New<M>(), client), client);
      && |ReceiveMessage(ms, client, message).1| == 2
      && ms.base.connectedClients[0] != ms.base.connectedClients[1]
  {
    var ms := ClientConnectedToServer(ClientConnectedToServer(New<M>(), client), client);
    var cs := ms.base.connectedClients;
    assert cs == [MockConnection(client, 0), MockConnection(client, 1)];
    assert ConnectionsOf(cs[1..][1..], client) == [];
    assert ConnectionsOf(cs[1..], client) == cs[1..];
    assert ConnectionsOf(cs, client) == cs;
  }
}

=== FILE: numbers.dfy ===
/** Fixed-width integer arithmetic of the source made explicit: bytes and
    the wrap-around of 32-bit signed `int`. */
module Numbers {

  /** One octet of a byte stream. */
  type Byte = x: int | 0 <= x < 256

  const TwoTo31: int := 0x8000_0000
  const TwoTo32: int := 0x1_0000_0000

  /** The values an `int` (System.Int32) can hold. */
  predicate IsInt32(x: int) {
    -TwoTo31 <= x < TwoTo31
  }

  /** Unchecked 32-bit two's-complement wrap-around, the default for `int`
      arithmetic outside a `checked` context. */
  function Wrap32(x: int): (r: int)
    ensures IsInt32(r)
    ensures (r - x) % TwoTo32 == 0
    ensures IsInt32(x) ==> r == x
  {
    var m := x % TwoTo32;
    if m < TwoTo31 then m else m - TwoTo32
  }

  /** `BitConverter.ToInt32` on four bytes in little-endian (native x86) order. */
  function Int32FromLittleEndian(b0: Byte, b1: Byte, b2: Byte, b3: Byte): (r: int)
    ensures IsInt32(r)
    ensures 0 <= r ==> r == b0 + 256 * b1 + 65536 * b2 + 16777216 * b3
    ensures r < 0 <==> b3 >= 128
  {
    var u := b0 + 256 * b1 + 65536 * b2 + 16777216 * b3;
    if u < TwoTo31 then u else u - TwoTo32
  }

  /** Only four bytes of 255 read as -1. */
  lemma MinusOneBytes(b0: Byte, b1: Byte, b2: Byte, b3: Byte)
    ensures Int32FromLittleEndian(b0, b1, b2, b3) == -1 <==> b0 == b1 == b2 == b3 == 255
  {
  }

  /** The four little-endian bytes of a non-negative `int`, as `BinaryWriter` writes them. */
  function Int32ToLittleEndian(n: int): (r: seq<Byte>)
    requires 0 <= n < TwoTo31
    ensures |r| == 4
    ensures Int32FromLittleEndian(r[0], r[1], r[2], r[3]) == n
  {
    var q1 := n / 256;
    var q2 := q1 / 256;
    var q3 := q2 / 256;
    assert n == n % 256 + 256 * q1;
    assert q1 == q1 % 256 + 256 * q2;
    assert q2 == q2 % 256 + 256 * q3;
    assert q3 < 128 by {
      assert q1 < 0x80_0000;
      assert q2 < 0x8000;
    }
    [n % 256, q1 % 256, q2 % 256, q3]
  }
}

=== FILE: online_service_connection.dfy ===
/** The client end of the online content service
    (Networking/Tcp/OnlineServiceConnection.cs): the dispatch of incoming
    messages to the callbacks the owner installed, the logged-in flag, and
    the login request sent once the socket connects. The socket itself and
    the timeout are not part of this model.

    Callbacks are returned as a trace. Which callbacks are installed is part
    of the state: a `null` delegate is a flag that is false. */
module OnlineServiceConnection {
  import opened Wrappers
  import opened Messages

  datatype Callback =
    | ServerErrorHappened(text: string)
    | LoggedIn
    | LoadContentMetaData
    | ContentReadyCallback

  datatype Connection = Connection(
    hasServerErrorHappened: bool,
    hasLoadContentMetaData: bool,
    hasContentReady: bool,
    hasLoggedIn: bool,
    isLoggedIn: bool)

  /** Invoking the `null` delegate `loadContentMetaData`. */
  datatype ConnectionError = NullReference

  datatype Outcome = Outcome(state: Connection, callbacks: seq<Callback>, error: Option<ConnectionError>)

  /** `CreateForAppRunner` before any content loader subscribed: the error
      and ready callbacks as given, nothing else, not logged in. */
  function CreateForAppRunner(hasErrorHappened: bool, hasReady: bool): (c: Connection)
    ensures !c.isLoggedIn && !c.hasLoadContentMetaData && !c.hasLoggedIn
    ensures c.hasServerErrorHappened == hasErrorHappened && c.hasContentReady == hasReady
  {
    Connection(hasErrorHappened, false, hasReady, false, false)
  }

  /** The `Connected` handler `CreateForAppRunner` installs: the messages it
      sends. */
  function OnConnected(apiKey: Option<string>, projectName: string): (sent: seq<Message>)
    ensures |sent| == 1 && sent[0].LoginRequest?
    ensures sent[0].apiKey == apiKey && sent[0].projectName == projectName
  {
    [LoginRequest(apiKey, projectName)]
  }

  /** `OnDataReceived`: at most one branch runs. A server error or an
      unknown message goes to the error callback when there is one, and is
      otherwise ignored; `LoginSuccessful` sets the flag and calls
      `LoggedIn`; `ContentReady` calls `loadContentMetaData` (which throws
      when it is `null`) and then `contentReady`. Only the logged-in flag
      ever changes. */
  function OnDataReceived(c: Connection, message: Message): (r: Outcome)
    ensures r.state == c.(isLoggedIn := r.state.isLoggedIn)
    ensures r.state.isLoggedIn <==> c.isLoggedIn || message.LoginSuccessful?
    ensures message.ServerError? && c.hasServerErrorHappened ==>
      r == Outcome(c, [ServerErrorHappened(message.error)], None)
    ensures message.UnknownMessage? && c.hasServerErrorHappened ==>
      r == Outcome(c, [ServerErrorHappened(message.text)], None)
    ensures message.LoginSuccessful? ==>
      r.callbacks == (if c.hasLoggedIn then [LoggedIn] else []) && r.error.None?
    ensures message.ContentReady? && !c.hasLoadContentMetaData ==>
      r == Outcome(c, [], Some(NullReference))
    ensures message.ContentReady? && c.hasLoadContentMetaData ==>
      r == Outcome(c, [LoadContentMetaData] + (if c.hasContentReady then [ContentReadyCallback] else []), None)
    ensures !(message.ServerError? || message.UnknownMessage? || message.LoginSuccessful? || message.ContentReady?) ==>
      r == Outcome(c, [], None)
    ensures (message.ServerError? || message.UnknownMessage?) && !c.hasServerErrorHappened ==>
      r == Outcome(c, [], None)
  {
    if message.ServerError? && c.hasServerErrorHappened then
      Outcome(c, [ServerErrorHappened(message.error)], None)
    else if message.UnknownMessage? && c.hasServerErrorHappened then
      Outcome(c, [ServerErrorHappened(message.text)], None)
    else if message.LoginSuccessful? then
      Outcome(c.(isLoggedIn := true), if c.hasLoggedIn then [LoggedIn] else [], None)
    else if message.ContentReady? then
      if !c.hasLoadContentMetaData then Outcome(c, [], Some(NullReference))
      else Outcome(c, [LoadContentMetaData] + (if c.hasContentReady then [ContentReadyCallback] else []), None)
    else Outcome(c, [], None)
  }

  /** A stream of messages handled one after another until one throws. */
  function OnDataReceivedAll(c: Connection, messages: seq<Message>): (r: Outcome)
    decreases |messages|
  {
    if |messages| == 0 then Outcome(c, [], None)
    else
      var first := OnDataReceived(c, messages[0]);
      if first.error.Some? then first
      else
        var rest := OnDataReceivedAll(first.state, messages[1..]);
        Outcome(rest.state, first.callbacks + rest.callbacks, rest.error)
  }

  /** `contentReady` only ever runs right after `loadContentMetaData`. */
  predicate ReadyAfterLoad(trace: seq<Callback>) {
    forall i :: 0 <= i < |trace| && trace[i] == ContentReadyCallback ==>
      0 < i && trace[i - 1] == LoadContentMetaData
  }

  lemma ReadyAfterLoadAppend(a: seq<Callback>, b: seq<Callback>)
    requires ReadyAfterLoad(a) && ReadyAfterLoad(b)
    requires |b| > 0 ==> b[0] != ContentReadyCallback
    ensures ReadyAfterLoad(a + b)
  {
    var t := a + b;
    forall i | 0 <= i < |t| && t[i] == ContentReadyCallback
      ensures 0 < i && t[i - 1] == LoadContentMetaData
    {
      if i >= |a| {
        assert b[i - |a|] == ContentReadyCallback;
      }
    }
  }

  /** One message's callbacks already keep `contentReady` right after
      `loadContentMetaData`, and never start with `contentReady`; the
      message changes at most the login flag, and only by setting it. */
  lemma OneDispatch(c: Connection, message: Message)
    ensures var r := OnDataReceived(c, message);
      && ReadyAfterLoad(r.callbacks) && (|r.callbacks| > 0 ==> r.callbacks[0] != ContentReadyCallback)
      && (c.isLoggedIn ==> r.state.isLoggedIn)
      && r.state == c.(isLoggedIn := r.state.isLoggedIn)
  {
  }

  /** The invariants of one message and of the stream after it hold for
      both together. */
  lemma DispatchCombine(c: Connection, first: Outcome, rest: Outcome)
    requires ReadyAfterLoad(first.callbacks) && (|first.callbacks| > 0 ==> first.callbacks[0] != ContentReadyCallback)
    requires (c.isLoggedIn ==> first.state.isLoggedIn) && first.state == c.(isLoggedIn := first.state.isLoggedIn)
    requires ReadyAfterLoad(rest.callbacks) && (|rest.callbacks| > 0 ==> rest.callbacks[0] != ContentReadyCallback)
    requires (first.state.isLoggedIn ==> rest.state.isLoggedIn)
    requires rest.state == first.state.(isLoggedIn := rest.state.isLoggedIn)
    ensures var r := Outcome(rest.state, first.callbacks + rest.callbacks, rest.error);
      && (c.isLoggedIn ==> r.state.isLoggedIn)
      && r.state == c.(isLoggedIn := r.state.isLoggedIn)
      && ReadyAfterLoad(r.callbacks)
      && (|r.callbacks| > 0 ==> r.callbacks[0] != ContentReadyCallback)
  {
    ReadyAfterLoadAppend(first.callbacks, rest.callbacks);
    if |first.callbacks| > 0 {
      assert (first.callbacks + rest.callbacks)[0] == first.callbacks[0];
    } else {
      assert first.callbacks + rest.callbacks == rest.callbacks;
    }
  }

  /** Over any stream of messages: once logged in, the connection stays
      logged in; the installed callbacks never change; and `contentReady`
      is always preceded directly by `loadContentMetaData`. */
  lemma {:induction false} DispatchInvariants(c: Connection, messages: seq<Message>)
    ensures var r := OnDataReceivedAll(c, messages);
      && (c.isLoggedIn ==> r.state.isLoggedIn)
      && r.state == c.(isLoggedIn := r.state.isLoggedIn)
      && ReadyAfterLoad(r.callbacks)
      && (|r.callbacks| > 0 ==> r.callbacks[0] != ContentReadyCallback)
    decreases |messages|
  {
    if |messages| > 0 {
      var first := OnDataReceived(c, messages[0]);
      OneDispatch(c, messages[0]);
      if first.error.None? {
        DispatchInvariants(first.state, messages[1..]);
        var rest := OnDataReceivedAll(first.state, messages[1..]);
        assert OnDataReceivedAll(c, messages) == Outcome(rest.state, first.callbacks + rest.callbacks, rest.error);
        DispatchCombine(c, first, rest);
      } else {
        assert OnDataReceivedAll(c, messages) == first;
      }
    }
  }
}

=== FILE: server.dfy ===
/** The client registry every server keeps (Networking/Server.cs): the list
    of connected clients, the events raised when it changes, and disposal of
    every client over a snapshot of the list.

    Clients are compared by identity, so a client is any value of an
    equality type `C`; messages are opaque values of type `M`. Events are
    returned as a trace instead of being invoked: an event with no
    subscriber reaches nobody, which the trace represents by the event
    simply not being observed. `OnClientConnected` subscribes a handler to
    the client's `Disconnected` and `DataReceived` events on every call and
    never takes it off again, so the server counts those subscriptions per
    client; what the client's own events then do is `ClientRaisedDisconnected`
    and `ClientRaisedDataReceived`. The `lock` statements only serialise
    access and are not modelled. */
module ServerRegistry {

  datatype Event<C, M> =
    | ClientConnected(client: C)
    | ClientDisconnected(client: C)
    | ClientDataReceived(client: C, message: M)

  /** `subscriptions[c]` is how many handler pairs `OnClientConnected` has
      attached to the client `c`. */
  datatype Server<C> = Server(isRunning: bool, listenPort: int, connectedClients: seq<C>, subscriptions: multiset<C>)

  /** The state after an operation and the events it raised, in order. */
  datatype Step<C, M> = Step(server: Server<C>, events: seq<Event<C, M>>)

  /** `NumberOfConnectedClients`: registrations, duplicates included. */
  function NumberOfConnectedClients<C>(s: Server<C>): (r: nat)
    ensures r == |s.connectedClients|
    ensures r == |multiset(s.connectedClients)|
  {
    |s.connectedClients|
  }

  /** Every registration came with a subscription: true of a server whose
      clients all arrived through `OnClientConnected`. */
  predicate Valid<C(==)>(s: Server<C>) {
    multiset(s.connectedClients) <= s.subscriptions
  }

  /** `k` copies of `x`. */
  function Repeat<T>(x: T, k: nat): (r: seq<T>)
    ensures |r| == k
    ensures forall i :: 0 <= i < k ==> r[i] == x
  {
    if k == 0 then [] else [x] + Repeat(x, k - 1)
  }

  /** How often `x` occurs in `s`. */
  function Count<C(==)>(s: seq<C>, x: C): (r: nat)
    ensures r == multiset(s)[x]
  {
    if |s| == 0 then 0
    else
      assert s == [s[0]] + s[1..];
      (if s[0] == x then 1 else 0) + Count(s[1..], x)
  }

  /** The position of the first occurrence of `x` in `s`, or -1. */
  function IndexOf<C(==)>(s: seq<C>, x: C): (r: int)
    ensures -1 <= r < |s|
    ensures r == -1 <==> x !in s
    ensures 0 <= r ==> s[r] == x && x !in s[..r]
  {
    if |s| == 0 then -1
    else if s[0] == x then 0
    else
      var i := IndexOf(s[1..], x);
      if i == -1 then -1
      else
        assert s[..i + 1] == [s[0]] + s[1..][..i];
        i + 1
  }

  /** `List<T>.Remove`: drop the first occurrence of `x`, if any. */
  function RemoveFirst<C(==)>(s: seq<C>, x: C): (r: seq<C>)
    ensures x !in s ==> r == s
    ensures x in s ==> |r| == |s| - 1
    ensures multiset(r) == multiset(s) - multiset{x}
    ensures x in s ==> r[..IndexOf(s, x)] == s[..IndexOf(s, x)]
    ensures x in s ==> r[IndexOf(s, x)..] == s[IndexOf(s, x) + 1..]
  {
    var i := IndexOf(s, x);
    if i < 0 then s
    else
      assert s == s[..i] + [x] + s[i + 1..];
      s[..i] + s[i + 1..]
  }

  /** The elements of `s` that are not in `gone`, in order. */
  function FilterOut<C(==)>(s: seq<C>, gone: seq<C>): (r: seq<C>)
    ensures forall x :: x in r ==> x in s && x !in gone
    ensures forall x :: x in s && x !in gone ==> x in r
  {
    if |s| == 0 then []
    else
      assert s == [s[0]] + s[1..];
      (if s[0] in gone then [] else [s[0]]) + FilterOut(s[1..], gone)
  }

  lemma {:induction false} FilterOutAppend<C>(a: seq<C>, b: seq<C>, gone: seq<C>)
    ensures FilterOut(a + b, gone) == FilterOut(a, gone) + FilterOut(b, gone)
    decreases |a|
  {
    if |a| == 0 {
      assert a + b == b;
    } else {
      assert (a + b)[1..] == a[1..] + b;
      FilterOutAppend(a[1..], b, gone);
    }
  }

  /** Removing one occurrence of a client that is filtered out anyway
      changes nothing. */
  lemma RemoveFirstFilteredOut<C>(s: seq<C>, x: C, gone: seq<C>)
    requires x in gone
    ensures FilterOut(RemoveFirst(s, x), gone) == FilterOut(s, gone)
  {
    if x in s {
      var i := RemoveFirstSplit(s, x);
      SkipFilteredOut(s[..i], x, s[i + 1..], gone);
    }
  }

  /** `RemoveFirst` cuts the list around the first occurrence. */
  lemma RemoveFirstSplit<C>(s: seq<C>, x: C) returns (i: nat)
    requires x in s
    ensures i < |s| && s == s[..i] + [x] + s[i + 1..]
    ensures RemoveFirst(s, x) == s[..i] + s[i + 1..]
  {
    i := IndexOf(s, x);
    assert s == s[..i] + [x] + s[i + 1..];
  }

  lemma SkipFilteredOut<C>(a: seq<C>, x: C, b: seq<C>, gone: seq<C>)
    requires x in gone
    ensures FilterOut(a + [x] + b, gone) == FilterOut(a + b, gone)
  {
    SingleFilteredOut(x, gone);
    FilterOutAppend(a + [x], b, gone);
    FilterOutAppend(a, [x], gone);
    FilterOutAppend(a, b, gone);
  }

  lemma SingleFilteredOut<C>(x: C, gone: seq<C>)
    requires x in gone
    ensures FilterOut([x], gone) == []
  {
  }

  /** Filtering by `gone` and then by `more` is filtering by both. */
  lemma {:induction false} FilterOutTwice<C>(s: seq<C>, gone: seq<C>, more: seq<C>)
    ensures FilterOut(FilterOut(s, gone), more) == FilterOut(s, gone + more)
    decreases |s|
  {
    if |s| > 0 {
      FilterOutTwice(s[1..], gone, more);
      var head := if s[0] in gone then [] else [s[0]];
      FilterOutAppend(head, FilterOut(s[1..], gone), more);
    }
  }

  /** Filtering only ever drops registrations. */
  lemma {:induction false} FilterOutShrinks<C>(s: seq<C>, gone: seq<C>)
    ensures multiset(FilterOut(s, gone)) <= multiset(s)
    decreases |s|
  {
    if |s| > 0 {
      FilterOutShrinks(s[1..], gone);
      assert s == [s[0]] + s[1..];
    }
  }

  /** Filtering out nothing that occurs leaves the list alone. */
  lemma {:induction false} FilterOutNothing<C>(s: seq<C>, gone: seq<C>)
    requires forall x :: x in gone ==> x !in s
    ensures FilterOut(s, gone) == s
    decreases |s|
  {
    if |s| > 0 {
      assert s[0] in s;
      FilterOutNothing(s[1..], gone);
      assert s == [s[0]] + s[1..];
    }
  }

  /** `OnClientConnected`: both handlers are subscribed to the client once
      more, the client is appended, without a duplicate check, and
      `ClientConnected` is raised once with it. */
  function OnClientConnected<C(==), M>(s: Server<C>, client: C): (r: Step<C, M>)
    ensures r.server.connectedClients == s.connectedClients + [client]
    ensures r.server.subscriptions == s.subscriptions + multiset{client}
    ensures NumberOfConnectedClients(r.server) == NumberOfConnectedClients(s) + 1
    ensures r.server.isRunning == s.isRunning && r.server.listenPort == s.listenPort
    ensures r.events == [ClientConnected(client)]
    ensures Valid(s) ==> Valid(r.server)
  {
    Step(s.(connectedClients := s.connectedClients + [client], subscriptions := s.subscriptions + multiset{client}),
         [ClientConnected(client)])
  }

  /** `OnClientDisconnected`, the handler itself: one occurrence of the
      client leaves the list (none if it was not registered) and
      `ClientDisconnected` is raised in either case. */
  function OnClientDisconnected<C(==), M>(s: Server<C>, client: C): (r: Step<C, M>)
    ensures multiset(r.server.connectedClients) == multiset(s.connectedClients) - multiset{client}
    ensures client !in s.connectedClients ==> r.server == s
    ensures client in s.connectedClients ==>
      NumberOfConnectedClients(r.server) == NumberOfConnectedClients(s) - 1
    ensures r.server == s.(connectedClients := r.server.connectedClients)
    ensures r.events == [ClientDisconnected(client)]
    ensures Valid(s) ==> Valid(r.server)
  {
    Step(s.(connectedClients := RemoveFirst(s.connectedClients, client)), [ClientDisconnected(client)])
  }

  /** `OnClientDataReceived`: the message is raised as `ClientDataReceived`
      together with the client it came from; the registry is untouched. */
  function OnClientDataReceived<C, M>(s: Server<C>, client: C, message: M): (r: Step<C, M>)
    ensures r.server == s
    ensures r.events == [ClientDataReceived(client, message)]
  {
    Step(s, [ClientDataReceived(client, message)])
  }

  /** `k` runs of the `Disconnected` handler for `client`. Once there are at
      least as many runs as registrations, every registration is gone. */
  function RunDisconnectHandlers<C(==), M>(s: Server<C>, client: C, k: nat): (r: Step<C, M>)
    ensures r.server == s.(connectedClients := r.server.connectedClients)
    ensures r.events == Repeat(ClientDisconnected(client), k)
    ensures multiset(r.server.connectedClients) == multiset(s.connectedClients) - multiset(Repeat(client, k))
    ensures Count(s.connectedClients, client) <= k ==>
      r.server.connectedClients == FilterOut(s.connectedClients, [client])
    decreases k
  {
    if k == 0 then
      NoRunsNoChange(s.connectedClients, client);
      Step(s, [])
    else
      var first := OnClientDisconnected<C, M>(s, client);
      var rest := RunDisconnectHandlers<C, M>(first.server, client, k - 1);
      RepeatRemoves(multiset(s.connectedClients), client, k);
      RemoveFirstFilteredOut(s.connectedClients, client, [client]);
      Step(rest.server, first.events + rest.events)
  }

  lemma NoRunsNoChange<C>(cs: seq<C>, client: C)
    ensures multiset(cs) - multiset(Repeat(client, 0)) == multiset(cs)
    ensures Count(cs, client) == 0 ==> FilterOut(cs, [client]) == cs
  {
    if client !in cs {
      FilterOutNothing(cs, [client]);
    }
  }

  /** Taking one copy away and then `k - 1` more takes `k` copies away. */
  lemma RepeatRemoves<C>(m: multiset<C>, x: C, k: nat)
    requires k > 0
    ensures (m - multiset{x}) - multiset(Repeat(x, k - 1)) == m - multiset(Repeat(x, k))
  {
    assert Repeat(x, k) == [x] + Repeat(x, k - 1);
    assert multiset(Repeat(x, k)) == multiset{x} + multiset(Repeat(x, k - 1));
  }

  /** The client's `Disconnected` event as it reaches the server: the
      handler runs once per `OnClientConnected` of that client, so each run
      removes one registration and raises `ClientDisconnected` once more. On
      a valid server one such event removes the client entirely. */
  function ClientRaisedDisconnected<C(==), M>(s: Server<C>, client: C): (r: Step<C, M>)
    ensures r.server == s.(connectedClients := r.server.connectedClients)
    ensures r.events == Repeat(ClientDisconnected(client), s.subscriptions[client])
    ensures multiset(r.server.connectedClients)
         == multiset(s.connectedClients) - multiset(Repeat(client, s.subscriptions[client]))
    ensures Valid(s) ==> r.server.connectedClients == FilterOut(s.connectedClients, [client])
    ensures Valid(s) ==> Valid(r.server) && client !in r.server.connectedClients
  {
    RunDisconnectHandlers(s, client, s.subscriptions[client])
  }

  /** The client's `DataReceived` event: the handler raises
      `ClientDataReceived` once per `OnClientConnected` of that client. */
  function ClientRaisedDataReceived<C(==), M>(s: Server<C>, client: C, message: M): (r: Step<C, M>)
    ensures r.server == s
    ensures r.events == Repeat(ClientDataReceived(client, message), s.subscriptions[client])
  {
    RunDataHandlers(s, client, message, s.subscriptions[client])
  }

  function RunDataHandlers<C, M>(s: Server<C>, client: C, message: M, k: nat): (r: Step<C, M>)
    ensures r.server == s
    ensures r.events == Repeat(ClientDataReceived(client, message), k)
  {
    if k == 0 then Step(s, [])
    else
      var rest := RunDataHandlers(s, client, message, k - 1);
      Step(s, OnClientDataReceived(s, client, message).events + rest.events)
  }

  /** A client that connects and then raises `Disconnected` leaves no
      registration behind, and every subscription the server ever made for
      it reports the disconnection. A client that was new gives back the
      very list it joined. */
  lemma ConnectThenDisconnect<C, M>(s: Server<C>, client: C)
    requires Valid(s)
    ensures var s1 := OnClientConnected<C, M>(s, client).server;
      var r := ClientRaisedDisconnected<C, M>(s1, client);
      && r.server.connectedClients == FilterOut(s.connectedClients, [client])
      && r.events == Repeat(ClientDisconnected(client), s.subscriptions[client] + 1)
      && (client !in s.connectedClients ==> r.server.connectedClients == s.connectedClients)
  {
    var s1 := OnClientConnected<C, M>(s, client).server;
    assert Valid(s1);
    var r := ClientRaisedDisconnected<C, M>(s1, client);
    assert r.server.connectedClients == FilterOut(s.connectedClients + [client], [client]);
    FilterOutLast(s.connectedClients, client);
    if client !in s.connectedClients {
      FilterOutNothing(s.connectedClients, [client]);
    }
  }

  lemma FilterOutLast<C>(cs: seq<C>, x: C)
    ensures FilterOut(cs + [x], [x]) == FilterOut(cs, [x])
  {
    FilterOutAppend(cs, [x], [x]);
    SingleFilteredOut(x, [x]);
    assert FilterOut(cs, [x]) + [] == FilterOut(cs, [x]);
  }

  /** No duplicate check: connecting a new client twice registers it twice
      and subscribes its handlers twice, so one `Disconnected` from it
      removes both registrations and reports the disconnection twice, and
      one message from it is raised twice. */
  lemma DoubleConnect<C, M>(s: Server<C>, client: C, message: M)
    requires Valid(s) && s.subscriptions[client] == 0
    ensures var s1 := OnClientConnected<C, M>(OnClientConnected<C, M>(s, client).server, client).server;
      && Count(s1.connectedClients, client) == 2
      && client !in ClientRaisedDisconnected<C, M>(s1, client).server.connectedClients
      && ClientRaisedDisconnected<C, M>(s1, client).events == [ClientDisconnected(client), ClientDisconnected(client)]
      && ClientRaisedDataReceived(s1, client, message).events
         == [ClientDataReceived(client, message), ClientDataReceived(client, message)]
  {
    var s1 := OnClientConnected<C, M>(OnClientConnected<C, M>(s, client).server, client).server;
    assert s1.connectedClients == s.connectedClients + [client] + [client];
    assert s1.subscriptions[client] == 2;
    assert Repeat(Event<C, M>.ClientDisconnected(client), 2) == [ClientDisconnected(client), ClientDisconnected(client)];
    assert Repeat(ClientDataReceived(client, message), 2)
        == [ClientDataReceived(client, message), ClientDataReceived(client, message)];
  }

  /** A client connecting and then raising `Disconnected`. */
  function ConnectAndLeave<C(==), M>(s: Server<C>, client: C): (r: Step<C, M>)
    requires Valid(s)
    ensures Valid(r.server)
    ensures r.server == s.(connectedClients := r.server.connectedClients,
                           subscriptions := s.subscriptions + multiset{client})
    ensures r.server.connectedClients == FilterOut(s.connectedClients, [client])
    ensures r.events == Repeat(ClientDisconnected(client), s.subscriptions[client] + 1)
  {
    ConnectThenDisconnect<C, M>(s, client);
    ClientRaisedDisconnected(OnClientConnected<C, M>(s, client).server, client)
  }

  /** The handlers stay subscribed after a disconnection: a client that
      disconnected and connected again reports its next disconnection
      twice. */
  lemma ReconnectReportsTwice<C, M>(s: Server<C>, client: C)
    requires Valid(s) && s.subscriptions[client] == 0
    ensures var r := ConnectAndLeave<C, M>(ConnectAndLeave<C, M>(s, client).server, client);
      && r.server.connectedClients == s.connectedClients
      && r.events == [ClientDisconnected(client), ClientDisconnected(client)]
  {
    assert client !in s.connectedClients;
    FilterOutNothing(s.connectedClients, [client]);
    assert Repeat(Event<C, M>.ClientDisconnected(client), 2) == [ClientDisconnected(client), ClientDisconnected(client)];
  }

  // ---------------------------------------------------------------------
  // Dispose

  /** The elements `x` of `s` with `p(x) == want`, in order. */
  function Filter<C>(s: seq<C>, p: C -> bool, want: bool): (r: seq<C>)
    ensures |r| <= |s|
    ensures forall x :: x in r ==> x in s && p(x) == want
    ensures forall x :: x in s && p(x) == want ==> x in r
  {
    if |s| == 0 then [] else (if p(s[0]) == want then [s[0]] else []) + Filter(s[1..], p, want)
  }

  lemma {:induction false} FilterAppend<C>(s: seq<C>, x: C, p: C -> bool, want: bool)
    ensures Filter(s + [x], p, want) == Filter(s, p, want) + (if p(x) == want then [x] else [])
    decreases |s|
  {
    if |s| == 0 {
      assert s + [x] == [x];
    } else {
      FilterAppend(s[1..], x, p, want);
      var head := if p(s[0]) == want then [s[0]] else [];
      FilterHead(s, x, p, want, head);
      FilterAssociative(head, Filter(s[1..], p, want), if p(x) == want then [x] else []);
    }
  }

  lemma FilterHead<C>(s: seq<C>, x: C, p: C -> bool, want: bool, head: seq<C>)
    requires |s| > 0 && head == if p(s[0]) == want then [s[0]] else []
    ensures Filter(s + [x], p, want) == head + Filter(s[1..] + [x], p, want)
    ensures Filter(s, p, want) == head + Filter(s[1..], p, want)
  {
    assert (s + [x])[1..] == s[1..] + [x];
    assert (s + [x])[0] == s[0];
  }

  lemma FilterAssociative<C>(a: seq<C>, b: seq<C>, c: seq<C>)
    ensures a + (b + c) == (a + b) + c
  {
  }

  /** Filtering out exactly the clients that satisfy `p` keeps the others. */
  lemma {:induction false} FilterOutMatches<C>(s: seq<C>, gone: seq<C>, p: C -> bool)
    requires forall x :: x in s ==> (x in gone <==> p(x))
    ensures FilterOut(s, gone) == Filter(s, p, false)
    decreases |s|
  {
    if |s| > 0 {
      assert s[0] in s;
      assert forall x :: x in s[1..] ==> x in s;
      FilterOutMatches(s[1..], gone, p);
    }
  }

  /** The events of disposing `cs` in order. `Client.Dispose` is
      idempotent: only the first disposal of a live client raises its
      `Disconnected`, which reports once per subscription; a later
      occurrence of the same client in `cs` raises nothing. */
  function DisposalEvents<C(==), M>(cs: seq<C>, raisesDisconnected: C -> bool, subscriptions: multiset<C>)
    : seq<Event<C, M>>
  {
    if |cs| == 0 then []
    else
      var x := cs[|cs| - 1];
      DisposalEvents(cs[..|cs| - 1], raisesDisconnected, subscriptions)
        + (if FirstDisposalRaises(cs[..|cs| - 1], x, raisesDisconnected)
           then Repeat(ClientDisconnected(x), subscriptions[x]) else [])
  }

  /** Disposing `x` after `earlier` raises `Disconnected` exactly when `x`
      is live and has not been disposed already. */
  predicate FirstDisposalRaises<C(==)>(earlier: seq<C>, x: C, raisesDisconnected: C -> bool) {
    raisesDisconnected(x) && x !in earlier
  }

  /** How many `ClientDisconnected(x)` events `events` holds. */
  function Reports<C(==), M>(events: seq<Event<C, M>>, x: C): nat {
    if |events| == 0 then 0
    else (if events[0] == ClientDisconnected(x) then 1 else 0) + Reports(events[1..], x)
  }

  lemma {:induction false} ReportsAppend<C, M>(a: seq<Event<C, M>>, b: seq<Event<C, M>>, x: C)
    ensures Reports(a + b, x) == Reports(a, x) + Reports(b, x)
    decreases |a|
  {
    if |a| == 0 {
      assert a + b == b;
    } else {
      assert (a + b)[1..] == a[1..] + b;
      ReportsAppend(a[1..], b, x);
    }
  }

  lemma {:induction false} ReportsRepeat<C, M>(y: C, k: nat, x: C)
    ensures Reports(Repeat(Event<C, M>.ClientDisconnected(y), k), x) == if x == y then k else 0
    decreases k
  {
    if k > 0 {
      ReportsRepeat<C, M>(y, k - 1, x);
    }
  }

  /** Disposing a list, with or without duplicates, reports each client's
      disconnection once per subscription if its disposal raises
      `Disconnected`, and never otherwise: a duplicated client does not
      report twice. */
  lemma {:induction false} DisposalReportsOnce<C, M>(cs: seq<C>, raisesDisconnected: C -> bool,
                                                     subscriptions: multiset<C>, x: C)
    ensures Reports(DisposalEvents<C, M>(cs, raisesDisconnected, subscriptions), x)
         == if x in cs && raisesDisconnected(x) then subscriptions[x] else 0
    decreases |cs|
  {
    if |cs| > 0 {
      var init, y := cs[..|cs| - 1], cs[|cs| - 1];
      assert cs == init + [y];
      DisposalReportsOnce<C, M>(init, raisesDisconnected, subscriptions, x);
      var tail: seq<Event<C, M>> :=
        if FirstDisposalRaises(init, y, raisesDisconnected) then Repeat(ClientDisconnected(y), subscriptions[y]) else [];
      ReportsAppend(DisposalEvents<C, M>(init, raisesDisconnected, subscriptions), tail, x);
      if FirstDisposalRaises(init, y, raisesDisconnected) {
        ReportsRepeat<C, M>(y, subscriptions[y], x);
      }
    }
  }

  /** Filtering out a client already filtered out changes nothing. */
  lemma {:induction false} FilterOutAgain<C>(s: seq<C>, gone: seq<C>, x: C)
    requires x in gone
    ensures FilterOut(s, gone + [x]) == FilterOut(s, gone)
    decreases |s|
  {
    if |s| > 0 {
      FilterOutAgain(s[1..], gone, x);
    }
  }

  /** What the disposal of `s.connectedClients[..i]` has done: on a valid
      server every client whose disposal raised `Disconnected` is gone from
      the live list, all of its registrations at once. */
  ghost predicate DisposedUpTo<C, M>(s: Server<C>, i: nat, raisesDisconnected: C -> bool,
                                         disposed: seq<C>, clients: seq<C>, events: seq<Event<C, M>>)
    requires i <= |s.connectedClients|
  {
    var snapshot := s.connectedClients;
    && disposed == snapshot[..i]
    && events == DisposalEvents(snapshot[..i], raisesDisconnected, s.subscriptions)
    && (Valid(s) ==> clients == FilterOut(snapshot, Filter(snapshot[..i], raisesDisconnected, true)))
  }

  lemma PrefixStep<C>(s: seq<C>, i: nat)
    requires i < |s|
    ensures s[..i + 1] == s[..i] + [s[i]]
    ensures s[..i + 1][..i] == s[..i]
  {
  }

  /** Disposing `snapshot[i]`: if that raises the client's `Disconnected`,
      the server's handlers for it run on the live list. */
  method DisposeOne<C(==), M>(s: Server<C>, i: nat, raisesDisconnected: C -> bool,
                              disposed: seq<C>, clients: seq<C>, events: seq<Event<C, M>>)
    returns (disposed': seq<C>, clients': seq<C>, events': seq<Event<C, M>>)
    requires i < |s.connectedClients|
    requires DisposedUpTo(s, i, raisesDisconnected, disposed, clients, events)
    ensures DisposedUpTo(s, i + 1, raisesDisconnected, disposed', clients', events')
  {
    var snapshot := s.connectedClients;
    var connection := snapshot[i];
    PrefixStep(snapshot, i);
    FilterAppend(snapshot[..i], connection, raisesDisconnected, true);
    var gone := Filter(snapshot[..i], raisesDisconnected, true);
    disposed', clients', events' := disposed + [connection], clients, events;
    if FirstDisposalRaises(snapshot[..i], connection, raisesDisconnected) {
      var step := ClientRaisedDisconnected<C, M>(s.(connectedClients := clients), connection);
      clients' := step.server.connectedClients;
      events' := events + step.events;
      if Valid(s) {
        FilterOutShrinks(snapshot, gone);
        assert Valid(s.(connectedClients := clients));
        assert clients' == FilterOut(FilterOut(snapshot, gone), [connection]);
        FilterOutTwice(snapshot, gone, [connection]);
        assert Filter(snapshot[..i + 1], raisesDisconnected, true) == gone + [connection];
      }
    } else if raisesDisconnected(connection) {
      assert connection in gone;
      FilterOutAgain(snapshot, gone, connection);
    } else {
      assert Filter(snapshot[..i + 1], raisesDisconnected, true) == gone + [];
      assert gone + [] == gone;
    }
  }

  /** `Dispose`: every client in a snapshot of the list taken at the call is
      disposed, in list order. Disposing a client may raise its
      `Disconnected` event (`raisesDisconnected`), which runs the server's
      handler once per subscription and so, on a valid server, removes all
      registrations of that client from the live list; the iteration goes
      over the snapshot and is not disturbed by that. A client registered
      twice is in the snapshot twice, but disposing it again raises nothing.
      In the end exactly the clients whose disposal raised nothing are left,
      and each raising client reported `ClientDisconnected` once per
      subscription, in the order of first occurrence in the snapshot. */
  method Dispose<C(==), M>(s: Server<C>, raisesDisconnected: C -> bool)
    returns (disposed: seq<C>, r: Step<C, M>)
    ensures disposed == s.connectedClients
    ensures Valid(s) ==> r.server.connectedClients == Filter(s.connectedClients, raisesDisconnected, false)
    ensures r.events == DisposalEvents(s.connectedClients, raisesDisconnected, s.subscriptions)
    ensures forall x :: Reports(r.events, x)
                     == if x in s.connectedClients && raisesDisconnected(x) then s.subscriptions[x] else 0
    ensures r.server == s.(connectedClients := r.server.connectedClients)
  {
    var closingConnections := s.connectedClients;
    var clients := s.connectedClients;
    var events: seq<Event<C, M>> := [];
    disposed := [];
    var i := 0;
    assert Valid(s) ==> clients == FilterOut(closingConnections, []) by {
      FilterOutNothing(closingConnections, []);
    }
    while i < |closingConnections|
      invariant 0 <= i <= |closingConnections|
      invariant DisposedUpTo(s, i, raisesDisconnected, disposed, clients, events)
    {
      disposed, clients, events := DisposeOne(s, i, raisesDisconnected, disposed, clients, events);
      i := i + 1;
    }
    assert closingConnections[..i] == closingConnections;
    if Valid(s) {
      FilterOutMatches(closingConnections, Filter(closingConnections, raisesDisconnected, true), raisesDisconnected);
    }
    r := Step(s.(connectedClients := clients), events);
    forall x {
      DisposalReportsOnce<C, M>(closingConnections, raisesDisconnected, s.subscriptions, x);
    }
  }
}

=== FILE: shader_with_format.dfy ===
/** A shader that carries its vertex format and its code
    (Graphics/ShaderWithFormat.cs): creation data is validated in a fixed
    order and then copied into the shader, an empty content file is
    refused, and six built-in names can be created without any content.

    The shader code texts and the built-in vertex formats are constants of
    the engine; here they are the parameter `Library`, with the facts the
    model relies on (each text is non-empty, each format has elements)
    stated as `WellFormed`. Compiling the code (`Create`) and decoding the
    content stream are not part of this model. */
module ShaderWithFormatModel {
  import opened Wrappers
  import opened Numbers
  import opened ContentMetaDataModel
  import opened XnaVertexFormatModel

  /** The engine's `VertexFormat`: the elements of one vertex. */
  datatype VertexFormat = VertexFormat(elements: seq<VertexElement>)

  /** `ShaderCreationData`; a null reference is `None`. */
  datatype ShaderCreationData = ShaderCreationData(
    vertexCode: Option<string>,
    fragmentCode: Option<string>,
    dx11Code: Option<string>,
    dx9Code: Option<string>,
    format: Option<VertexFormat>)

  datatype ShaderError =
    | UnableToCreateShaderNoCreationDataWasGiven
    | UnableToCreateShaderWithoutValidVertexFormat
    | UnableToCreateShaderWithoutValidVertexAndPixelCode
    | EmptyShaderFileGiven

  /** The shader's content name and the properties `Initialize` sets. */
  datatype Shader = Shader(
    name: string,
    format: Option<VertexFormat>,
    vertexCode: Option<string>,
    pixelCode: Option<string>,
    dx11Code: Option<string>,
    dx9Code: Option<string>)

  const GeneratedShaderName: string := "<GeneratedShader>"

  /** A shader before `Initialize`: every property null. */
  function Unset(name: string): Shader {
    Shader(name, None, None, None, None, None)
  }

  /** The creation data that `Initialize` accepts. */
  predicate Acceptable(data: ShaderCreationData) {
    && data.format.Some? && |data.format.value.elements| > 0
    && !IsNullOrEmpty(data.vertexCode) && !IsNullOrEmpty(data.fragmentCode)
  }

  /** The creation data a shader's properties describe. */
  function CreationDataOf(s: Shader): ShaderCreationData {
    ShaderCreationData(s.vertexCode, s.pixelCode, s.dx11Code, s.dx9Code, s.format)
  }

  /** `Initialize`: null data, then a missing or empty format, then missing
      vertex or fragment code, each with its own exception; otherwise the
      five properties are copied and the name is kept. */
  function Initialize(s: Shader, data: Option<ShaderCreationData>): (r: Result<Shader, ShaderError>)
    ensures data.None? ==> r == Failure(UnableToCreateShaderNoCreationDataWasGiven)
    ensures data.Some? && (data.value.format.None? || |data.value.format.value.elements| == 0) ==>
      r == Failure(UnableToCreateShaderWithoutValidVertexFormat)
    ensures (&& data.Some? && data.value.format.Some? && |data.value.format.value.elements| > 0
             && (IsNullOrEmpty(data.value.vertexCode) || IsNullOrEmpty(data.value.fragmentCode))) ==>
      r == Failure(UnableToCreateShaderWithoutValidVertexAndPixelCode)
    ensures r.Success? <==> data.Some? && Acceptable(data.value)
    ensures r.Success? ==> r.value.name == s.name && CreationDataOf(r.value) == data.value
  {
    if data.None? then Failure(UnableToCreateShaderNoCreationDataWasGiven)
    else
      var d := data.value;
      if d.format.None? || |d.format.value.elements| == 0 then Failure(UnableToCreateShaderWithoutValidVertexFormat)
      else if IsNullOrEmpty(d.vertexCode) || IsNullOrEmpty(d.fragmentCode) then
        Failure(UnableToCreateShaderWithoutValidVertexAndPixelCode)
      else Success(s.(format := d.format, vertexCode := d.vertexCode, pixelCode := d.fragmentCode,
                      dx11Code := d.dx11Code, dx9Code := d.dx9Code))
  }

  /** Initializing from a shader's own creation data gives that shader
      back, so a valid shader is a fixed point of `Initialize`. */
  lemma InitializeFromOwnData(s: Shader)
    requires Acceptable(CreationDataOf(s))
    ensures Initialize(Unset(s.name), Some(CreationDataOf(s))) == Success(s)
  {
  }

  /** The constructor that takes creation data names the shader
      `<GeneratedShader>`. */
  function NewGenerated(data: Option<ShaderCreationData>): (r: Result<Shader, ShaderError>)
    ensures r.Success? <==> data.Some? && Acceptable(data.value)
    ensures r.Success? ==> r.value.name == GeneratedShaderName && CreationDataOf(r.value) == data.value
  {
    Initialize(Unset(GeneratedShaderName), data)
  }

  /** What the content decoder produced from the stream. */
  datatype Decoded = DecodedCreationData(data: ShaderCreationData) | DecodedOther

  /** `LoadData` up to `Create`: an empty stream throws; otherwise the
      decoded object is used as creation data when it is one, and as null
      when it is not. */
  function LoadData(s: Shader, fileData: seq<Byte>, decoded: Decoded): (r: Result<Shader, ShaderError>)
    ensures |fileData| == 0 ==> r == Failure(EmptyShaderFileGiven)
    ensures |fileData| > 0 && decoded.DecodedOther? ==> r == Failure(UnableToCreateShaderNoCreationDataWasGiven)
    ensures r.Success? <==> |fileData| > 0 && decoded.DecodedCreationData? && Acceptable(decoded.data)
    ensures r.Success? ==> r.value.name == s.name && CreationDataOf(r.value) == decoded.data
  {
    if |fileData| == 0 then Failure(EmptyShaderFileGiven)
    else
      var data := if decoded.DecodedCreationData? then Some(decoded.data) else None;
      Initialize(s, data)
  }

  // ---------------------------------------------------------------------
  // Built-in shaders.

  datatype BuiltIn = Position2DUv | Position3DUv | Position2DColor | Position3DColor | Position2DColorUv | Position3DColorUv

  /** The content name of a built-in shader. */
  function BuiltInName(b: BuiltIn): string {
    match b
    case Position2DUv => "Position2DUv"
    case Position3DUv => "Position3DUv"
    case Position2DColor => "Position2DColor"
    case Position3DColor => "Position3DColor"
    case Position2DColorUv => "Position2DColorUv"
    case Position3DColorUv => "Position3DColorUv"
  }

  /** The built-in shader a name denotes, if any. */
  function ParseBuiltIn(name: string): (r: Option<BuiltIn>)
    ensures r.Some? ==> BuiltInName(r.value) == name
  {
    if name == "Position2DUv" then Some(Position2DUv)
    else if name == "Position3DUv" then Some(Position3DUv)
    else if name == "Position2DColor" then Some(Position2DColor)
    else if name == "Position3DColor" then Some(Position3DColor)
    else if name == "Position2DColorUv" then Some(Position2DColorUv)
    else if name == "Position3DColorUv" then Some(Position3DColorUv)
    else None
  }

  /** Every built-in name parses back to its shader. */
  lemma BuiltInNameRoundTrip(b: BuiltIn)
    ensures ParseBuiltIn(BuiltInName(b)) == Some(b)
  {
  }

  /** `AllowCreationIfContentNotFound`: true exactly for the names of the
      six built-in shaders. */
  function AllowCreationIfContentNotFound(s: Shader): (r: bool)
    ensures r <==> exists b :: BuiltInName(b) == s.name
  {
    var r := ParseBuiltIn(s.name).Some?;
    assert r <== exists b :: BuiltInName(b) == s.name by {
      if b :| BuiltInName(b) == s.name {
        BuiltInNameRoundTrip(b);
      }
    }
    r
  }

  /** The three code families and the texts each has. */
  datatype Family = UvFamily | ColorFamily | ColorUvFamily
  datatype Stage = VertexStage | FragmentStage | HlslStage

  function FamilyOf(b: BuiltIn): Family {
    match b
    case Position2DUv => UvFamily
    case Position3DUv => UvFamily
    case Position2DColor => ColorFamily
    case Position3DColor => ColorFamily
    case Position2DColorUv => ColorUvFamily
    case Position3DColorUv => ColorUvFamily
  }

  function Is3D(b: BuiltIn): bool {
    b == Position3DUv || b == Position3DColor || b == Position3DColorUv
  }

  /** The engine's shader texts and built-in formats: the GLSL and HLSL code
      of each family, the DirectX 9 code of each built-in shader, and the
      `VertexFormat` of the same name. */
  datatype Library = Library(
    code: (Family, Stage) -> string,
    dx9: BuiltIn -> string,
    format: BuiltIn -> VertexFormat)

  predicate WellFormed(lib: Library) {
    && (forall f: Family, st: Stage :: |lib.code(f, st)| > 0)
    && (forall b: BuiltIn :: |lib.dx9(b)| > 0 && |lib.format(b).elements| > 0)
  }

  /** The creation data `CreateDefault` builds for a built-in shader. */
  function DefaultData(lib: Library, b: BuiltIn): (d: ShaderCreationData)
    ensures d.format == Some(lib.format(b)) && d.dx9Code == Some(lib.dx9(b))
    ensures d.vertexCode == Some(lib.code(FamilyOf(b), VertexStage))
    ensures d.fragmentCode == Some(lib.code(FamilyOf(b), FragmentStage))
    ensures d.dx11Code == Some(lib.code(FamilyOf(b), HlslStage))
    ensures WellFormed(lib) ==> Acceptable(d)
  {
    var f := FamilyOf(b);
    ShaderCreationData(Some(lib.code(f, VertexStage)), Some(lib.code(f, FragmentStage)),
                       Some(lib.code(f, HlslStage)), Some(lib.dx9(b)), Some(lib.format(b)))
  }

  /** `CreateDefault` up to `Create`: a built-in name initializes the shader
      with its family's code, its own DirectX 9 code and its own format; any
      other name matches no case and leaves the shader as it is. */
  function CreateDefault(lib: Library, s: Shader): (r: Result<Shader, ShaderError>)
    ensures ParseBuiltIn(s.name).None? ==> r == Success(s)
    ensures WellFormed(lib) ==> r.Success?
    ensures r.Success? && ParseBuiltIn(s.name).Some? ==>
      var b := ParseBuiltIn(s.name).value;
      && r.value.name == s.name
      && CreationDataOf(r.value) == DefaultData(lib, b)
  {
    match ParseBuiltIn(s.name)
    case None => Success(s)
    case Some(b) => Initialize(s, Some(DefaultData(lib, b)))
  }

  /** The 2D and 3D shaders of one family share their GLSL and HLSL code
      and differ only in the DirectX 9 code and the vertex format. */
  lemma SameFamilySameCode(lib: Library, b2: BuiltIn, b3: BuiltIn)
    requires WellFormed(lib)
    requires FamilyOf(b2) == FamilyOf(b3) && !Is3D(b2) && Is3D(b3)
    ensures var s2 := CreateDefault(lib, Unset(BuiltInName(b2))).value;
      var s3 := CreateDefault(lib, Unset(BuiltInName(b3))).value;
      && s2.vertexCode == s3.vertexCode && s2.pixelCode == s3.pixelCode && s2.dx11Code == s3.dx11Code
      && s2.dx9Code == Some(lib.dx9(b2)) && s3.dx9Code == Some(lib.dx9(b3))
      && s2.format == Some(lib.format(b2)) && s3.format == Some(lib.format(b3))
  {
    BuiltInNameRoundTrip(b2);
    BuiltInNameRoundTrip(b3);
  }
}

=== FILE: touch_collection_updater.dfy ===
/** The touch slots of the XNA touch device
    (Input/Xna/TouchCollectionUpdater.cs): ten slots, each with an id (-1
    when free), an input state and a position. Every frame the touches
    already tracked are matched by id against the new touch list and
    removed from it, slots with no news age (releasing becomes released, any
    other state frees the slot), and the touches left over take a slot
    each.

    `State.UpdateOnNativePressing` and the screen-space conversion of a
    position are not part of this model; they are parameters (`Native`). */
module TouchCollectionUpdaterModel {
  import opened Wrappers

  const MaxNumberOfTouches: nat := 10
  const FreeId: int := -1

  /** The engine's input `State`; `Released` is its default value. */
  datatype State = Released | Releasing | Pressing | Pressed

  /** XNA's `TouchLocationState`. */
  datatype TouchLocationState = Invalid | TouchReleased | TouchPressed | TouchMoved

  datatype Point = Point(x: real, y: real)

  datatype TouchLocation = TouchLocation(id: int, state: TouchLocationState, position: Point)

  datatype Native = Native(updateOnNativePressing: (State, bool) -> State, fromPixelSpace: Point -> Point)

  /** The three parallel arrays. */
  datatype Updater = Updater(states: seq<State>, locations: seq<Point>, ids: seq<int>)

  predicate Valid(u: Updater) {
    |u.states| == MaxNumberOfTouches && |u.locations| == MaxNumberOfTouches && |u.ids| == MaxNumberOfTouches
  }

  /** No id other than the free marker sits in two slots. */
  predicate UniqueIds(u: Updater) {
    forall i, j :: 0 <= i < j < |u.ids| && u.ids[i] != FreeId ==> u.ids[i] != u.ids[j]
  }

  /** XNA gives every touch of one collection its own id. */
  predicate DistinctIds(touches: seq<TouchLocation>) {
    forall i, j :: 0 <= i < j < |touches| ==> touches[i].id != touches[j].id
  }

  /** The constructor: every slot free, released, at the origin. */
  function New(): (u: Updater)
    ensures Valid(u) && UniqueIds(u)
    ensures forall k :: 0 <= k < MaxNumberOfTouches ==>
      u.ids[k] == FreeId && u.states[k] == Released && u.locations[k] == Point(0.0, 0.0)
  {
    Updater(seq(MaxNumberOfTouches, _ => Released), seq(MaxNumberOfTouches, _ => Point(0.0, 0.0)),
            seq(MaxNumberOfTouches, _ => FreeId))
  }

  /** Slot `k` is the same in both. */
  predicate SameSlot(a: Updater, b: Updater, k: nat)
    requires Valid(a) && Valid(b) && k < MaxNumberOfTouches
  {
    a.states[k] == b.states[k] && a.locations[k] == b.locations[k] && a.ids[k] == b.ids[k]
  }

  // ---------------------------------------------------------------------
  // Finding a slot.

  /** The first position holding `x`, or -1. */
  function IndexOf(ids: seq<int>, x: int): (r: int)
    ensures -1 <= r < |ids|
    ensures r == -1 <==> x !in ids
    ensures r >= 0 ==> ids[r] == x && forall j :: 0 <= j < r ==> ids[j] != x
    decreases |ids|
  {
    if |ids| == 0 then -1
    else if ids[0] == x then 0
    else
      var r := IndexOf(ids[1..], x);
      assert forall j :: 1 <= j < |ids| ==> ids[j] == ids[1..][j - 1];
      if r == -1 then -1 else r + 1
  }

  /** `FindIndexByIdOrGetFreeIndex`: the slot already holding the id, else
      the lowest free slot, else -1. */
  function FindIndexByIdOrGetFreeIndex(u: Updater, id: int): (r: int)
    requires Valid(u)
    ensures -1 <= r < MaxNumberOfTouches
    ensures r == -1 <==> id !in u.ids && FreeId !in u.ids
    ensures id in u.ids ==> r >= 0 && u.ids[r] == id && forall j :: 0 <= j < r ==> u.ids[j] != id
    ensures id !in u.ids && r >= 0 ==> u.ids[r] == FreeId && forall j :: 0 <= j < r ==> u.ids[j] != FreeId
  {
    var k := IndexOf(u.ids, id);
    if k >= 0 then k else IndexOf(u.ids, FreeId)
  }

  // ---------------------------------------------------------------------
  // Touches seen before.

  /** `UpdateTouchState` with the new data's position: the state moves on
      by whether the touch is down (pressed or moved). */
  function UpdateSlot(native: Native, u: Updater, index: nat, touch: TouchLocation): (r: Updater)
    requires Valid(u) && index < MaxNumberOfTouches
    ensures Valid(r) && r.ids == u.ids
    ensures r.states[index] == native.updateOnNativePressing(
      u.states[index], touch.state == TouchPressed || touch.state == TouchMoved)
    ensures r.locations[index] == native.fromPixelSpace(touch.position)
    ensures forall k :: 0 <= k < MaxNumberOfTouches && k != index ==> SameSlot(u, r, k)
  {
    var isTouchDown := touch.state == TouchPressed || touch.state == TouchMoved;
    u.(states := u.states[index := native.updateOnNativePressing(u.states[index], isTouchDown)],
       locations := u.locations[index := native.fromPixelSpace(touch.position)])
  }

  /** The loop of `UpdateTouchIfPreviouslyPresent` from position `i` on. A
      match is removed and the loop goes on at the next position, so the
      touch that moved into the removed one's place is not looked at. */
  function Scan(native: Native, u: Updater, index: nat, touches: seq<TouchLocation>, i: nat)
    : (r: (Updater, seq<TouchLocation>))
    requires Valid(u) && index < MaxNumberOfTouches
    ensures Valid(r.0) && r.0.ids == u.ids
    ensures forall k :: 0 <= k < MaxNumberOfTouches && k != index ==> SameSlot(u, r.0, k)
    ensures |r.1| <= |touches|
    ensures forall t :: t in r.1 ==> t in touches
    ensures forall t :: t in touches && t.id != u.ids[index] ==> t in r.1
    ensures (forall j :: 0 <= j < |touches| && j >= i ==> touches[j].id != u.ids[index]) ==> r == (u, touches)
    ensures (exists j :: 0 <= j < |touches| && j >= i && touches[j].id == u.ids[index]) ==> |r.1| < |touches|
    decreases |touches| - i
  {
    if i >= |touches| then (u, touches)
    else if touches[i].id != u.ids[index] then Scan(native, u, index, touches, i + 1)
    else
      var rest := touches[..i] + touches[i + 1..];
      assert forall t :: t in rest ==> t in touches;
      assert forall t :: t in touches && t.id != u.ids[index] ==> t in rest by {
        forall t | t in touches && t.id != u.ids[index] ensures t in rest {
          var j :| 0 <= j < |touches| && touches[j] == t;
          if j < i { assert rest[j] == t; } else { assert rest[j - 1] == t; }
        }
      }
      var v := UpdateSlot(native, u, index, touches[i]);
      var r := Scan(native, v, index, rest, i + 1);
      assert forall k :: 0 <= k < MaxNumberOfTouches && k != index ==> SameSlot(u, r.0, k) by {
        forall k | 0 <= k < MaxNumberOfTouches && k != index ensures SameSlot(u, r.0, k) {
          assert SameSlot(u, v, k) && SameSlot(v, r.0, k);
        }
      }
      r
  }

  /** `UpdateTouchIfPreviouslyPresent`. */
  function UpdateTouchIfPreviouslyPresent(native: Native, u: Updater, index: nat, touches: seq<TouchLocation>)
    : (r: (Updater, seq<TouchLocation>))
    requires Valid(u) && index < MaxNumberOfTouches
    ensures Valid(r.0) && r.0.ids == u.ids
    ensures forall k :: 0 <= k < MaxNumberOfTouches && k != index ==> SameSlot(u, r.0, k)
    ensures forall t :: t in r.1 ==> t in touches
    ensures forall t :: t in touches && t.id != u.ids[index] ==> t in r.1
    ensures |r.1| == |touches| <==> forall t :: t in touches ==> t.id != u.ids[index]
    ensures |r.1| == |touches| ==> r == (u, touches)
  {
    Scan(native, u, index, touches, 0)
  }

  /** With distinct ids, the one touch with the slot's id, if any, is taken
      out of the list and feeds the slot; nothing else changes. */
  lemma UpdateDistinct(native: Native, u: Updater, index: nat, touches: seq<TouchLocation>, p: nat)
    requires Valid(u) && index < MaxNumberOfTouches && DistinctIds(touches)
    requires p < |touches| && touches[p].id == u.ids[index]
    ensures UpdateTouchIfPreviouslyPresent(native, u, index, touches)
         == (UpdateSlot(native, u, index, touches[p]), touches[..p] + touches[p + 1..])
  {
    var rest := touches[..p] + touches[p + 1..];
    assert Scan(native, u, index, touches, 0) == Scan(native, u, index, touches, p) by {
      ScanSkips(native, u, index, touches, 0, p);
    }
    var v := UpdateSlot(native, u, index, touches[p]);
    assert forall j :: 0 <= j < |rest| && j >= p + 1 ==> rest[j].id != v.ids[index] by {
      forall j | 0 <= j < |rest| && j >= p + 1 ensures rest[j].id != v.ids[index] {
        assert rest[j] == touches[j + 1];
      }
    }
  }

  /** Positions without a match are stepped over. */
  lemma {:induction false} ScanSkips(native: Native, u: Updater, index: nat, touches: seq<TouchLocation>, i: nat, p: nat)
    requires Valid(u) && index < MaxNumberOfTouches
    requires i <= p <= |touches|
    requires forall j :: i <= j < p ==> touches[j].id != u.ids[index]
    ensures Scan(native, u, index, touches, i) == Scan(native, u, index, touches, p)
    decreases p - i
  {
    if i < p {
      ScanSkips(native, u, index, touches, i + 1, p);
    }
  }

  /** `UpdateTouchStateWithoutNewData`: a releasing touch becomes released
      and keeps its slot; in any other state the slot is freed. */
  function UpdateTouchStateWithoutNewData(u: Updater, index: nat): (r: Updater)
    requires Valid(u) && index < MaxNumberOfTouches
    ensures Valid(r)
    ensures u.states[index] == Releasing ==> r.states[index] == Released && r.ids[index] == u.ids[index]
    ensures u.states[index] != Releasing ==> r.states[index] == u.states[index] && r.ids[index] == FreeId
    ensures r.locations[index] == u.locations[index]
    ensures forall k :: 0 <= k < MaxNumberOfTouches && k != index ==> SameSlot(u, r, k)
  {
    if u.states[index] == Releasing then u.(states := u.states[index := Released])
    else u.(ids := u.ids[index := FreeId])
  }

  /** `UpdateTouchBy`: the slot is fed by its touch when the list had one,
      and ages otherwise. */
  function UpdateTouchBy(native: Native, u: Updater, index: nat, touches: seq<TouchLocation>)
    : (r: (Updater, seq<TouchLocation>))
    requires Valid(u) && index < MaxNumberOfTouches
    ensures Valid(r.0)
    ensures forall k :: 0 <= k < MaxNumberOfTouches && k != index ==> SameSlot(u, r.0, k)
    ensures forall t :: t in r.1 ==> t in touches
    ensures forall t :: t in touches && t.id != u.ids[index] ==> t in r.1
    ensures (forall t :: t in touches ==> t.id != u.ids[index]) ==>
      r == (UpdateTouchStateWithoutNewData(u, index), touches)
    ensures r.0.ids[index] == u.ids[index] || r.0.ids[index] == FreeId
  {
    var (updated, rest) := UpdateTouchIfPreviouslyPresent(native, u, index, touches);
    if |rest| == |touches| then (UpdateTouchStateWithoutNewData(updated, index), rest) else (updated, rest)
  }

  /** A lifted touch is reported released once and then frees its slot,
      provided the device reports nothing more for its id. */
  lemma ReleaseThenFree(native: Native, u: Updater, index: nat, touches1: seq<TouchLocation>, touches2: seq<TouchLocation>)
    requires Valid(u) && index < MaxNumberOfTouches && u.ids[index] != FreeId
    requires u.states[index] == Releasing
    requires forall t :: t in touches1 ==> t.id != u.ids[index]
    requires forall t :: t in touches2 ==> t.id != u.ids[index]
    ensures var once := UpdateTouchBy(native, u, index, touches1).0;
      && once.states[index] == Released && once.ids[index] == u.ids[index]
      && UpdateTouchBy(native, once, index, touches2).0.ids[index] == FreeId
  {
  }

  // ---------------------------------------------------------------------
  // The previously-active pass.

  /** The loop of `UpdatePreviouslyActiveTouches` from slot `index` on;
      free slots are skipped. */
  function UpdateFrom(native: Native, u: Updater, index: nat, touches: seq<TouchLocation>)
    : (r: (Updater, seq<TouchLocation>))
    requires Valid(u) && index <= MaxNumberOfTouches
    ensures Valid(r.0)
    ensures forall k :: 0 <= k < index ==> SameSlot(u, r.0, k)
    ensures forall k :: index <= k < MaxNumberOfTouches && u.ids[k] == FreeId ==> SameSlot(u, r.0, k)
    ensures forall t :: t in r.1 ==> t in touches
    decreases MaxNumberOfTouches - index
  {
    if index == MaxNumberOfTouches then (u, touches)
    else if u.ids[index] == FreeId then UpdateFrom(native, u, index + 1, touches)
    else
      var (v, rest) := UpdateTouchBy(native, u, index, touches);
      var r := UpdateFrom(native, v, index + 1, rest);
      assert forall k :: 0 <= k < index ==> SameSlot(u, r.0, k) by {
        forall k | 0 <= k < index ensures SameSlot(u, r.0, k) {
          assert SameSlot(u, v, k) && SameSlot(v, r.0, k);
        }
      }
      assert forall k :: index <= k < MaxNumberOfTouches && u.ids[k] == FreeId ==> SameSlot(u, r.0, k) by {
        forall k | index <= k < MaxNumberOfTouches && u.ids[k] == FreeId ensures SameSlot(u, r.0, k) {
          assert k != index;
          assert SameSlot(u, v, k) && SameSlot(v, r.0, k);
        }
      }
      r
  }

  /** `UpdatePreviouslyActiveTouches`. */
  function UpdatePreviouslyActiveTouches(native: Native, u: Updater, touches: seq<TouchLocation>)
    : (r: (Updater, seq<TouchLocation>))
    requires Valid(u)
    ensures Valid(r.0)
    ensures forall k :: 0 <= k < MaxNumberOfTouches && u.ids[k] == FreeId ==> SameSlot(u, r.0, k)
    ensures forall t :: t in r.1 ==> t in touches
  {
    UpdateFrom(native, u, 0, touches)
  }

  /** Whether `id` is the id of a tracked slot from `index` on. */
  predicate TrackedFrom(u: Updater, index: nat, id: int)
    requires Valid(u)
  {
    exists k :: index <= k < MaxNumberOfTouches && u.ids[k] != FreeId && u.ids[k] == id
  }

  /** With distinct touch ids and unique slot ids, the touches left for the
      new-touch pass are exactly those whose id no slot tracked: a tracked
      touch is never added a second time. */
  lemma {:induction false} LeftoversAreUntracked(native: Native, u: Updater, index: nat, touches: seq<TouchLocation>)
    requires Valid(u) && index <= MaxNumberOfTouches && UniqueIds(u) && DistinctIds(touches)
    ensures var rest := UpdateFrom(native, u, index, touches).1;
      forall t :: t in rest <==> t in touches && !TrackedFrom(u, index, t.id)
    decreases MaxNumberOfTouches - index
  {
    if index < MaxNumberOfTouches {
      TrackedFromStep(u, index);
      if u.ids[index] == FreeId {
        LeftoversAreUntracked(native, u, index + 1, touches);
      } else {
        var (v, rest) := UpdateTouchBy(native, u, index, touches);
        PassStep(native, u, index, touches);
        LeftoversAreUntracked(native, v, index + 1, rest);
        TrackedFromSame(u, v, index + 1);
        LeftoversStep(u, index, index + 1, touches, rest, v);
      }
    }
  }

  /** Slot `index` adds its own id, if any, to those tracked after it. */
  lemma TrackedFromStep(u: Updater, index: nat)
    requires Valid(u) && index < MaxNumberOfTouches
    ensures forall id :: TrackedFrom(u, index, id) <==>
      (u.ids[index] != FreeId && id == u.ids[index]) || TrackedFrom(u, index + 1, id)
  {
    forall id | TrackedFrom(u, index, id) && !(u.ids[index] != FreeId && id == u.ids[index])
      ensures TrackedFrom(u, index + 1, id)
    {
      var k :| index <= k < MaxNumberOfTouches && u.ids[k] != FreeId && u.ids[k] == id;
      assert k != index;
    }
  }

  /** Updaters with the same ids from `index` on track the same ids there. */
  lemma TrackedFromSame(u: Updater, v: Updater, index: nat)
    requires Valid(u) && Valid(v) && index <= MaxNumberOfTouches
    requires forall k :: index <= k < MaxNumberOfTouches ==> SameSlot(u, v, k)
    ensures forall id :: TrackedFrom(u, index, id) <==> TrackedFrom(v, index, id)
  {
    forall id | TrackedFrom(u, index, id) ensures TrackedFrom(v, index, id) {
      var k :| index <= k < MaxNumberOfTouches && u.ids[k] != FreeId && u.ids[k] == id;
      assert SameSlot(u, v, k);
    }
    forall id | TrackedFrom(v, index, id) ensures TrackedFrom(u, index, id) {
      var k :| index <= k < MaxNumberOfTouches && v.ids[k] != FreeId && v.ids[k] == id;
      assert SameSlot(u, v, k);
    }
  }

  /** The leftovers after a tracked slot's step and the rest of the pass,
      in terms of what the slot and the later slots track. */
  lemma LeftoversStep(u: Updater, index: nat, after: nat, touches: seq<TouchLocation>, rest: seq<TouchLocation>, v: Updater)
    requires Valid(u) && Valid(v) && index < MaxNumberOfTouches && u.ids[index] != FreeId && after == index + 1
    requires forall t :: t in rest ==> t in touches
    requires forall t :: t in touches && t.id != u.ids[index] ==> t in rest
    requires forall t :: t in rest ==> t.id != u.ids[index]
    requires forall id :: TrackedFrom(u, index, id) <==>
      (u.ids[index] != FreeId && id == u.ids[index]) || TrackedFrom(u, after, id)
    requires forall id :: TrackedFrom(u, after, id) <==> TrackedFrom(v, after, id)
    ensures forall t :: (t in rest && !TrackedFrom(v, after, t.id)) <==> (t in touches && !TrackedFrom(u, index, t.id))
  {
  }

  /** One tracked slot's step keeps the ids distinct on both sides and
      takes every touch with the slot's id out of the list. */
  lemma PassStep(native: Native, u: Updater, index: nat, touches: seq<TouchLocation>)
    requires Valid(u) && index < MaxNumberOfTouches && UniqueIds(u) && DistinctIds(touches)
    requires u.ids[index] != FreeId
    ensures var (v, rest) := UpdateTouchBy(native, u, index, touches);
      && DistinctIds(rest) && UniqueIds(v)
      && forall t :: t in rest ==> t.id != u.ids[index]
  {
    var (v, rest) := UpdateTouchBy(native, u, index, touches);
    UniqueAfterSlot(u, v, index);
    if p :| 0 <= p < |touches| && touches[p].id == u.ids[index] {
      UpdateDistinct(native, u, index, touches, p);
      RemovedDistinct(touches, p);
    } else {
      assert forall t :: t in touches ==> t.id != u.ids[index];
    }
  }

  /** Changing one slot to its own id or to free keeps the ids unique. */
  lemma UniqueAfterSlot(u: Updater, v: Updater, index: nat)
    requires Valid(u) && Valid(v) && index < MaxNumberOfTouches && UniqueIds(u)
    requires v.ids[index] == u.ids[index] || v.ids[index] == FreeId
    requires forall k :: 0 <= k < MaxNumberOfTouches && k != index ==> SameSlot(u, v, k)
    ensures UniqueIds(v)
  {
    forall i, j | 0 <= i < j < |v.ids| && v.ids[i] != FreeId ensures v.ids[i] != v.ids[j] {
      if i != index { assert SameSlot(u, v, i); }
      if j != index { assert SameSlot(u, v, j); }
    }
  }

  /** Removing the touch at `p` from a list of distinct ids leaves distinct
      ids, none of them the removed one's. */
  lemma RemovedDistinct(touches: seq<TouchLocation>, p: nat)
    requires DistinctIds(touches) && p < |touches|
    ensures var rest := touches[..p] + touches[p + 1..];
      && DistinctIds(rest)
      && forall t :: t in rest ==> t.id != touches[p].id
  {
    var rest := touches[..p] + touches[p + 1..];
    forall i, j | 0 <= i < j < |rest| ensures rest[i].id != rest[j].id {
      var i' := if i < p then i else i + 1;
      var j' := if j < p then j else j + 1;
      assert rest[i] == touches[i'] && rest[j] == touches[j'];
    }
    forall t | t in rest ensures t.id != touches[p].id {
      var j :| 0 <= j < |rest| && rest[j] == t;
      if j < p { assert rest[j] == touches[j]; } else { assert rest[j] == touches[j + 1]; }
    }
  }

  // ---------------------------------------------------------------------
  // New touches.

  /** `IndexOutOfRangeException` from writing slot -1. */
  datatype TouchError = NoFreeSlot(id: int)

  /** The slots after a pass, and the exception that cut it short; the
      touches handled before it keep their slots. */
  datatype Pass = Pass(updater: Updater, error: Option<TouchError>)

  /** One new touch takes `slot`: its id, its screen-space position and
      the state `Pressing`. */
  function Claim(native: Native, u: Updater, slot: nat, t: TouchLocation): (r: Updater)
    requires Valid(u) && slot < MaxNumberOfTouches
    ensures Valid(r) && r.ids[slot] == t.id && r.states[slot] == Pressing
    ensures r.locations[slot] == native.fromPixelSpace(t.position)
    ensures forall k :: 0 <= k < MaxNumberOfTouches && k != slot ==> SameSlot(u, r, k)
  {
    u.(ids := u.ids[slot := t.id],
       locations := u.locations[slot := native.fromPixelSpace(t.position)],
       states := u.states[slot := Pressing])
  }

  /** The slot `FindIndexByIdOrGetFreeIndex` picks for a touch is the only
      one that can hold its id afterwards, so the ids stay unique. */
  lemma ClaimKeepsUnique(native: Native, u: Updater, t: TouchLocation)
    requires Valid(u) && UniqueIds(u) && FindIndexByIdOrGetFreeIndex(u, t.id) >= 0
    ensures UniqueIds(Claim(native, u, FindIndexByIdOrGetFreeIndex(u, t.id), t))
  {
    var slot := FindIndexByIdOrGetFreeIndex(u, t.id);
    var v := Claim(native, u, slot, t);
    forall i, j | 0 <= i < j < |v.ids| && v.ids[i] != FreeId ensures v.ids[i] != v.ids[j] {
      if i != slot { assert SameSlot(u, v, i); }
      if j != slot { assert SameSlot(u, v, j); }
    }
  }

  /** `ProcessNewTouches`: each touch in order takes the slot holding its
      id or the lowest free one, with state `Pressing`. */
  function ProcessNewTouches(native: Native, u: Updater, touches: seq<TouchLocation>): (r: Pass)
    requires Valid(u)
    ensures Valid(r.updater)
    ensures UniqueIds(u) ==> UniqueIds(r.updater)
    ensures forall k :: 0 <= k < MaxNumberOfTouches && u.ids[k] != FreeId ==>
      r.updater.ids[k] == u.ids[k] && (r.updater.states[k] == u.states[k] || r.updater.states[k] == Pressing)
    decreases |touches|
  {
    if |touches| == 0 then Pass(u, None)
    else
      var t := touches[0];
      var slot := FindIndexByIdOrGetFreeIndex(u, t.id);
      if slot == -1 then Pass(u, Some(NoFreeSlot(t.id)))
      else
        var v := Claim(native, u, slot, t);
        assert UniqueIds(u) ==> UniqueIds(v) by {
          if UniqueIds(u) {
            ClaimKeepsUnique(native, u, t);
          }
        }
        assert forall k :: 0 <= k < MaxNumberOfTouches && u.ids[k] != FreeId ==>
          v.ids[k] == u.ids[k] && (v.states[k] == u.states[k] || v.states[k] == Pressing) by {
          forall k | 0 <= k < MaxNumberOfTouches && u.ids[k] != FreeId
            ensures v.ids[k] == u.ids[k] && (v.states[k] == u.states[k] || v.states[k] == Pressing)
          {
            if k != slot { assert SameSlot(u, v, k); }
          }
        }
        ProcessNewTouches(native, v, touches[1..])
  }

  /** Every touch with an id that the pass got through holds a slot with
      that id in state `Pressing`. */
  lemma {:induction false} NewTouchesArePressing(native: Native, u: Updater, touches: seq<TouchLocation>)
    requires Valid(u)
    requires ProcessNewTouches(native, u, touches).error.None?
    ensures var r := ProcessNewTouches(native, u, touches).updater;
      forall t :: t in touches && t.id != FreeId ==>
        exists k :: 0 <= k < MaxNumberOfTouches && r.ids[k] == t.id && r.states[k] == Pressing
    decreases |touches|
  {
    if |touches| > 0 {
      var t := touches[0];
      var slot := FindIndexByIdOrGetFreeIndex(u, t.id);
      var v := Claim(native, u, slot, t);
      NewTouchesArePressing(native, v, touches[1..]);
      var r := ProcessNewTouches(native, v, touches[1..]).updater;
      if t.id != FreeId {
        assert v.ids[slot] != FreeId;
        assert r.ids[slot] == t.id && r.states[slot] == Pressing;
      }
      forall s | s in touches && s.id != FreeId
        ensures exists k :: 0 <= k < MaxNumberOfTouches && r.ids[k] == s.id && r.states[k] == Pressing
      {
        if s != t {
          var j :| 0 <= j < |touches| && touches[j] == s;
          assert touches[1..][j - 1] == s;
        } else {
          assert r.ids[slot] == s.id;
        }
      }
    }
  }

  /** The number of free slots. */
  function FreeCount(ids: seq<int>): nat
    decreases |ids|
  {
    if |ids| == 0 then 0 else (if ids[0] == FreeId then 1 else 0) + FreeCount(ids[1..])
  }

  lemma {:induction false} FreeCountUpdate(ids: seq<int>, k: nat, x: int)
    requires k < |ids|
    ensures FreeCount(ids[k := x]) + (if ids[k] == FreeId then 1 else 0)
         == FreeCount(ids) + (if x == FreeId then 1 else 0)
    decreases |ids|
  {
    if k > 0 {
      assert ids[k := x][1..] == ids[1..][k - 1 := x];
      FreeCountUpdate(ids[1..], k - 1, x);
    }
  }

  lemma {:induction false} FreeCountPositive(ids: seq<int>)
    requires FreeId in ids
    ensures FreeCount(ids) > 0
    decreases |ids|
  {
    if ids[0] != FreeId {
      FreeCountPositive(ids[1..]);
    }
  }

  /** The pass cannot run out of slots while there are at least as many
      free slots as touches. */
  lemma {:induction false} EnoughFreeSlots(native: Native, u: Updater, touches: seq<TouchLocation>)
    requires Valid(u)
    requires FreeCount(u.ids) >= |touches|
    ensures ProcessNewTouches(native, u, touches).error.None?
    decreases |touches|
  {
    if |touches| > 0 {
      var t := touches[0];
      FreeCountIn(u.ids);
      var slot := FindIndexByIdOrGetFreeIndex(u, t.id);
      FreeCountUpdate(u.ids, slot, t.id);
      var v := Claim(native, u, slot, t);
      EnoughFreeSlots(native, v, touches[1..]);
    }
  }

  lemma {:induction false} FreeCountIn(ids: seq<int>)
    ensures FreeCount(ids) > 0 ==> FreeId in ids
    decreases |ids|
  {
    if |ids| > 0 && ids[0] != FreeId {
      FreeCountIn(ids[1..]);
    }
  }

  /** With every slot taken, a touch whose id no slot holds throws. */
  lemma FullSlotsThrow(native: Native, u: Updater, touches: seq<TouchLocation>)
    requires Valid(u) && FreeId !in u.ids
    requires |touches| > 0 && touches[0].id !in u.ids
    ensures ProcessNewTouches(native, u, touches) == Pass(u, Some(NoFreeSlot(touches[0].id)))
  {
  }

  /** `UpdateAllTouches`: the previously-active pass, then the new-touch
      pass over what it left. With unique slot ids and distinct touch ids
      the touches treated as new are exactly those no slot tracked, and
      when the pass does not run out of slots each of them ends up in a
      slot of its own, pressing. */
  function UpdateAllTouches(native: Native, u: Updater, touches: seq<TouchLocation>): (r: Pass)
    requires Valid(u)
    ensures Valid(r.updater)
    ensures UniqueIds(u) ==> UniqueIds(r.updater)
    ensures var (v, rest) := UpdatePreviouslyActiveTouches(native, u, touches);
      r == ProcessNewTouches(native, v, rest)
    ensures UniqueIds(u) && DistinctIds(touches) ==>
      forall t :: t in UpdatePreviouslyActiveTouches(native, u, touches).1 <==>
        t in touches && !TrackedFrom(u, 0, t.id)
    ensures r.error.None? ==>
      forall t :: t in UpdatePreviouslyActiveTouches(native, u, touches).1 && t.id != FreeId ==>
        exists k :: 0 <= k < MaxNumberOfTouches && r.updater.ids[k] == t.id && r.updater.states[k] == Pressing
  {
    var (v, rest) := UpdatePreviouslyActiveTouches(native, u, touches);
    UniqueAfterPass(native, u, 0, touches);
    BothPasses(native, u, touches);
    ProcessNewTouches(native, v, rest)
  }

  /** What the two passes of `UpdateAllTouches` give together. */
  lemma BothPasses(native: Native, u: Updater, touches: seq<TouchLocation>)
    requires Valid(u)
    ensures var (v, rest) := UpdatePreviouslyActiveTouches(native, u, touches);
      && (UniqueIds(u) && DistinctIds(touches) ==>
            forall t :: t in rest <==> t in touches && !TrackedFrom(u, 0, t.id))
      && (ProcessNewTouches(native, v, rest).error.None? ==>
            forall t :: t in rest && t.id != FreeId ==>
              exists k :: 0 <= k < MaxNumberOfTouches
                && ProcessNewTouches(native, v, rest).updater.ids[k] == t.id
                && ProcessNewTouches(native, v, rest).updater.states[k] == Pressing)
  {
    var (v, rest) := UpdatePreviouslyActiveTouches(native, u, touches);
    if UniqueIds(u) && DistinctIds(touches) {
      LeftoversAreUntracked(native, u, 0, touches);
    }
    if ProcessNewTouches(native, v, rest).error.None? {
      NewTouchesArePressing(native, v, rest);
    }
  }

  /** The previously-active pass only keeps or frees ids, so they stay
      unique. */
  lemma {:induction false} UniqueAfterPass(native: Native, u: Updater, index: nat, touches: seq<TouchLocation>)
    requires Valid(u) && index <= MaxNumberOfTouches
    ensures UniqueIds(u) ==> UniqueIds(UpdateFrom(native, u, index, touches).0)
    decreases MaxNumberOfTouches - index
  {
    if index < MaxNumberOfTouches && u.ids[index] != FreeId && UniqueIds(u) {
      var (v, rest) := UpdateTouchBy(native, u, index, touches);
      UniqueAfterSlot(u, v, index);
      UniqueAfterPass(native, v, index + 1, rest);
    } else if index < MaxNumberOfTouches {
      UniqueAfterPass(native, u, index + 1, touches);
    }
  }

  /** The previously-active pass leaves an all-free updater and the touch
      list as they are. */
  lemma {:induction false} IdleSlotsPassThrough(native: Native, u: Updater, index: nat, touches: seq<TouchLocation>)
    requires Valid(u) && index <= MaxNumberOfTouches
    requires forall k :: index <= k < MaxNumberOfTouches ==> u.ids[k] == FreeId
    ensures UpdateFrom(native, u, index, touches) == (u, touches)
    decreases MaxNumberOfTouches - index
  {
    if index < MaxNumberOfTouches {
      IdleSlotsPassThrough(native, u, index + 1, touches);
    }
  }

  lemma {:induction false} FreeCountAllFree(ids: seq<int>)
    requires forall k :: 0 <= k < |ids| ==> ids[k] == FreeId
    ensures FreeCount(ids) == |ids|
    decreases |ids|
  {
    if |ids| > 0 {
      FreeCountAllFree(ids[1..]);
    }
  }

  /** The first frame on a new device: up to ten touches all get a slot,
      pressing. */
  lemma FirstFrame(native: Native, touches: seq<TouchLocation>)
    requires |touches| <= MaxNumberOfTouches
    ensures var r := UpdateAllTouches(native, New(), touches);
      && r.error.None?
      && forall t :: t in touches && t.id != FreeId ==>
        exists k :: 0 <= k < MaxNumberOfTouches && r.updater.ids[k] == t.id && r.updater.states[k] == Pressing
  {
    IdleSlotsPassThrough(native, New(), 0, touches);
    FreeCountAllFree(New().ids);
    EnoughFreeSlots(native, New(), touches);
    NewTouchesArePressing(native, New(), touches);
  }
}

=== FILE: wrappers.dfy ===
/** Failure-compatible wrappers used across the model: `Option` stands for a
    nullable reference, `Result` for a call that either returns or throws. */
module Wrappers {

  /** A nullable value: `None` plays the role of `null`. */
  datatype Option<+T> = None | Some(value: T) {

    predicate IsFailure() {
      None?
    }

    function PropagateFailure<U>(): Option<U>
      requires None?
    {
      None
    }

    function Extract(): T
      requires Some?
    {
      value
    }
  }

  /** The outcome of an operation that may throw: `Failure` carries the exception. */
  datatype Result<+R, +E> = Success(value: R) | Failure(error: E) {

    predicate IsFailure() {
      Failure?
    }

    function PropagateFailure<U>(): Result<U, E>
      requires Failure?
    {
      Failure(error)
    }

    function Extract(): R
      requires Success?
    {
      value
    }
  }
}

=== FILE: xna_vertex_format.dfy ===
/** The conversion of an engine vertex format to XNA vertex elements
    (Graphics/Xna/XnaVertexFormat.cs): each element keeps its offset, its
    type selects an XNA element format and usage, and elements sharing a
    usage are numbered 0, 1, 2, ... in order. */
module XnaVertexFormatModel {
  import opened Wrappers

  /** `VertexElementType`: the types the converter knows, and any other
      value by name. */
  datatype VertexElementType =
    | Position2D | Position3D | Normal | Tangent | Color
    | TextureUV | TextureUVW | LightMapUV | ExtraUV | SkinIndices | SkinWeights
    | OtherElementType(name: string)

  /** An engine `VertexElement`, as far as the converter reads it. */
  datatype VertexElement = VertexElement(elementType: VertexElementType, offset: int)

  datatype VertexElementFormat = Vector2 | Vector3 | ColorFormat | Short2 | NormalizedShort2

  datatype VertexElementUsage =
    | PositionUsage | NormalUsage | TangentUsage | ColorUsage
    | TextureCoordinate | BlendIndices | BlendWeight

  /** An XNA `VertexElement`. */
  datatype XnaElement = XnaElement(
    offset: int, format: VertexElementFormat, usage: VertexElementUsage, usageIndex: nat)

  datatype ConversionError =
    | ElementTypeNotSupported(elementType: VertexElementType)
    | ElementUsageNotSupported(elementType: VertexElementType)

  /** The types both switches list. */
  predicate IsSupported(t: VertexElementType) {
    !t.OtherElementType?
  }

  /** `ConvertVertexType`. */
  function ConvertVertexType(t: VertexElementType): (r: Result<VertexElementFormat, ConversionError>)
    ensures r.Failure? <==> !IsSupported(t)
    ensures r.Failure? ==> r.error == ElementTypeNotSupported(t)
    ensures r.Success? ==> (r.value == Vector2 <==> t in {Position2D, TextureUV, LightMapUV, ExtraUV})
    ensures r.Success? ==> (r.value == Vector3 <==> t in {Position3D, Normal, Tangent, TextureUVW})
    ensures r.Success? ==> (r.value == ColorFormat <==> t == Color)
    ensures r.Success? ==> (r.value == Short2 <==> t == SkinIndices)
    ensures r.Success? ==> (r.value == NormalizedShort2 <==> t == SkinWeights)
  {
    match t
    case Position2D => Success(Vector2)
    case TextureUV => Success(Vector2)
    case LightMapUV => Success(Vector2)
    case ExtraUV => Success(Vector2)
    case Position3D => Success(Vector3)
    case Normal => Success(Vector3)
    case Tangent => Success(Vector3)
    case TextureUVW => Success(Vector3)
    case Color => Success(ColorFormat)
    case SkinIndices => Success(Short2)
    case SkinWeights => Success(NormalizedShort2)
    case OtherElementType(_) => Failure(ElementTypeNotSupported(t))
  }

  /** `ConvertVertexUsage`. */
  function ConvertVertexUsage(t: VertexElementType): (r: Result<VertexElementUsage, ConversionError>)
    ensures r.Failure? <==> !IsSupported(t)
    ensures r.Failure? ==> r.error == ElementUsageNotSupported(t)
    ensures r.Success? ==> (r.value == PositionUsage <==> t in {Position2D, Position3D})
    ensures r.Success? ==> (r.value == TextureCoordinate <==> t in {TextureUV, TextureUVW, LightMapUV, ExtraUV})
    ensures r.Success? ==> (r.value == NormalUsage <==> t == Normal)
    ensures r.Success? ==> (r.value == TangentUsage <==> t == Tangent)
    ensures r.Success? ==> (r.value == ColorUsage <==> t == Color)
    ensures r.Success? ==> (r.value == BlendIndices <==> t == SkinIndices)
    ensures r.Success? ==> (r.value == BlendWeight <==> t == SkinWeights)
  {
    match t
    case Position2D => Success(PositionUsage)
    case Position3D => Success(PositionUsage)
    case Normal => Success(NormalUsage)
    case Tangent => Success(TangentUsage)
    case Color => Success(ColorUsage)
    case TextureUV => Success(TextureCoordinate)
    case TextureUVW => Success(TextureCoordinate)
    case LightMapUV => Success(TextureCoordinate)
    case ExtraUV => Success(TextureCoordinate)
    case SkinIndices => Success(BlendIndices)
    case SkinWeights => Success(BlendWeight)
    case OtherElementType(_) => Failure(ElementUsageNotSupported(t))
  }

  /** The two switches agree on what they support, and the type is
      converted first, so `ElementUsageNotSupported` is never raised. */
  lemma UsageNeverFailsAfterType(t: VertexElementType)
    ensures ConvertVertexType(t).Success? <==> ConvertVertexUsage(t).Success?
  {
  }

  /** How many of `elements` have a supported type with the given usage. */
  function CountUsage(elements: seq<VertexElement>, usage: VertexElementUsage): nat
    decreases |elements|
  {
    if |elements| == 0 then 0
    else
      var last := elements[|elements| - 1];
      CountUsage(elements[..|elements| - 1], usage)
        + (if ConvertVertexUsage(last.elementType) == Success(usage) then 1 else 0)
  }

  /** The first element whose type neither switch lists. */
  function FirstUnsupported(elements: seq<VertexElement>): (r: Option<nat>)
    ensures r.Some? ==> r.value < |elements| && !IsSupported(elements[r.value].elementType)
    ensures r.Some? ==> forall j :: 0 <= j < r.value ==> IsSupported(elements[j].elementType)
    ensures r.None? ==> forall j :: 0 <= j < |elements| ==> IsSupported(elements[j].elementType)
    decreases |elements|
  {
    if |elements| == 0 then None
    else if !IsSupported(elements[0].elementType) then Some(0)
    else
      var rest := FirstUnsupported(elements[1..]);
      if rest.Some? then Some(rest.value + 1) else None
  }

  /** The counters after some elements: a usage is present once an
      element with it was seen, and holds the index the last such element
      was given. */
  predicate CountersMatch(usageCounts: map<VertexElementUsage, nat>, seen: seq<VertexElement>) {
    forall u :: (u in usageCounts <==> CountUsage(seen, u) > 0)
      && (u in usageCounts ==> usageCounts[u] == CountUsage(seen, u) - 1)
  }

  /** The XNA element for `element`, given the elements before it: same
      offset, converted format and usage, and as usage index the number of
      earlier elements with that usage. */
  predicate ConvertedAs(x: XnaElement, element: VertexElement, before: seq<VertexElement>) {
    && x.offset == element.offset
    && Success(x.format) == ConvertVertexType(element.elementType)
    && Success(x.usage) == ConvertVertexUsage(element.elementType)
    && x.usageIndex == CountUsage(before, x.usage)
  }

  /** `ConvertToXnaElement`: the type is converted first, so an unsupported
      type throws before any counter moves; then the usage's counter is
      created at 0 or incremented, and becomes the usage index. */
  function ConvertToXnaElement(usageCounts: map<VertexElementUsage, nat>, element: VertexElement)
    : (r: Result<(XnaElement, map<VertexElementUsage, nat>), ConversionError>)
    ensures r.Failure? <==> !IsSupported(element.elementType)
    ensures r.Failure? ==> r.error == ElementTypeNotSupported(element.elementType)
    ensures r.Success? ==>
      var (x, counts) := r.value;
      && x.offset == element.offset
      && Success(x.format) == ConvertVertexType(element.elementType)
      && Success(x.usage) == ConvertVertexUsage(element.elementType)
      && x.usageIndex == (if x.usage in usageCounts then usageCounts[x.usage] + 1 else 0)
      && counts == usageCounts[x.usage := x.usageIndex]
  {
    var vertexType :- ConvertVertexType(element.elementType);
    var usage := ConvertVertexUsage(element.elementType).value;
    var counts := if usage in usageCounts then usageCounts[usage := usageCounts[usage] + 1] else usageCounts[usage := 0];
    Success((XnaElement(element.offset, vertexType, usage, counts[usage]), counts))
  }

  /** Converting the next element keeps the counters in step with the
      elements seen, and numbers it by the earlier elements of its usage. */
  lemma ConvertStep(usageCounts: map<VertexElementUsage, nat>, elements: seq<VertexElement>, i: nat)
    requires i < |elements| && IsSupported(elements[i].elementType)
    requires CountersMatch(usageCounts, elements[..i])
    ensures var (x, counts) := ConvertToXnaElement(usageCounts, elements[i]).value;
      && CountersMatch(counts, elements[..i + 1])
      && ConvertedAs(x, elements[i], elements[..i])
  {
    CountUsageStep(elements, i);
  }

  /** `ConvertFrom`: the usage counters start empty on every call. The
      output has one element per input element, in order, each converted as
      `ConvertedAs` says. The first unsupported type throws. */
  method ConvertFrom(elements: seq<VertexElement>) returns (r: Result<seq<XnaElement>, ConversionError>)
    ensures r.Failure? <==> FirstUnsupported(elements).Some?
    ensures r.Failure? ==> r.error == ElementTypeNotSupported(elements[FirstUnsupported(elements).value].elementType)
    ensures r.Success? ==> |r.value| == |elements|
    ensures r.Success? ==> forall i :: 0 <= i < |elements| ==> ConvertedAs(r.value[i], elements[i], elements[..i])
  {
    var usageCounts: map<VertexElementUsage, nat> := map[];
    var converted: seq<XnaElement> := [];
    var i := 0;
    while i < |elements|
      invariant 0 <= i <= |elements| && |converted| == i
      invariant forall j :: 0 <= j < i ==> IsSupported(elements[j].elementType)
      invariant CountersMatch(usageCounts, elements[..i])
      invariant forall j :: 0 <= j < i ==> ConvertedAs(converted[j], elements[j], elements[..j])
    {
      var step := ConvertToXnaElement(usageCounts, elements[i]);
      if step.Failure? {
        FirstUnsupportedAt(elements, i);
        return Failure(step.error);
      }
      ConvertStep(usageCounts, elements, i);
      converted := converted + [step.value.0];
      usageCounts := step.value.1;
      i := i + 1;
    }
    assert elements[..i] == elements;
    return Success(converted);
  }

  /** One more element counts towards its own usage only. */
  lemma CountUsageStep(elements: seq<VertexElement>, i: nat)
    requires i < |elements|
    ensures forall u ::
      CountUsage(elements[..i + 1], u)
        == CountUsage(elements[..i], u) + (if ConvertVertexUsage(elements[i].elementType) == Success(u) then 1 else 0)
  {
    assert elements[..i + 1][..i] == elements[..i];
  }

  lemma {:induction false} FirstUnsupportedAt(elements: seq<VertexElement>, i: nat)
    requires i < |elements| && !IsSupported(elements[i].elementType)
    requires forall j :: 0 <= j < i ==> IsSupported(elements[j].elementType)
    ensures FirstUnsupported(elements) == Some(i)
    decreases i
  {
    if i > 0 {
      FirstUnsupportedAt(elements[1..], i - 1);
    }
  }

  /** Counting usages over a list is counting over its parts. */
  lemma {:induction false} CountUsageAppend(a: seq<VertexElement>, b: seq<VertexElement>, usage: VertexElementUsage)
    ensures CountUsage(a + b, usage) == CountUsage(a, usage) + CountUsage(b, usage)
    decreases |b|
  {
    if |b| == 0 {
      assert a + b == a;
    } else {
      assert (a + b)[..|a + b| - 1] == a + b[..|b| - 1];
      CountUsageAppend(a, b[..|b| - 1], usage);
    }
  }

  /** Within one usage the indices are exactly 0, 1, ..., so no two
      elements of one usage share an index and no index is skipped. */
  lemma UsageIndicesAreDistinct(elements: seq<VertexElement>, i: nat, j: nat, usage: VertexElementUsage)
    requires i < j < |elements|
    requires ConvertVertexUsage(elements[i].elementType) == Success(usage)
    requires ConvertVertexUsage(elements[j].elementType) == Success(usage)
    ensures CountUsage(elements[..i], usage) < CountUsage(elements[..j], usage)
  {
    assert elements[..j] == elements[..i + 1] + elements[i + 1..j];
    CountUsageAppend(elements[..i + 1], elements[i + 1..j], usage);
    assert elements[..i + 1][..i] == elements[..i];
  }

  /** The engine's textured 2D format with a second texture channel: the
      two UV elements are texture coordinates 0 and 1. */
  lemma TwoTextureChannels()
    ensures var es := [VertexElement(Position2D, 0), VertexElement(TextureUV, 8), VertexElement(LightMapUV, 16)];
      && CountUsage(es[..0], PositionUsage) == 0
      && CountUsage(es[..1], TextureCoordinate) == 0
      && CountUsage(es[..2], TextureCoordinate) == 1
  {
    var es := [VertexElement(Position2D, 0), VertexElement(TextureUV, 8), VertexElement(LightMapUV, 16)];
    assert es[..2][..1] == es[..1];
    assert es[..1][..0] == es[..0];
  }
}
